=== FILE: README.md ===
# PB_Assistant: a Dafny model of the search assistant's core

PB_Assistant answers questions about scientific papers on planetary
boundaries. Papers are imported from PDFs: GROBID's TEI header is parsed, the
record is checked against the database for duplicates, and the full text is
stored. A question runs a retrieval-augmented LLM chain, and the answer, its
cited chunks and the source articles are rendered on the result page. The
browser side keeps a sidebar of past searches, filed into folders, with a
spotlight search, per-item action menus, drag and drop, and collapsible
sections whose state survives a reload.

This project models that core as pure Dafny functions over immutable data.
The browser's jQuery handlers become functions from a page state to the next
page state. A request the page sends, such as a move, delete or create call,
is returned as a value. Each Python service becomes a function over the
records it reads. The ORM, the HTTP clients, GROBID, the LLM and the embedder
are inputs: what they return, or the fact that they raise, is an argument.

Where the code has a defect (see "## Findings"), the operation is modelled
as written, and the evidently intended behaviour sits beside it in a separate
member, named in that table's last column, with its property proved.

One module per concern:

| module | models |
|---|---|
| `Base`, `Strings`, `JsValues`, `PyValues` | options and results, filters and maps, Python/JavaScript `strip`/`trim`, ASCII `lower`, `split`/`join`, `parseInt`, strict equality, Python values and truthiness |
| `HistoryApi` | `moveHistoryItem` and `deletePrompt` in main.history.js |
| `SidebarRender` | `loadPromptHistory`: placing items into folders and the unfiled list |
| `SidebarDom`, `OpenFolders` | the rendered folder markup, the `openFolders` list in local storage, `restoreFolderState` |
| `ActionMenu`, `MenuPosition` | the per-item actions menu, its submenu, and its placement in the viewport |
| `DragDrop` | dragging history items onto folders and back to the top list |
| `Spotlight` | the spotlight search in main.ui.js: filter, categories and keyboard navigation |
| `Sections`, `CreateFolder`, `Titles`, `TimeAgo`, `ContentPanel`, `LegacySidebar` | collapsible sections, the new-folder dialog, title shortening, relative times, the document panel, and the older flat history list of main.js |
| `QaChain` | qa_chain.py: normalising the LLM's answer, cutting JSON out of its output, pairing cited chunks with documents |
| `ArticleRenderer`, `DatabaseHandler` | the result page's article dictionaries and the database reads behind them |
| `TeiHeader`, `PaperData`, `Importer`, `PdfIngest` | parsing GROBID's TEI header, translating it into a paper record, duplicate detection and import, and ingesting one PDF |
| `Views` | the website's views: the Ollama model list, search validation, the history feed and the anonymous user id |

## Model

| member | source | states |
|---|---|---|
| ActionMenu.Init | static/website/assets/js/main.history.js:270-272 | after a render every item has a menu view, all in the rendered (hidden) state, and nothing is open |
| ActionMenu.Put | static/website/assets/js/main.history.js:334-339 | a jQuery call on one item's menu changes only that item's view, and nothing when the item is not rendered |
| ActionMenu.InitInv | static/website/assets/js/main.history.js:270-272 | the initial state satisfies the menu invariant: a menu is shown exactly when it is the open one, a submenu exactly when it is the open submenu, and only the open menu floats |
| ActionMenu.AtMostOneOpen | static/website/assets/js/main.history.js:332-393 | under the invariant at most one menu is visible, and with nothing open every menu and submenu is hidden and back in its row |
| ActionMenu.CloseOpenMenuCloses | static/website/assets/js/main.history.js:332-343 | `closeOpenMenu` keeps the invariant and leaves neither a menu nor a submenu open |
| ActionMenu.DocumentClickEffect | static/website/assets/js/main.history.js:345-353 | a click outside the open menu and its button closes it; a click inside changes nothing |
| ActionMenu.CloseOthersEffect | static/website/assets/js/main.history.js:363-377 | before toggling, any other open menu is closed and any open submenu hidden; only the clicked item's menu may stay open |
| ActionMenu.OpenView | static/website/assets/js/main.history.js:304-390 | opening a menu shows it, highlights it, floats it into `<body>` and pins it at the computed place |
| ActionMenu.CloseView | static/website/assets/js/main.history.js:317-385 | closing a menu hides it, removes the highlight and puts it back in its row |
| ActionMenu.OpenFromClosed | static/website/assets/js/main.history.js:386-391 | opening from an all-closed state keeps the invariant and pins the menu at `positionActionsMenu`'s place |
| ActionMenu.TriggerClickOpens | static/website/assets/js/main.history.js:355-393 | clicking the button of a menu that is not open opens exactly that menu, with no submenu open |
| ActionMenu.TriggerClickCloses | static/website/assets/js/main.history.js:355-393 | clicking the button of the open menu closes it and leaves nothing open |
| ActionMenu.TriggerClickToggles | static/website/assets/js/main.history.js:355-393 | the actions button toggles its own menu, closes any other one, and keeps the invariant |
| ActionMenu.FloatOnce | static/website/assets/js/main.history.js:304-315 | floating twice records the original parent and moves the menu once; only the pinned position changes |
| ActionMenu.RestoreIdle | static/website/assets/js/main.history.js:317-319 | restoring a menu that does not float changes nothing |
| ActionMenu.SubmenuEntries | static/website/assets/js/main.history.js:431-464 | the submenu lists one choice per folder, in order, or the single "no folders" note when there are none |
| ActionMenu.MoveOptionToggles | static/website/assets/js/main.history.js:407-468 | "Move to folder" toggles the open menu's submenu, keeps the menu open, and fills the submenu when it opens |
| ActionMenu.FolderPick | static/website/assets/js/main.history.js:443-482 | picking a folder sends a move of the item into that folder |
| ActionMenu.DeleteClick | static/website/assets/js/main.history.js:501-513 | as written, "Delete" passes `deletePrompt` the id text from the button id: its string form names the item, and it is never strictly equal to any parsed `data-history-id` |
| ActionMenu.DeleteClickIntended | static/website/assets/js/main.history.js:501-513 | the corrected handler closes the menus the same way and passes the id parsed as a number |
| ActionMenu.DeleteClickNavigation | static/website/assets/js/main.history.js:499-513 | deleting item n from its menu never leaves the page as written; with the numeric id it leaves exactly when item n is on screen; both requests go to the same URL |
| ActionMenu.HideRestoreView | static/website/assets/js/main.history.js:449-506 | hiding and restoring a menu view leaves it hidden and back in place |
| ActionMenu.CloseAfterActionCloses | static/website/assets/js/main.history.js:472-497 | after a folder pick or the new-folder shortcut everything is closed and the invariant holds, while the item's button and row keep their highlight (these handlers never remove it) |
| ActionMenu.DeleteClickCloses | static/website/assets/js/main.history.js:501-513 | after "Delete" everything is closed and the invariant holds; the item's button and row keep their highlight |
| ActionMenu.ActionsCloseEverything | static/website/assets/js/main.history.js:443-513 | each menu action leaves no menu and no submenu open and keeps the invariant |
| ActionMenu.RepositionKeepsInv | static/website/assets/js/main.history.js:395-405 | scrolling or resizing re-pins the open menu and changes nothing else |
| ActionMenu.SecondMenuReplacesFirst | static/website/assets/js/main.history.js:355-393 | clicking one item's button and then another's keeps the invariant and leaves only the second menu visible and highlighted; the first loses its highlight |
| MenuPosition.Position | static/website/assets/js/main.history.js:277-302 | the pinned menu never starts above the top margin or runs past the right margin; it keeps the left margin when it fits; it sits at the button, or flips above it (6px gap) when it would run off the bottom |
| MenuPosition.Place | static/website/assets/js/main.history.js:278-280 | with the menu or button missing nothing is placed; otherwise the place is `Position` of the geometry |
| MenuPosition.FitsInViewport | static/website/assets/js/main.history.js:291-294 | a menu smaller than the viewport less the margins, for a button on screen, lies wholly inside the 8px margins |
| MenuPosition.StaysAtButton | static/website/assets/js/main.history.js:286-294 | a menu that already fits at its button is pinned exactly at the button's corner |
| HistoryApi.MoveOutcome | static/website/assets/js/main.history.js:1-15 | the sidebar is rebuilt exactly when the move succeeds; a failed move shows "Failed to move item." and does nothing else |
| HistoryApi.DeleteOutcome | static/website/assets/js/main.history.js:23-39 | a successful delete navigates to "/" exactly when the id is strictly equal to the parsed `data-history-id`, and otherwise rebuilds the sidebar; a failure shows the error message |
| HistoryApi.DeletePrompt | static/website/assets/js/main.history.js:17-25 | the delete request is sent only after confirmation, to "/delete-history/" followed by the id's text |
| HistoryApi.MenuDeleteAsWrittenNeverNavigates | static/website/assets/js/main.history.js:499-513 | with the string id the menu passes, no delete ever navigates away, not even for the item on screen |
| HistoryApi.MenuDeleteNavigatesIffActive | static/website/assets/js/main.history.js:17-39 | with a numeric id, deleting item n navigates exactly when the page shows item n, and the request URL is the same as with the string id |
| ContentPanel.HideContentPanel | static/website/assets/js/main.utils.js:33-42 | hiding empties and hides the panel and unhighlights that row, keeping the selection |
| ContentPanel.DisplayContents | static/website/assets/js/main.utils.js:4-31 | the row becomes selected; the panel shows exactly when some content exists, with the shortened title, the used paragraphs first and then the unused ones, in order; otherwise it is hidden and the row unhighlighted |
| ContentPanel.DisplayMovesHighlight | static/website/assets/js/main.utils.js:6-29 | selecting a row moves the highlight: afterwards only that row is highlighted while the panel shows, and none when it is hidden |
| ContentPanel.HideKeepsInv | static/website/assets/js/main.utils.js:33-37 | closing the panel keeps the panel invariant and leaves no row highlighted |
| ContentPanel.ZeroIdKeepsHighlight | static/website/assets/js/main.utils.js:6-8 | row id 0 is loosely equal to `''`, so selecting another row after it leaves both rows highlighted |
| CreateFolder.FailureEffect | static/website/assets/js/main.ui.js:547-589 | a failed create shows the parsed reply's non-empty `error` inside the dialog; otherwise the reply text decides: no text or text that is not JSON gives the generic "Failed to create folder." toast, JSON text with a non-empty `error` shows it inline, JSON text without one shows nothing; a failure never closes the dialog |
| CreateFolder.FailureText | static/website/assets/js/main.ui.js:559-579 | the reply-text branch: the toast exactly when there is no text or it is not JSON; the text's non-empty `error` inline; nothing at all exactly when the text is JSON without an `error` |
| CreateFolder.CreateClick | static/website/assets/js/main.ui.js:473-605 | a blank name (after `trim`) is refused with "Folder name cannot be empty." and sends nothing; any other name first asks for the existing folders; the dialog closes and the sidebar reloads only after a successful create |
| CreateFolder.CreateIffFresh | static/website/assets/js/main.ui.js:483-523 | the create request is sent exactly when the trimmed name is non-empty, the folder list was fetched and no folder has that name ignoring case; it carries the trimmed name and the colour |
| CreateFolder.CreatedNameTrimmed | static/website/assets/js/main.ui.js:475-523 | the name sent to the server is never empty and has no surrounding white space |
| CreateFolder.DuplicateIgnoresCase | static/website/assets/js/main.ui.js:501 | the duplicate test lower-cases both sides, so the typed name's case does not matter |
| CreateFolder.SecondCreateRefused | static/website/assets/js/main.ui.js:499-509 | after a folder is created, the same name in any case and with any surrounding space is refused with the "already exists" message |
| DragDrop.DragStart | static/website/assets/js/main.history.js:207-210 | starting a drag remembers the dragged row and dims it, and changes no highlight |
| DragDrop.DragEnd | static/website/assets/js/main.history.js:211-214 | ending a drag forgets the row and removes the dimming, and changes no highlight |
| DragDrop.HeaderDragOver | static/website/assets/js/main.history.js:216-218 | dragging over a folder header adds its highlight and touches no other header, nor the drag or the top list |
| DragDrop.HeaderDragLeave | static/website/assets/js/main.history.js:219-220 | leaving a header removes only its highlight, and changes nothing else |
| DragDrop.HeaderDrop | static/website/assets/js/main.history.js:221-229 | a drop on a header removes its highlight and sends a move exactly when a row is being dragged, with the row's numeric id and the second `-` field of the header id; nothing else changes |
| DragDrop.HeaderDropNamesFolder | static/website/assets/js/main.history.js:221-229 | a drop on folder n's header asks to move the dragged row into folder n: the id sent is n's digit string, which parses back to n |
| DragDrop.NoDragNoRequest | static/website/assets/js/main.history.js:224-243 | a drop with no drag in progress sends nothing, on a header or on the top list |
| DragDrop.TopDragOver | static/website/assets/js/main.history.js:232-237 | as written, drag-over highlights the top list exactly when the dragged row has an ancestor whose id starts with `folder-`, and changes nothing else |
| DragDrop.TopDragOverIntended | static/website/assets/js/main.history.js:232-237 | the intended drag-over highlights the top list exactly when the dragged row comes from a folder |
| DragDrop.TopDragLeave | static/website/assets/js/main.history.js:238-239 | leaving the top list removes its highlight and changes nothing else |
| DragDrop.TopDrop | static/website/assets/js/main.history.js:240-250 | a drop on the top list removes its highlight and moves the row to no folder (`null`) exactly when it was dragged out of a folder; nothing else changes |
| DragDrop.TopDropAsWritten | static/website/assets/js/main.history.js:240-250 | the drop as written removes the top list's highlight and nothing else, and sends a move to no folder (`moveHistoryItem(id, null)`) exactly when the dragged row has an ancestor whose id starts with `folder-` |
| DragDrop.DropBackFromFolder | static/website/assets/js/main.history.js:231-250 | for a row inside a rendered folder, the test as written finds no `folder-` ancestor, so the top list is never highlighted and nothing is sent; the intended test highlights it and moves the row to the top level |
| DragDrop.DropTopRowOnTop | static/website/assets/js/main.history.js:246 | a row of the top list dropped back on the top list sends nothing |
| JsValues.LeadingDigits | static/website/assets/js/main.history.js:23 | the digits `parseInt` reads are the longest run of ASCII digits at the start of the text |
| JsValues.ParseInt | static/website/assets/js/main.history.js:23 | `parseInt(x, 10)` of an attribute yields a number or `NaN`, and `NaN` for a missing attribute |
| JsValues.ParseIntOfDigits | static/website/assets/js/main.history.js:23 | a digit string, with or without a leading minus, parses to its decimal value |
| JsValues.ParseIntOfDecimal | static/website/assets/js/main.history.js:23 | `parseInt` reads back the decimal text of every integer, so the page's `data-history-id` names one item |
| LegacySidebar.LegacyLoad | static/website/assets/js/main.js:187-229 | an empty feed hides the list, shows the empty note, hides Clear and keeps the old rows; otherwise one row per item in order, labelled by the 18-character `formatTitle`, active exactly when its id is strictly equal to the page's id |
| LegacySidebar.AtMostOneActive | static/website/assets/js/main.js:188-197 | at most one id is active, and none when `data-history-id` is missing or not a number |
| LegacySidebar.LegacyDeleteNavigatesIffActive | static/website/assets/js/main.js:158-214 | the row's delete button passes the numeric id, so a successful delete leaves for "/" exactly when the row is the active one, and otherwise reloads the list |
| LegacySidebar.AgreesWithoutFolders | static/website/assets/js/main.js:187-229 | with no folders, the newer sidebar of main.history.js lists the same ids in the same order with the same active row |
| OpenFolders.Add | static/website/assets/js/main.history.js:537-543 | `addOpenFolder` stores the header id once: the id is present afterwards, nothing else is added, and the earlier entries keep their order |
| OpenFolders.Remove | static/website/assets/js/main.history.js:545-549 | `removeOpenFolder` drops every entry strictly equal to the header id and keeps all others |
| OpenFolders.AddIdempotent | static/website/assets/js/main.history.js:539 | opening the same folder twice stores it once |
| OpenFolders.AddKeepsDistinct | static/website/assets/js/main.history.js:539-541 | a list without repeats stays without repeats |
| OpenFolders.RemoveKeepsOthers | static/website/assets/js/main.history.js:547 | removing one id leaves the other entries in their original order |
| OpenFolders.RemoveAfterAdd | static/website/assets/js/main.history.js:537-549 | opening then closing a folder leaves the list as if it had only been closed |
| OpenFolders.AddAfterRemove | static/website/assets/js/main.history.js:537-549 | closing then opening a folder moves it to the end |
| OpenFolders.Selector | static/website/assets/js/main.history.js:554-570 | a stored number or digit string gets the `#folder-` prefix, any other string is used as an id, and a value that is neither is skipped |
| OpenFolders.SelectorSpellings | static/website/assets/js/main.history.js:555-563 | all three stored spellings of folder n (header id, number, digit string) select folder n's header |
| Sections.ViewOf | static/website/assets/js/main.ui.js:285-295 | a collapsed section hides its content, unrotates the icon, marks the header `collapsed` and sets `aria-expanded` to "false"; an expanded one is the opposite |
| Sections.Load | static/website/assets/js/main.ui.js:283-295 | on load the section is collapsed exactly when the stored value is the string "true" |
| Sections.Toggle | static/website/assets/js/main.ui.js:297-311 | a toggle flips the content's visibility, stores the new collapsed flag as "true" or "false", and the header follows it |
| Sections.HeaderClick | static/website/assets/js/main.ui.js:313-319 | a click on a button inside the header changes nothing; any other click toggles |
| Sections.HeaderKey | static/website/assets/js/main.ui.js:321-326 | Enter and Space flip the content's visibility and store the flag the next page load restores; other keys leave the section alone |
| Sections.ToggleSurvivesReload | static/website/assets/js/main.ui.js:284-300 | the state a toggle leaves is exactly the state the next page load restores from storage |
| Sections.ToggleTwice | static/website/assets/js/main.ui.js:297-311 | two toggles show the section as before and leave its collapsed flag stored |
| Sections.OnlyTrueCollapses | static/website/assets/js/main.ui.js:284 | a missing value, "false" or any other spelling than "true" loads the section expanded |
| SidebarDom.FolderListNodes | static/website/assets/js/main.history.js:61-82 | `#folderList` holds one wrapper element per folder, each a header followed by its content (the lookups over it are stated by `LocateRendered`) |
| SidebarDom.LocateWrapper | static/website/assets/js/main.history.js:62-80 | in one folder's markup an id lookup never finds the content below the element it hits; the hit's next sibling is the content exactly when the id is the header's |
| SidebarDom.LocateRendered | static/website/assets/js/main.history.js:61-82 | across the rendered folders, the element an id selects never holds folder content, and is followed by a folder's content exactly when the id is a folder header id |
| SidebarDom.RestoreAsWrittenExpandsNothing | static/website/assets/js/main.history.js:551-584 | as written, `restoreFolderState` searches the named element's own subtree for the content; over the rendered folder list, where a header's content is its sibling, no stored entry expands a folder (entries naming `#folderList` itself or no valid selector: see "## Left out") |
| SidebarDom.RestoreExpandsStored | static/website/assets/js/main.history.js:551-584 | looking at the header's next sibling instead, a folder is expanded exactly when a stored entry selects its header id |
| SidebarDom.RestoreExample | static/website/assets/js/main.history.js:551-584 | a stored `["folder-3", "folder-7"]` over folders 3, 5 and 7 expands 3 and 7 and not 5 |
| SidebarDom.ToggleFolder | static/website/assets/js/main.history.js:185-202 | clicking a folder's icon or name flips it, and its header id is stored exactly when it ends up open |
| SidebarDom.ToggleSurvivesReload | static/website/assets/js/main.history.js:551-584 | a folder opened by hand is expanded again after the next render with the sibling lookup; as written it never is |
| SidebarDom.FolderRowNotRecognised | static/website/assets/js/main.history.js:231-250 | as written, a row inside a folder has no ancestor whose id starts with `folder-` |
| SidebarDom.InFolderDistinguishes | static/website/assets/js/main.history.js:152-158 | the intended test says a row placed in a folder's content is in a folder and a top-level row is not |
| SidebarRender.LastFolderIndex | static/website/assets/js/main.history.js:59-62 | for a repeated folder id the map keeps the container built last; no id means no container |
| SidebarRender.Target | static/website/assets/js/main.history.js:152-153 | an item goes to a fetched folder's container or to the top list; which one is stated by `TargetByFolderId` |
| SidebarRender.Place | static/website/assets/js/main.history.js:94-160 | placing items yields one container per folder; which items each holds is stated by `PlaceCharacterized`, and that none is lost by `PlaceConservesCount` |
| SidebarRender.PlaceCharacterized | static/website/assets/js/main.history.js:94-160 | each folder holds exactly the items whose truthy `folder_id` names it, and the top list holds exactly the rest, both in fetch order |
| SidebarRender.PlaceConservesCount | static/website/assets/js/main.history.js:94-160 | no item is lost or shown twice: the containers and the top list together hold as many items as were fetched |
| SidebarRender.TargetByFolderId | static/website/assets/js/main.history.js:152 | with distinct folder ids, an item is in folder k exactly when its `folder_id` is k's non-zero id, and at top level exactly when `folder_id` is falsy or names no fetched folder |
| SidebarRender.UnfiledWhenNoFolderId | static/website/assets/js/main.history.js:152-158 | items sent without a numeric `folder_id` all stay in the top list and every folder is empty |
| SidebarRender.RenderRows | static/website/assets/js/main.history.js:94-150 | one row per item, in order |
| SidebarRender.Render | static/website/assets/js/main.history.js:44-182 | the folder list shows exactly when there are folders and the "no folders" note otherwise; the history list shows exactly when the top list is non-empty, the empty note exactly when it is not; Clear shows exactly when any item was fetched; the top list is the rendering of the unfiled items, and each folder's rows the rendering of the items placed in it, so it shows as many rows as items were placed in it, keeps its "No items" placeholder exactly when none was, and is expanded exactly when one of its rows is the active one |
| SidebarRender.EmptyNoteIffNothingPlaced | static/website/assets/js/main.history.js:152-156 | folder k keeps its "No items in this folder." placeholder exactly when no fetched item targets it |
| SidebarRender.ExpandedIffHoldsActive | static/website/assets/js/main.history.js:252-264 | after a render folder k is expanded exactly when it holds the item whose id is the page's |
| SidebarRender.NothingActiveWithoutId | static/website/assets/js/main.history.js:252-264 | a page with no parsable `data-history-id` highlights no row and expands no folder |
| Spotlight.Buttons | static/website/assets/js/main.ui.js:76-119 | the listing has one button per result plus the New chat button when it is shown |
| Spotlight.QueryNormalises | static/website/assets/js/main.ui.js:122 | the query ignores surrounding white space and letter case |
| Spotlight.Refilter | static/website/assets/js/main.ui.js:121-139 | refiltering keeps the category, input and cached items; it shows New chat exactly when the query is empty, at most 20 results with a query and 10 without, and resets the index to 0 or -1 |
| Spotlight.RefilterShowsSelection | static/website/assets/js/main.ui.js:121-139 | the list shown is the first page of the cached items that belong to the category and contain the query, in fetch order; the index is 0 exactly when that selection is non-empty |
| Spotlight.CategoriesPartition | static/website/assets/js/main.ui.js:125-129 | the `folders` and `unfiled` categories split the history between them, and `all` keeps everything |
| Spotlight.Open | static/website/assets/js/main.ui.js:141-168 | opening shows the overlay, resets the category to `all` when its buttons exist, and shows the loading note exactly when nothing is cached |
| Spotlight.Loaded | static/website/assets/js/main.ui.js:159-161 | a settled fetch caches the array it got, or nothing when the reply was not an array, and lists it |
| Spotlight.LoadFailedNote | static/website/assets/js/main.ui.js:162-164 | a failed fetch shows "Failed to load history." and keeps the cache |
| Spotlight.Close | static/website/assets/js/main.ui.js:170-175 | closing hides the overlay, clears the input and the index, and keeps the cache and category |
| Spotlight.ReopenShowsFirstPage | static/website/assets/js/main.ui.js:141-175 | reopening after a close lists New chat and the first ten cached entries, with the first highlighted |
| Spotlight.SetFilter | static/website/assets/js/main.ui.js:202-208 | choosing a category records it and re-lists |
| Spotlight.TypeInput | static/website/assets/js/main.ui.js:224-226 | typing records the input and re-lists |
| Spotlight.Activate | static/website/assets/js/main.ui.js:106-231 | clicking a result goes to `/history-item/<id>` and, for a filed entry, adds `folder-<folder_id>` to the open list once; New chat closes the spotlight and goes to `/index` |
| Spotlight.ActivateOpensItsFolder | static/website/assets/js/main.ui.js:106-116 | opening an entry of folder n stores the same header id the sidebar gives folder n, and doing it again stores nothing new |
| Spotlight.Eq | static/website/assets/js/main.ui.js:257 | `.eq(i)` picks the i-th button, counts from the end for a negative i, and picks nothing out of range |
| Spotlight.Enter | static/website/assets/js/main.ui.js:255-258 | Enter with no button at the index does nothing; Enter on a button opens what that button opens (`EnterOnResult`, `EnterWithoutQueryStartsNewChat`) |
| Spotlight.KeyDownAsWritten | static/website/assets/js/main.ui.js:233-261 | while the spotlight is closed, only Ctrl/Cmd+K changes it; the arrow keys' effect is stated by `ArrowKeysAsWrittenDoNothing` |
| Spotlight.ArrowKeysAsWrittenDoNothing | static/website/assets/js/main.ui.js:136-254 | as written, ArrowDown and ArrowUp leave a settled spotlight unchanged, because `filterSpotlight` resets the index they set |
| Spotlight.RefilterIgnoresIndex | static/website/assets/js/main.ui.js:136 | refiltering does not depend on the index it is given |
| Spotlight.ArrowDown | static/website/assets/js/main.ui.js:249 | ArrowDown moves the highlight one button down, stopping at the last, and changes nothing else |
| Spotlight.ArrowUp | static/website/assets/js/main.ui.js:253 | ArrowUp moves the highlight one button up, stopping at the first, and changes nothing else |
| Spotlight.KeyDown | static/website/assets/js/main.ui.js:233-261 | with the index kept, a closed spotlight still only reacts to Ctrl/Cmd+K; on an open one ArrowDown is the `ArrowDown` step (`ArrowDownKey`) |
| Spotlight.DownThenUp | static/website/assets/js/main.ui.js:249-253 | down then up returns to the same button when one was below it |
| Spotlight.DownEnterOpensSecond | static/website/assets/js/main.ui.js:247-258 | with a query and two results, ArrowDown then Enter opens the second result; as written the same keys open the first |
| Spotlight.ArrowDownKey | static/website/assets/js/main.ui.js:247-249 | the ArrowDown key on the open spotlight is the ArrowDown step |
| Spotlight.EnterOnResult | static/website/assets/js/main.ui.js:255-258 | Enter on the k-th result of a listing without New chat opens that result |
| Spotlight.EnterWithoutQueryStartsNewChat | static/website/assets/js/main.ui.js:131-258 | with an empty query Enter always starts a new chat: New chat is the first button, and with no results index -1 picks the last button, which is New chat as well |
| TimeAgo.RoundMonotone | static/website/assets/js/main.utils.js:81-87 | `Math.round` never decreases as its argument grows |
| TimeAgo.BucketOf | static/website/assets/js/main.utils.js:89-95 | each unit is picked exactly when its test is the first of the chain to hold (seconds < 60, minutes < 60, hours < 24, days < 7, weeks < 5, months < 12, else years), and carries that unit's own count |
| TimeAgo.TimeAgo | static/website/assets/js/main.utils.js:78-96 | an unreadable timestamp gives "NaNy ago"; a readable one gives "Just now" exactly when its rounded seconds are below 60 |
| TimeAgo.RecentIsJustNow | static/website/assets/js/main.utils.js:81-89 | a timestamp in the future or under 59.5 seconds old reads "Just now" |
| TimeAgo.CountsMonotone | static/website/assets/js/main.utils.js:81-86 | every rounded count grows with the age |
| TimeAgo.BucketMonotone | static/website/assets/js/main.utils.js:89-95 | an older timestamp never gets a smaller unit |
| TimeAgo.CountInRange | static/website/assets/js/main.utils.js:89-95 | the number shown is at least 1 and stays below its unit's bound: under 60 minutes, 24 hours, 7 days, 5 weeks, 12 months |
| Titles.EllipsizeMeaning | static/website/assets/js/main.history.js:518-523 | a title longer than the limit becomes a prefix of it plus "...", exactly the limit long; a shorter one is kept; shortening twice changes nothing |
| Titles.FormatTitle | static/website/assets/js/main.history.js:518-523 | a sidebar label is at most 25 characters, the title itself exactly when it fits, otherwise its first 22 characters and "..." |
| Titles.LegacyFormatTitle | static/website/assets/js/main.js:231-236 | the older list's label is at most 18 characters: the title when it fits, otherwise its first 15 characters and "..." |
| Titles.PanelTitle | static/website/assets/js/main.utils.js:18 | the panel heading is at most 80 characters: the title when it fits, otherwise its first 77 characters and "..." |
| Titles.FormatTitleIdempotent | static/website/assets/js/main.history.js:518-523 | shortening a label again changes nothing |
| Titles.FormatTitleVariants | static/website/assets/js/main.history.js:518-523 | the two sidebars agree on titles up to 18 characters and disagree on every title of 19 to 25 |
| QaChain.Normalize | PB_Assistant/website/services/qa_chain.py:35-40 | the response is `str` of the value, stripped, and `""` when missing; the chunk ids are the list's values as strings, in order, and none when the value is not a list |
| QaChain.NormalizeMissingKeys | PB_Assistant/website/services/qa_chain.py:36-37 | a dictionary with neither key normalises to an empty answer with no ids |
| QaChain.NormalizeDropsNonList | PB_Assistant/website/services/qa_chain.py:38-39 | a `chunk_id_list` that is not a list is dropped |
| QaChain.NormalizeToDictResponse | PB_Assistant/website/services/qa_chain.py:36-40 | normalising keeps an already stripped response |
| QaChain.NormalizeToDictChunks | PB_Assistant/website/services/qa_chain.py:37-40 | normalising keeps a list of string ids |
| QaChain.NormalizeIdempotent | PB_Assistant/website/services/qa_chain.py:35-40 | normalising a normalised answer changes nothing |
| QaChain.NormalizeStringifies | PB_Assistant/website/services/qa_chain.py:40 | integer ids come out as their decimal strings, in order |
| QaChain.Find | PB_Assistant/website/services/qa_chain.py:162-163 | `find` gives the first index of the character, or -1 exactly when it is absent |
| QaChain.FindLast | PB_Assistant/website/services/qa_chain.py:161 | the "last '}'" the comment asks for: the last index of the character, or -1 exactly when it is absent |
| QaChain.SliceBound | PB_Assistant/website/services/qa_chain.py:164 | a slice bound is clamped into the string, a negative one counting from the end |
| QaChain.PySlice | PB_Assistant/website/services/qa_chain.py:164 | `s[a:b]` is the characters between the clamped bounds, or empty when they cross |
| QaChain.JsonSliceAsWrittenShape | PB_Assistant/website/services/qa_chain.py:162-164 | the slice as written, when not empty, is `"}"` or starts at a `{`, and it ends at the first `}` of the text |
| QaChain.JsonSliceShape | PB_Assistant/website/services/qa_chain.py:160-164 | the slice from the first `{` to the last `}`, when not empty, is `"}"` or runs from a `{` to a `}` |
| QaChain.JsonSliceOfWrapped | PB_Assistant/website/services/qa_chain.py:160-164 | a JSON object surrounded by text without braces, such as a code fence or a preamble, is cut out exactly |
| QaChain.InnerBraceTruncates | PB_Assistant/website/services/qa_chain.py:162-164 | as written, an object with a `}` before its closing brace is cut at that inner brace; the last-brace slice keeps it whole |
| QaChain.FirstBraceSlice | PB_Assistant/website/services/qa_chain.py:162-164 | as written, the slice runs from the object's `{` up to its first `}` |
| QaChain.NoOpeningBrace | PB_Assistant/website/services/qa_chain.py:162-164 | text with no `{` yields `""` or `"}"`, either way |
| QaChain.ValuesOf | PB_Assistant/website/services/qa_chain.py:166-176 | a decoding error counts as `{}`; `response` and `chunk_id_list` are each taken when present and otherwise default on their own to `""` and `[]` |
| QaChain.ParseLlmOutput | PB_Assistant/website/services/qa_chain.py:159-176 | as written: the first-brace slice is decoded, and each of `response` and `chunk_id_list` is taken or defaulted on its own; a slice that does not decode gives both defaults |
| QaChain.ParseLlmOutputCorrected | PB_Assistant/website/services/qa_chain.py:159-176 | the parser the comment on line 161 describes: the same steps over the last-brace slice |
| QaChain.NotJsonGivesDefaults | PB_Assistant/website/services/qa_chain.py:167-176 | text with no `{` parses to `""` and `[]` both ways |
| QaChain.FlatObjectParsesAlike | PB_Assistant/website/services/qa_chain.py:159-176 | an object with one brace pair, bare or wrapped, parses the same both ways |
| QaChain.Pairs | PB_Assistant/website/services/qa_chain.py:150-153 | the comprehension pairs at most one entry per retrieved document; the pairs themselves are stated by `PairsOfList` |
| QaChain.Answer | PB_Assistant/website/services/qa_chain.py:148-156 | the answer is the parsed one; a falsy list comes back as is with no text ids; paired chunk ids come with as many text ids |
| QaChain.ProcessQaResponse | PB_Assistant/website/services/qa_chain.py:136-156 | with no documents a fixed answer and no ids, whatever the model said; otherwise the answer of the first-brace parser the source calls; paired chunk ids come with as many text ids, and unpaired ones with none |
| QaChain.ProcessQaResponseCorrected | PB_Assistant/website/services/qa_chain.py:136-156 | the same with the last-brace parser: no documents give the same fixed answer, otherwise the corrected parser's answer |
| QaChain.InnerBraceLosesAnswer | PB_Assistant/website/services/qa_chain.py:148-176 | when the answer's text quotes a `}`, the source returns `""` and `[]` because the truncated slice does not decode, while the corrected parser returns the object's `response` |
| QaChain.Cited | PB_Assistant/website/services/qa_chain.py:152 | the documents whose chunk id the answer lists: every such document, in retrieval order, and no other |
| QaChain.PairsOfList | PB_Assistant/website/services/qa_chain.py:150-153 | over well-formed documents and a list of ids, the comprehension yields the (id, chunk id) of each cited document, in order |
| QaChain.NothingMatchedKeepsList | PB_Assistant/website/services/qa_chain.py:149-156 | when no retrieved chunk is cited, the model's list comes back unchanged with no text ids |
| QaChain.CitedChunksPaired | PB_Assistant/website/services/qa_chain.py:149-156 | when some chunk is cited, position i holds the i-th cited document's chunk id and text id, and every chunk id returned was in the model's list |
| QaChain.NothingCitedNothingReturned | PB_Assistant/website/services/qa_chain.py:149 | an empty list of cited ids gives empty chunk and text ids |
| QaChain.SerializeDocuments | PB_Assistant/website/services/qa_chain.py:178-189 | one dictionary per document, in order, with keys `page_content` and `metadata` |
| QaChain.SerializeRoundTrip | PB_Assistant/website/services/qa_chain.py:178-189 | every serialised document reads back as itself |
| ArticleRenderer.UrlSource | PB_Assistant/website/services/articlerenderer.py:12-27 | an article with a DOI links to `https://doi.org/` followed by it; one without gets `""` |
| ArticleRenderer.UrlSourceNamesDoi | PB_Assistant/website/services/articlerenderer.py:12-27 | a non-empty link names the article's DOI: removing the resolver prefix gives the DOI back |
| ArticleRenderer.Year | PB_Assistant/website/services/articlerenderer.py:11-26 | the year is shown exactly when it is present and non-zero; otherwise "N/A" |
| ArticleRenderer.Journal | PB_Assistant/website/services/articlerenderer.py:14-33 | the journal is the source when it is non-empty, and "N/A" otherwise, so it is never blank |
| ArticleRenderer.RenderArticles | PB_Assistant/website/services/articlerenderer.py:3-17 | one dictionary per article, in order, carrying its DOI, title and authors |
| ArticleRenderer.AuthorsDisplay | PB_Assistant/website/services/articlerenderer.py:28-32 | an empty `authors_string` shows "N/A"; one with more than three comma-separated parts ends in "..."; the names shown are stated by `DisplayOfJoinedNames` |
| ArticleRenderer.DisplayOfJoinedNames | PB_Assistant/website/services/articlerenderer.py:28-32 | for an author list joined with ", ", the display is the first three names joined the same way, followed by "..." exactly when there are more than three |
| ArticleRenderer.DisplayOfStoredAuthors | PB_Assistant/website/services/articlerenderer.py:28-32 | for a paper whose authors all have plain names, the `authors_string` the database builds displays as its first three authors |
| ArticleRenderer.Classify | PB_Assistant/website/services/articlerenderer.py:34-35 | a document is considered only when its `id` is the article's text id; it is then cited exactly when its `chunk_id` is among the chunk ids; a missing key or absent chunk ids raises |
| ArticleRenderer.Contents | PB_Assistant/website/services/articlerenderer.py:34-35 | the cited and uncited lists fail on the same inputs; when they succeed they hold at most one text per document, with every `"` replaced |
| ArticleRenderer.ContentsAreFiltered | PB_Assistant/website/services/articlerenderer.py:34-35 | each list is this article's documents filtered by cited (or uncited), then cleaned, in document order |
| ArticleRenderer.PartitionCovers | PB_Assistant/website/services/articlerenderer.py:34-35 | between them the two lists hold each of the article's documents exactly once |
| ArticleRenderer.RenderArticlesAndContents | PB_Assistant/website/services/articlerenderer.py:20-38 | the result succeeds exactly when no article's documents raise; it then has one dictionary per article, in order, with its id, author display and both content lists |
| ArticleRenderer.RenderingsAgree | PB_Assistant/website/services/articlerenderer.py:3-38 | the two renderings agree on DOI, title, year, link and journal |
| DatabaseHandler.AuthorNames | PB_Assistant/website/services/databasehandler.py:16 | the names joined are the non-empty ones; the generator fails exactly when an entry is not a dictionary or a name is not a string |
| DatabaseHandler.AuthorsString | PB_Assistant/website/services/databasehandler.py:16 | building the author string fails exactly when the names cannot be joined |
| DatabaseHandler.AuthorNamesAreFiltered | PB_Assistant/website/services/databasehandler.py:16 | the names joined are exactly the truthy `name` values of the list, in list order |
| DatabaseHandler.NamelessAuthorsJoinEmpty | PB_Assistant/website/services/databasehandler.py:16 | authors without names give the empty string, not an error |
| DatabaseHandler.ToArticle | PB_Assistant/website/services/databasehandler.py:14-16 | a row becomes a dictionary with its own id, DOI, title, publication year, source and text id, and the joined author string; it fails exactly when the author string fails |
| DatabaseHandler.ArticlesOf | PB_Assistant/website/services/databasehandler.py:12-18 | rows convert one by one, in order, and the whole list fails when any row fails |
| DatabaseHandler.RetrieveArticles | PB_Assistant/website/services/databasehandler.py:9-21 | no ids, or a query that raises, give `[]`; every article returned has a text id among the requested ones |
| DatabaseHandler.RetrieveOnePerSelectedRow | PB_Assistant/website/services/databasehandler.py:11-21 | when every selected row converts there is one article per selected row, in table order; when any raises the answer is `[]` |
| DatabaseHandler.AcademicItemIds | PB_Assistant/website/services/databasehandler.py:90 | the lookup the function means to do: each id the table knows gives its paper id; the answer is as long as the input exactly when every id is known |
| DatabaseHandler.ItemIdsNaming | PB_Assistant/website/services/databasehandler.py:85-90 | `values_list("id", field)` raises `FieldError(field)` exactly when `AcademicPaperText` has no such field; naming its link gives the lookup |
| DatabaseHandler.AcademicItemIdsAsWritten | PB_Assistant/website/services/databasehandler.py:88 | naming `paper_id`, every call raises `FieldError("paper_id")`, whatever the ids and rows |
| DatabaseHandler.AcademicItemIdsCorrected | PB_Assistant/website/services/databasehandler.py:84-90 | naming the link column `academicpaper_id`, every call answers with the lookup |
| DatabaseHandler.AcademicItemIdsAppend | PB_Assistant/website/services/databasehandler.py:90 | the lookup of a concatenation is the concatenation of the lookups, so repeats are kept |
| DatabaseHandler.AcademicItemIdsAllKnown | PB_Assistant/website/services/databasehandler.py:90 | when every id is known, position i holds the paper id of the i-th text id |
| Importer.TitleSlug | PB_Assistant/apps/textprocessing/importer.py:16-17 | a present title gives its slug; a missing or empty title gives none |
| Importer.FindDuplicate | PB_Assistant/apps/textprocessing/importer.py:20-45 | a duplicate, when found, is a stored row; when one is found is stated by `DuplicateIffMatch`, and which one by `DuplicateLookupOrder` |
| Importer.DuplicateIffMatch | PB_Assistant/apps/textprocessing/importer.py:20-45 | a duplicate is reported exactly when some row has the paper's DOI, or the title's slug, or, with fuzzy matching on, a title scoring at least the threshold |
| Importer.DuplicateLookupOrder | PB_Assistant/apps/textprocessing/importer.py:23-43 | a DOI match wins; without one a slug match wins over a fuzzy one; with fuzzy matching off only a DOI or slug match is reported |
| Importer.AddPlanetaryBoundary | PB_Assistant/apps/textprocessing/importer.py:77-88 | a missing boundary changes nothing; otherwise the boundary is linked and nothing else is added or removed |
| Importer.AddPlanetaryBoundaryIdempotent | PB_Assistant/apps/textprocessing/importer.py:85-88 | linking twice is linking once, and two boundaries can be linked in either order |
| Importer.InsertNewPaper | PB_Assistant/apps/textprocessing/importer.py:51-67 | the row keeps the paper's DOI, text, title, year, source, keywords, authors and meta, has no boundaries yet, and keeps the paper's slug or else takes the title's |
| Importer.ImportAcademicPaper | PB_Assistant/apps/textprocessing/importer.py:91-108 | a record with neither DOI nor title is skipped as empty; a record is inserted exactly when it is not empty and has no duplicate; anything else leaves the table as it was and returns no paper |
| Importer.InsertedRow | PB_Assistant/apps/textprocessing/importer.py:98-106 | an inserted paper keeps its DOI, title, text, keywords, meta and authors, carries its title's slug and is linked to the boundary |
| Importer.ReimportIsDuplicate | PB_Assistant/apps/textprocessing/importer.py:98-108 | importing the same record again right after it was inserted finds it as a duplicate and changes nothing |
| Importer.ImportStep | PB_Assistant/apps/textprocessing/importer.py:121-122 | one import keeps the earlier rows and appends at most one, linked to the boundary |
| Importer.ImportAcademicPapers | PB_Assistant/apps/textprocessing/importer.py:111-132 | the skipped count is the number of empty records; skipped and new together never exceed the records given; the table only grows, by one row per new paper, each linked to the boundary |
| Importer.SafeTruncate | PB_Assistant/apps/textprocessing/importer.py:70-71 | a falsy value gives ""; otherwise a prefix of the value, at most `length` long, and the whole value when it fits |
| Importer.SafeTruncateIdempotent | PB_Assistant/apps/textprocessing/importer.py:70-71 | truncating again changes nothing |
| Importer.GetCleanField | PB_Assistant/apps/textprocessing/importer.py:73-75 | a non-empty string comes back lower-cased and stripped; anything else gives `None` |
| Importer.GetCleanFieldIdempotent | PB_Assistant/apps/textprocessing/importer.py:73-75 | cleaning a cleaned value again gives it back |
| TeiHeader.Text | PB_Assistant/apps/textprocessing/grobid/parser.py:7-11 | `_text` of no element is `None`; any text it returns is stripped and non-empty |
| TeiHeader.TextOfLeaf | PB_Assistant/apps/textprocessing/grobid/parser.py:10-11 | a leaf with stripped, non-empty text reads as that text; white space alone reads as nothing |
| TeiHeader.OwnText | PB_Assistant/apps/textprocessing/grobid/parser.py:24-32 | an element's own text is stripped, and empty when it has none |
| TeiHeader.IdType | PB_Assistant/apps/textprocessing/grobid/parser.py:23 | an identifier's type is lower case |
| TeiHeader.IdentifierValues | PB_Assistant/apps/textprocessing/grobid/parser.py:21-26 | identifier keys are lower case, and their values stripped and never empty |
| TeiHeader.IdentifierKeys | PB_Assistant/apps/textprocessing/grobid/parser.py:21-26 | a type is a key exactly when some `idno` of that type has a value |
| TeiHeader.IdentifierLastWins | PB_Assistant/apps/textprocessing/grobid/parser.py:26 | a later `idno` of the same type overwrites an earlier one: the value kept is the last non-empty one |
| TeiHeader.Keywords | PB_Assistant/apps/textprocessing/grobid/parser.py:30-34 | the keywords are the terms' stripped, non-empty texts, no more terms than given |
| TeiHeader.KeywordsAppend | PB_Assistant/apps/textprocessing/grobid/parser.py:31-34 | keywords keep document order: the terms of two runs give the keywords of each, one after the other |
| TeiHeader.PublicationYear | PB_Assistant/apps/textprocessing/grobid/parser.py:36-41 | no date element, or an empty date string, gives no year; a year is read only from four leading digits, so it lies between 0 and 9999 |
| TeiHeader.YearOfIsoDate | PB_Assistant/apps/textprocessing/grobid/parser.py:39-41 | a `when` attribute starting with a four-digit year gives that year |
| TeiHeader.YearOfDateText | PB_Assistant/apps/textprocessing/grobid/parser.py:39-41 | with no `when`, or an empty one, a stripped date text starting with a four-digit year gives that year |
| TeiHeader.NoYearWithoutDigits | PB_Assistant/apps/textprocessing/grobid/parser.py:40 | a date string with a non-digit among its first four characters (`c.2021`, say) gives no year |
| TeiHeader.XmlIdOrgsNotMapped | PB_Assistant/apps/textprocessing/grobid/parser.py:49 | as written, orgs identified only by `xml:id` never enter the org map, because lxml does not report attributes under that prefixed name |
| TeiHeader.OrgMapKeys | PB_Assistant/apps/textprocessing/grobid/parser.py:54 | every key of the org map, as written and corrected, is "#" followed by a non-empty id |
| TeiHeader.OrgMapResolves | PB_Assistant/apps/textprocessing/grobid/parser.py:47-54 | every org with an id is mapped under "#" and its id, to the name and country of the last org with that id |
| TeiHeader.ResolveAffiliation | PB_Assistant/apps/textprocessing/grobid/parser.py:71-79 | a `ref` naming a known org takes that org's name and country; otherwise the affiliation's own name and country are used |
| TeiHeader.AuthorName | PB_Assistant/apps/textprocessing/grobid/parser.py:61-80 | an author's name is never empty |
| TeiHeader.AuthorNameOfBoth | PB_Assistant/apps/textprocessing/grobid/parser.py:61-63 | forename and surname read "forename surname" |
| TeiHeader.AuthorNameOfForename | PB_Assistant/apps/textprocessing/grobid/parser.py:63 | a forename alone reads as the forename |
| TeiHeader.AuthorNameOfWhole | PB_Assistant/apps/textprocessing/grobid/parser.py:63-80 | with neither, the whole `persName` text, else "Unknown" |
| TeiHeader.Orcid | PB_Assistant/apps/textprocessing/grobid/parser.py:65-69 | there is an ORCID exactly when some `idno` has the type "orcid" in any case |
| TeiHeader.OrcidIsFirst | PB_Assistant/apps/textprocessing/grobid/parser.py:66-69 | the ORCID is the stripped text of the first such `idno` |
| TeiHeader.ParseAuthor | PB_Assistant/apps/textprocessing/grobid/parser.py:57-80 | an author without `persName` is dropped; any other keeps its name and ORCID and has one affiliation per `affiliation` element |
| TeiHeader.ParseAuthors | PB_Assistant/apps/textprocessing/grobid/parser.py:56-80 | one author per `author` element with a `persName`, so exactly as many as elements when each has one |
| TeiHeader.ParseAuthorsCons | PB_Assistant/apps/textprocessing/grobid/parser.py:56-80 | parsing a list built at its front parses the first author, kept only when it has a `persName`, ahead of the rest |
| TeiHeader.ParseAuthorsKeepsPersons | PB_Assistant/apps/textprocessing/grobid/parser.py:56-80 | the parsed authors are exactly the `author` elements with a `persName`, each parsed, in document order; those without one are dropped |
| TeiHeader.HeaderWith | PB_Assistant/apps/textprocessing/grobid/parser.py:14-101 | for any org map, the DOI is present exactly when the identifiers have a "doi" entry, and is that entry; the raw metadata carries the keywords, identifiers, journal, publisher and abstract; the year is between 0 and 9999 |
| TeiHeader.ParseTeiHeader | PB_Assistant/apps/textprocessing/grobid/parser.py:14-101 | the same facts, with the authors parsed against the org map as written (`org.get("xml:id")`) |
| TeiHeader.ParseTeiHeaderCorrected | PB_Assistant/apps/textprocessing/grobid/parser.py:47-54 | keying orgs by their `xml:id` changes only the authors, which are parsed against the corrected map |
| TeiHeader.XmlIdAffiliationFallsBack | PB_Assistant/apps/textprocessing/grobid/parser.py:71-79 | an affiliation whose `ref` names an org identified by `xml:id` takes its own inline name and country as written, and the org's with the corrected map |
| TeiHeader.HeaderDoiIsLastDoiIdno | PB_Assistant/apps/textprocessing/grobid/parser.py:21-92 | the header's DOI is the text of the last non-empty `idno` of type "doi", in any case |
| PdfIngest.GetBoundary | PB_Assistant/apps/textprocessing/pdf_ingest.py:15-21 | a missing or empty name gives no boundary; a boundary found is a row whose name or short name equals the name ignoring case |
| PdfIngest.GetBoundaryFinds | PB_Assistant/apps/textprocessing/pdf_ingest.py:18-21 | a name finds a boundary exactly when some row matches it by name or short name, and a match by full name is preferred: the result is then a row matched by name, no later than any other such row |
| PdfIngest.NameOr | PB_Assistant/apps/textprocessing/pdf_ingest.py:87-104 | `name or default`: the name when present and non-empty, else the default |
| PdfIngest.TranslateAffiliations | PB_Assistant/apps/textprocessing/pdf_ingest.py:97-108 | one record per affiliation, in order; a missing name becomes "Unknown affiliation" and the country is carried over |
| PdfIngest.TranslatedAffiliationsNamed | PB_Assistant/apps/textprocessing/pdf_ingest.py:104 | no translated affiliation has an empty name |
| PdfIngest.TranslateAffiliationsAppend | PB_Assistant/apps/textprocessing/pdf_ingest.py:101-107 | affiliations are translated one at a time: translating a concatenation translates each part |
| PdfIngest.TranslateAuthors | PB_Assistant/apps/textprocessing/pdf_ingest.py:82-95 | one author record per parsed author, in order, named "Unknown" when unnamed, with surname initials, email and ORCID carried over and a missing affiliation list read as empty |
| PdfIngest.TranslatedAuthorsNamed | PB_Assistant/apps/textprocessing/pdf_ingest.py:87 | no translated author has an empty name, and a named author keeps the name |
| PdfIngest.KeywordsObject | PB_Assistant/apps/textprocessing/pdf_ingest.py:60 | the keyword dictionary exists exactly when there are keywords, and is `{"grobid": keywords}` |
| PdfIngest.TranslateRecord | PB_Assistant/apps/textprocessing/pdf_ingest.py:56-80 | the record takes its DOI from the identifiers, its text from the abstract, and its title, year and journal from the header; no slug, links or boundaries; one author per parsed author; the metadata records the raw header, the identifiers and the source "grobid" |
| PdfIngest.TranslatedHeaderAgrees | PB_Assistant/apps/textprocessing/pdf_ingest.py:34-58 | the record's DOI is the parsed header's DOI, and the importer skips the record as empty exactly when the header has neither DOI nor title |
| PdfIngest.SaveFulltext | PB_Assistant/apps/textprocessing/pdf_ingest.py:41-50 | the full-text step leaves papers and other text rows alone, writes at most the new paper's text row, and leaves a paper that already has full text untouched |
| PdfIngest.SaveFulltextFresh | PB_Assistant/apps/textprocessing/pdf_ingest.py:42-50 | for a new paper the step raises exactly when extraction or the embedder raises; a text row is written exactly when the text is non-empty, holding it; the paper is embedded exactly when a working embedder got that text |
| PdfIngest.IngestFile | PB_Assistant/apps/textprocessing/pdf_ingest.py:31-54 | a header that cannot be fetched gives "error"; a record that is not new returns its status and no paper and writes nothing; a new record gives "new_record" with the inserted paper or "error" with none; only the new paper's text row can change |
| PdfIngest.IngestStoresHeaderFields | PB_Assistant/apps/textprocessing/pdf_ingest.py:31-54 | a paper ingested from a PDF is stored with the header's abstract as its text, its keywords under "grobid", the GROBID metadata and the translated authors |
| PdfIngest.IngestKeepsStore | PB_Assistant/apps/textprocessing/pdf_ingest.py:31-54 | every text row keeps pointing at a stored paper, and a run that inserts no paper writes nothing at all |
| PdfIngest.IngestNewPaperText | PB_Assistant/apps/textprocessing/pdf_ingest.py:37-51 | after a successful new insert the paper is the last row; its text row holds the extracted text exactly when that text is non-empty; it is embedded exactly when an embedder is configured |
| PdfIngest.ErrorAfterInsertKeepsPaper | PB_Assistant/apps/textprocessing/pdf_ingest.py:37-54 | an exception after the insert reports "error" and no paper, yet the paper row stays, so ingesting the same file again reports a duplicate |
| Views.SortByKey | PB_Assistant/website/views.py:30-33 | `sorted(..., key=str.lower)` is a permutation of its input ordered by lower-case form |
| Views.Dedup | PB_Assistant/website/views.py:31 | the set comprehension keeps each distinct name exactly once |
| Views.EntryNames | PB_Assistant/website/views.py:31 | reading the names fails exactly when some entry is not a dictionary or has a truthy name that is not a string; otherwise the names read are exactly the truthy names of the entries |
| Views.ModelEntries | PB_Assistant/website/views.py:29-31 | the entries are the `models` list, none when the key is missing, and reading fails when the body is not a dictionary |
| Views.ModelNames | PB_Assistant/website/views.py:30-33 | the names listed are each truthy entry name exactly once, sorted by lower-case form; listing fails exactly when some entry cannot be read |
| Views.OllamaModels | PB_Assistant/website/views.py:21-37 | an unreachable server gives 503 with no models and "Ollama unreachable"; an error status raises; 200 exactly when the reply could be read, with the sorted distinct model names |
| Views.NoModelsListed | PB_Assistant/website/views.py:29-34 | an empty body, or one without `models`, lists no models with status 200 |
| Views.ReadableEntriesListed | PB_Assistant/website/views.py:29-34 | a list of readable entries is answered with 200 and its model names |
| Views.EntryNameListedOnce | PB_Assistant/website/views.py:31-33 | each truthy entry name is listed exactly once |
| Views.TwoModelsListed | PB_Assistant/website/views.py:30-33 | two names already in lower-case order, differing beyond case, are listed in that order |
| Views.TestModelsListed | PB_Assistant/website/tests/test_views.py:28-37 | entries "model1" and "model2" are listed as `["model1", "model2"]` |
| Views.FormField | PB_Assistant/website/views.py:45-46 | a form field reads stripped, and `""` when missing |
| Views.SearchTo | PB_Assistant/website/views.py:43-63 | a blank prompt is refused with 400 "user_prompt is required" before anything else; then a blank model redirects with "Please select a model before running a search."; otherwise the session records the model and the search runs on the stripped prompt and model |
| Views.SearchIgnoresSurroundingSpace | PB_Assistant/website/views.py:45-46 | a form whose fields are already stripped is handled exactly like the original |
| Views.BlankPromptRefusedFirst | PB_Assistant/website/views.py:48-49 | a prompt of blanks is refused whatever model is chosen, and the session keeps its model |
| Views.ResolveLocation | PB_Assistant/website/views.py:53 | an absolute redirect target is followed as it is |
| Views.LastSlash | PB_Assistant/website/views.py:53 | a relative redirect target is resolved after the last `/` of the request path |
| Views.SearchRedirectMissesIndex | PB_Assistant/website/views.py:51-53 | as written, a search without a model redirects from "/search/" to "/search/website/index.html", not to the index page "/" |
| Views.SearchRedirectsToIndex | PB_Assistant/website/views.py:51-53 | the corrected view redirects the same request to "/" |
| Views.UserId | PB_Assistant/website/views.py:67-68 | an authenticated user acts under their own id; an anonymous request acts as user 1 |
| Views.AnonymousActsAsUserOne | PB_Assistant/website/views.py:67-68 | anonymous requests and user 1 get the same id, and no other user does |
| Views.History | PB_Assistant/website/views.py:70-80 | with the handler answering (see "## Left out"), the feed has one entry per record of the requesting user, in order, carrying its id and its query as title; no records give an empty list |
| Views.HistoryForgetsOtherFields | PB_Assistant/website/views.py:75-78 | the feed depends only on the records' ids and queries, not on their timestamps or folders |

## Left out

- Markup, CSS classes, `slideToggle` animations, toasts, modals and the colour picker: each handler is modelled by its abstract effect only (visibility flags, highlights, container contents, the text shown). The confirmation modal is a boolean "confirmed" argument.
- Network calls (`$.ajax`, `$.getJSON`, `fetch`, the httpx call of `ollama_models`): a request is returned as a value, and its reply, or its failure, is an argument.
- `saveFolderState` (static/website/assets/js/main.history.js:525-535): no code calls it, so it is not modelled.
- The 50 ms deferred `restoreFolderState`, overlapping renders and the async views: event handling is taken to be single-threaded.
- `timeAgo`'s `Date` parsing and floating point: the age is an integer number of milliseconds (`None` for an unreadable date), divisions are exact over `real`, and `Math.round` is floor(x + 1/2).
- `display_contents`, `hideContentPanel`, `showError` and `showConfirmationModal` in static/website/assets/js/main.js are the same code as in static/website/assets/js/main.utils.js and are modelled once, by `ContentPanel`. The older `deletePrompt` and `loadPromptHistory` of main.js are modelled separately, in `LegacySidebar`.
- The sidebar open/close toggle, textarea auto-grow, the user menu, the clear-all button, the new-search button and `loadModels` (static/website/assets/js/main.ui.js, main.js, main.models.js): pure page glue with no decisions beyond the network call.
- pdf_text_extractor.py, embedder.py, search_service.py and the import_pdfs command are not part of this model. GROBID, the full-text extractor and the embedder are `Services` arguments of `PdfIngest.IngestFile`: a value, or the fact that they raise.
- The LangChain construction in qa_chain.py (`get_ollama_llm`, `build_llm_chain`, `build_custom_retrieval_qa_chain`) and the pgvector ranking: library glue, with no logic of its own to model.
- `slugify`, fuzzywuzzy's `token_sort_ratio`, `json.loads`, lxml parsing and Python's `str()` of non-string values are opaque function arguments. The TEI header is an already-parsed element tree.
- The ORM: queries are sequences of rows or lookup functions. `save_search_history`, `retrieve_search_history_by_user`, `retrieve_search_history_item`, `delete_search_history_item` and `clear_search_history_for_user` are not modelled. The `history` view takes the query as its `lookup` argument, as the view's tests do.
- The views `index`, `load_history_item`, `delete_history` and `clear_history`, and urls.py and the template filters: rendering and routing glue.
- `transaction.atomic` in `import_academic_papers`: the model raises no exceptions during import, so there is no rollback to model.
- The random `paper_id` (`uuid.uuid4()`) of a translated record: randomness, so the record has no `paper_id` field.
- InsertNewPaper: the stored row has no `paper_id` and no `time_edited`. The first is random and the second a clock value, and nothing in the model reads either.
- FormatTitle: counts Unicode characters, while `title.length` and `substr` count UTF-16 code units. A title with characters outside the Basic Multilingual Plane is therefore cut later than in the browser, which may also split a surrogate pair.
- LegacyFormatTitle: counts Unicode characters, while `title.length` and `substr` count UTF-16 code units, with the same consequence as for FormatTitle.
- PanelTitle: counts Unicode characters, while `title.length` and `substring` count UTF-16 code units, with the same consequence as for FormatTitle.
- Letter case: `str.lower`, `toLowerCase` and Django's `iexact` are modelled as ASCII lower-casing. `str.isdigit` is modelled as ASCII digits only. `str.strip` and `trim` use each language's own white space: the characters for which Python's `str.isspace` holds, and JavaScript's WhiteSpace and LineTerminator characters, U+FEFF included.
- SidebarDom.RestoreAsWrittenExpandsNothing: `$(selector)` is looked up among the children of `#folderList` only, not in the whole document. A stored `"folderList"` becomes `#folderList` (main.history.js:566); the model finds nothing for it, while in the browser `find` then matches every folder's content and expands them all. A stored `""` gives the selector `#`, on which jQuery throws and the loop stops; the model skips that entry and goes on. The lemma holds for entries naming elements inside the folder list.
- Views.History: models the feed built from the records the handler returns. As written, views.py:73 passes `user_id=` to `retrieve_search_history_by_user(self, user)` (databasehandler.py:41), so an unmocked call raises `TypeError` before the handler's own `try` runs, and the view fails instead of answering. The model follows the view as its tests exercise it, with the handler stubbed.
- Views.ModelNames: Python sorts a set, so the order of two names that differ only in letter case is the set's iteration order, which is unspecified. The model keeps them in order of first appearance.
- PdfIngest.TranslateRecord: states only the number of authors. Each author's translation is stated by `TranslateAuthors`.
- ArticleRenderer.DisplayOfJoinedNames: proved only for names with no comma and no surrounding space. A name containing a comma is split into several parts, as in the source.
- JSON floats, and Python's `True == 1`, are not modelled: the Python and JavaScript values carry integers, strings, lists, dictionaries, booleans and null.

## Findings

| source | as written | input that shows it | evidently intended | confidence | as-written member | corrected member |
|---|---|---|---|---|---|---|
| static/website/assets/js/main.history.js:503-504 | the menu's Delete passes `split('-')[1]` (a string) to `deletePrompt`, which compares it with `===` to the parsed numeric `data-history-id` (line 30) | on page `/history-item/5`, delete item 5 from its actions menu: `"5" === 5` is false, so the page stays on the deleted item and reloads the sidebar | leave for "/" when the deleted item is the one shown, as the row's own button in main.js does | high (not executed) | HistoryApi.MenuDeleteAsWrittenNeverNavigates | HistoryApi.MenuDeleteNavigatesIffActive |
| static/website/assets/js/main.history.js:576 | `restoreFolderState` looks for the folder content inside the header `#folder-N`, but the content is the header's next sibling (lines 63-78, and line 188 uses `next`) | stored `["folder-3"]` with folder 3 rendered: `find` returns nothing, so folder 3 stays collapsed after a reload | re-expand every stored folder | high (not executed) | SidebarDom.RestoreAsWrittenExpandsNothing | SidebarDom.RestoreExpandsStored |
| static/website/assets/js/main.ui.js:247-254 | ArrowDown/ArrowUp set `spotlightIndex` and then call `filterSpotlight`, which resets it to 0 or -1 (line 136) | query "a" with two matches, ArrowDown then Enter: the first match opens, not the second | move the highlight and keep it | high (not executed) | Spotlight.ArrowKeysAsWrittenDoNothing | Spotlight.DownEnterOpensSecond |
| PB_Assistant/website/services/qa_chain.py:163 | the slice ends at the first `}`, though the comment on line 161 says the last | `{"response": "use {x}", "chunk_id_list": []}`: the slice stops after `{x}`, decoding fails and the answer is lost | slice from the first `{` to the last `}` | high (not executed) | QaChain.InnerBraceLosesAnswer | QaChain.JsonSliceOfWrapped |
| static/website/assets/js/main.history.js:235-246 | the top list accepts a drop only when the dragged row has an ancestor whose id starts with `folder-`, but the `folder-N` id is on the header, a sibling of the row's container | drag a row out of folder 3 onto the top list: no ancestor matches, so nothing is sent | move rows dragged out of a folder to the top list | high (not executed) | DragDrop.DropBackFromFolder | DragDrop.TopDrop |
| PB_Assistant/apps/textprocessing/grobid/parser.py:49 | `org.get("xml:id")`: lxml reports `xml:id` under its namespace URI, never under the prefixed name | `<org xml:id="org1">` with an affiliation `ref="#org1"`: the org is not mapped, so the affiliation falls back to its own inline name and country, usually absent | key orgs by their `xml:id` | medium (not executed) | TeiHeader.XmlIdOrgsNotMapped | TeiHeader.OrgMapResolves |
| PB_Assistant/website/views.py:53 | `redirect('website/index.html')` is a relative URL, not the index route | POST /search/ with a prompt and no model: the browser goes to /search/website/index.html, which no route serves; the view's test expects "/" | redirect to the index page "/" | high (not executed) | Views.SearchRedirectMissesIndex | Views.SearchRedirectsToIndex |
| PB_Assistant/website/services/databasehandler.py:88 | `values_list("id", "paper_id")` names a field `AcademicPaperText` does not have: its link to the paper is `academicpaper`, column `academicpaper_id` (PB_Assistant/models.py:67-75) | any call, e.g. text ids `[1]`: the ORM raises `FieldError` when the query is built, so no id is ever mapped | map each text id to the id of its paper through `academicpaper_id` | high (not executed) | DatabaseHandler.AcademicItemIdsAsWritten | DatabaseHandler.AcademicItemIdsCorrected |

=== FILE: action_menu.dfy ===
/**
  The per-item actions menu of the sidebar (main.history.js): at most one
  menu and one "Move to folder" submenu open at a time, an open menu
  floated to `<body>` and pinned next to its button, and every action
  closing what it opened.
 */
module ActionMenu {
  import opened Base
  import opened Strings
  import opened JsValues
  import opened HistoryApi
  import opened MenuPosition
  import SidebarRender

  /** What the page shows of one item's menu. */
  datatype MenuView = MenuView(
    hidden: bool,             // the menu carries `hidden`
    subHidden: bool,          // its submenu carries `hidden`
    floating: bool,           // it carries `item-actions-floating`
    parentSaved: bool,        // `data('original-parent')` is recorded
    inBody: bool,             // it currently sits under `<body>`
    buttonHighlighted: bool,  // the actions button shows its pressed colours
    rowSelected: bool,        // the row shows the selected background
    fixedAt: Option<Pos>)     // the inline `position: fixed` placement

  const Rendered := MenuView(true, true, false, false, false, false, false, None)

  /** `openMenuId`, `openSubMenuId` and the menus by item id text. */
  datatype MenuState = MenuState(openMenu: Option<string>, openSub: Option<string>, menus: map<string, MenuView>)

  /** Right after a render: every menu hidden, nothing open. */
  function Init(ids: set<string>): (s: MenuState)
    ensures s.menus.Keys == ids
    ensures forall k :: k in s.menus ==> s.menus[k] == Rendered
  {
    MenuState(None, None, map k | k in ids :: Rendered)
  }

  // ------------------------------------------------------------ element operations

  datatype Op = HideMenu | HideSub | ToggleMenu | ToggleSub | Mark | Unmark | Restore | Float(at: Option<Pos>) | Pin(pos: Pos)

  function ApplyOp(v: MenuView, op: Op): MenuView {
    match op
    case HideMenu => v.(hidden := true)
    case HideSub => v.(subHidden := true)
    case ToggleMenu => v.(hidden := !v.hidden)
    case ToggleSub => v.(subHidden := !v.subHidden)
    case Mark => v.(buttonHighlighted := true, rowSelected := true)
    case Unmark => v.(buttonHighlighted := false, rowSelected := false)
    // restoreActionsMenu: back under the recorded parent, inline placement cleared
    case Restore =>
      if !v.floating then v
      else v.(floating := false, inBody := if v.parentSaved then false else v.inBody, fixedAt := None)
    // floatActionsMenu: record the parent once, move to <body> once, then position
    case Float(at) =>
      var v1 := v.(parentSaved := true);
      var v2 := if v1.floating then v1 else v1.(inBody := true, floating := true);
      if at.Some? then v2.(fixedAt := at) else v2
    case Pin(pos) => v.(fixedAt := Some(pos))
  }

  /** Apply `op` to the menu of `id`; a jQuery call on an empty selection does nothing. */
  function Put(s: MenuState, id: string, op: Op): (r: MenuState)
    ensures r.openMenu == s.openMenu && r.openSub == s.openSub
    ensures r.menus.Keys == s.menus.Keys
    ensures forall k :: k in s.menus && k != id ==> r.menus[k] == s.menus[k]
    ensures id in s.menus ==> r.menus[id] == ApplyOp(s.menus[id], op)
  {
    if id in s.menus then s.(menus := s.menus[id := ApplyOp(s.menus[id], op)]) else s
  }

  predicate IsHidden(s: MenuState, id: string) {
    id in s.menus && s.menus[id].hidden
  }

  predicate IsSubHidden(s: MenuState, id: string) {
    id in s.menus && s.menus[id].subHidden
  }

  // ------------------------------------------------------------ handlers

  /** `closeOpenMenu`. */
  function CloseOpenMenu(s: MenuState): MenuState {
    match s.openMenu
    case None => s
    case Some(id) =>
      var s1 := Put(Put(Put(s, id, HideMenu), id, Unmark), id, Restore);
      var s2 := if s1.openSub.Some? then Put(s1, s1.openSub.value, HideSub).(openSub := None) else s1;
      s2.(openMenu := None)
  }

  /** A click anywhere: closes the open menu unless it lands inside that menu or on its button. */
  function DocumentClick(s: MenuState, insideOpenMenu: bool): MenuState {
    if s.openMenu.Some? && !insideOpenMenu then CloseOpenMenu(s) else s
  }

  /** The second half when the menu opens: highlight it, record it as open, float and pin it. */
  function OpenMenu(c: MenuState, id: string, g: Option<Geometry>): MenuState {
    Put(Put(Put(c, id, ToggleMenu), id, Mark).(openMenu := Some(id)), id, Float(Place(g)))
  }

  /** The first half of the button handler: close another open menu, then any open submenu. */
  function CloseOthers(s: MenuState, id: string): MenuState {
    var s1 := if s.openMenu.Some? && s.openMenu.value != id then CloseOpenMenu(s) else s;
    if s1.openSub.Some? then Put(s1, s1.openSub.value, HideSub).(openSub := None) else s1
  }

  /** A click on item `id`'s actions button (it stops propagation). */
  function TriggerClick(s: MenuState, id: string, g: Option<Geometry>): MenuState {
    var c := CloseOthers(s, id);
    if IsHidden(Put(c, id, ToggleMenu), id) then Put(Put(Put(c, id, ToggleMenu), id, Unmark), id, Restore).(openMenu := None)
    else OpenMenu(c, id, g)
  }

  /** One entry of the "Move to folder" submenu. */
  datatype SubmenuEntry = FolderChoice(folderId: int, name: string, color: string) | NoFoldersNote

  /** The submenu is refilled from the fetched folders each time it opens. */
  function SubmenuEntries(folders: seq<SidebarRender.Folder>): (r: seq<SubmenuEntry>)
    ensures folders == [] ==> r == [NoFoldersNote]
    ensures folders != [] ==> |r| == |folders|
    ensures folders != [] ==>
      forall i :: 0 <= i < |folders| ==> r[i] == FolderChoice(folders[i].id, folders[i].name, folders[i].color)
  {
    if folders == [] then [NoFoldersNote]
    else Map(folders, (f: SidebarRender.Folder) => FolderChoice(f.id, f.name, f.color))
  }

  /**
    A click on item `id`'s "Move to folder" option: its submenu toggles
    (closing another one first), and since the click is not stopped it
    also reaches the document handler, with its target inside menu `id`.
    The second component is the submenu content when it opened.
   */
  function MoveOptionClick(s: MenuState, id: string, folders: seq<SidebarRender.Folder>): (MenuState, Option<seq<SubmenuEntry>>) {
    var s1 := if s.openSub.Some? && s.openSub.value != id then Put(s, s.openSub.value, HideSub) else s;
    var s2 := Put(s1, id, ToggleSub);
    var s3 := s2.(openSub := if IsSubHidden(s2, id) then None else Some(id));
    (DocumentClick(s3, s3.openMenu == Some(id)), if IsSubHidden(s3, id) then None else Some(SubmenuEntries(folders)))
  }

  /** Closing menu and submenu of `id` after an action, leaving the highlight classes alone. */
  function CloseAfterAction(s: MenuState, id: string): MenuState {
    Put(Put(Put(s, id, HideMenu), id, HideSub), id, Restore).(openMenu := None, openSub := None)
  }

  /** Picking folder `folderId` in item `historyId`'s submenu: move request, then close. */
  function FolderPick(s: MenuState, historyId: int, folderId: int): (r: (MenuState, Request))
    ensures r.1 == Move(Num(historyId), Num(folderId))
  {
    (CloseAfterAction(s, IntToString(historyId)), Move(Num(historyId), Num(folderId)))
  }

  /** "Create new folder" in the submenu: open the new-folder dialog, then close. */
  function CreateFolderShortcut(s: MenuState, historyId: int): (r: (MenuState, bool)) {
    (CloseAfterAction(s, IntToString(historyId)), true)
  }

  /** What "Delete" does to the menus: hide and restore this one, close any submenu. */
  function CloseAfterDelete(s: MenuState, id: string): MenuState {
    var s1 := Put(Put(s, id, HideMenu), id, Restore);
    var s2 := if s1.openSub.Some? then Put(s1, s1.openSub.value, HideSub).(openSub := None) else s1;
    s2.(openMenu := None)
  }

  /**
    "Delete" in item `id`'s menu: ask for confirmation of deleting the item
    and close the menus. The returned `deletePrompt` argument is the id text
    taken from the button id, a string, so it is never strictly equal to a
    parsed `data-history-id`, while the request URL still names the item.
   */
  function DeleteClick(s: MenuState, id: string): (r: (MenuState, JsVal))
    ensures r.0 == CloseAfterDelete(s, id)
    ensures JsString(r.1) == id
    ensures forall a: Option<string> :: !StrictEquals(r.1, ParseInt(a))
  {
    (CloseAfterDelete(s, id), DeleteArgumentAsWritten(id))
  }

  /** The handler as evidently meant: the same closing, with the id passed as a number. */
  function DeleteClickIntended(s: MenuState, id: string): (r: (MenuState, JsVal))
    ensures r.0 == DeleteClick(s, id).0
    ensures r.1 == ParseInt(Some(id))
  {
    (CloseAfterDelete(s, id), DeleteArgument(id))
  }

  /**
    After deleting item `n` from its menu, the page never leaves for "/" as
    written, and with the intended numeric argument it leaves exactly when
    item `n` is the one on screen; both send the request to the same URL.
   */
  lemma DeleteClickNavigation(s: MenuState, n: int, activeAttr: Option<string>)
    ensures !DeleteOutcome(DeleteClick(s, IntToString(n)).1, activeAttr, Succeeded).Navigate?
    ensures DeleteOutcome(DeleteClickIntended(s, IntToString(n)).1, activeAttr, Succeeded).Navigate?
      <==> ParseInt(activeAttr) == Num(n)
    ensures Url(Delete(DeleteClick(s, IntToString(n)).1)) == Url(Delete(DeleteClickIntended(s, IntToString(n)).1))
  {
    MenuDeleteAsWrittenNeverNavigates(IntToString(n), activeAttr);
    MenuDeleteNavigatesIffActive(n, activeAttr);
  }

  /** Scrolling the sidebar or resizing the window re-pins the open menu. */
  function Reposition(s: MenuState, g: Option<Geometry>): MenuState {
    match (s.openMenu, Place(g))
    case (Some(id), Some(p)) => Put(s, id, Pin(p))
    case _ => s
  }

  // ------------------------------------------------------------ invariant

  predicate ViewOk(v: MenuView) {
    (v.floating <==> !v.hidden)
    && v.inBody == v.floating
    && (v.floating ==> v.parentSaved)
    && (v.fixedAt.Some? ==> v.floating)
  }

  /**
    A menu is shown exactly when it is the open one, a submenu exactly when
    it is the open submenu, the open submenu belongs to the open menu, the
    open menu's button and row are highlighted, and exactly the shown menu
    floats in `<body>`.
   */
  predicate Inv(s: MenuState) {
    (s.openMenu.Some? ==> s.openMenu.value in s.menus)
    && (s.openSub.Some? ==> s.openSub == s.openMenu)
    && (s.openMenu.Some? ==> s.menus[s.openMenu.value].buttonHighlighted && s.menus[s.openMenu.value].rowSelected)
    && (forall k :: k in s.menus ==> (!s.menus[k].hidden <==> s.openMenu == Some(k)))
    && (forall k :: k in s.menus ==> (!s.menus[k].subHidden <==> s.openSub == Some(k)))
    && (forall k :: k in s.menus ==> ViewOk(s.menus[k]))
  }

  lemma InitInv(ids: set<string>)
    ensures Inv(Init(ids))
  {
  }

  /** At most one menu is visible, and none when nothing is open. */
  lemma AtMostOneOpen(s: MenuState)
    requires Inv(s)
    ensures forall a, b :: a in s.menus && b in s.menus && !s.menus[a].hidden && !s.menus[b].hidden ==> a == b
    ensures s.openMenu.None? ==> forall k :: k in s.menus ==> s.menus[k].hidden && s.menus[k].subHidden && !s.menus[k].inBody
  {
  }

  lemma CloseOpenMenuCloses(s: MenuState)
    requires Inv(s)
    ensures Inv(CloseOpenMenu(s))
    ensures CloseOpenMenu(s).openMenu.None? && CloseOpenMenu(s).openSub.None?
    ensures CloseOpenMenu(s).menus.Keys == s.menus.Keys
    ensures s.openMenu.Some? ==>
      !CloseOpenMenu(s).menus[s.openMenu.value].buttonHighlighted && !CloseOpenMenu(s).menus[s.openMenu.value].rowSelected
  {
    if s.openMenu.Some? {
      var id := s.openMenu.value;
      var v := s.menus[id];
      var s1 := Put(Put(Put(s, id, HideMenu), id, Unmark), id, Restore);
      var w := ApplyOp(ApplyOp(ApplyOp(v, HideMenu), Unmark), Restore);
      assert ViewOk(w) && w.hidden && w.subHidden == v.subHidden;
      assert s1.menus[id] == w;
      assert forall k :: k in s1.menus && k != id ==> s1.menus[k] == s.menus[k];
      if s.openSub.Some? {
        assert s1.openSub == Some(id);
        assert Put(s1, id, HideSub).menus[id] == w.(subHidden := true);
      }
    }
  }

  /** A click outside the open menu closes everything; one inside changes nothing. */
  lemma DocumentClickEffect(s: MenuState, inside: bool)
    requires Inv(s)
    ensures Inv(DocumentClick(s, inside))
    ensures !inside ==> DocumentClick(s, inside).openMenu.None?
    ensures inside ==> DocumentClick(s, inside) == s
  {
    CloseOpenMenuCloses(s);
  }

  lemma CloseOthersEffect(s: MenuState, id: string)
    requires Inv(s) && id in s.menus
    ensures var c := CloseOthers(s, id);
      c.menus.Keys == s.menus.Keys && c.openSub.None?
      && c.openMenu == (if s.openMenu == Some(id) then Some(id) else None)
      && (forall k :: k in c.menus ==> c.menus[k].subHidden && ViewOk(c.menus[k]))
      && (forall k :: k in c.menus ==> (!c.menus[k].hidden <==> c.openMenu == Some(k)))
  {
    CloseOpenMenuCloses(s);
    var s1 := if s.openMenu.Some? && s.openMenu.value != id then CloseOpenMenu(s) else s;
    assert Inv(s1);
  }

  lemma OpenView(v: MenuView, at: Option<Pos>)
    requires ViewOk(v) && v.hidden && v.subHidden
    ensures var w := ApplyOp(ApplyOp(ApplyOp(v, ToggleMenu), Mark), Float(at));
      ViewOk(w) && !w.hidden && w.subHidden && (at.Some? ==> w.fixedAt == at)
      && w.buttonHighlighted && w.rowSelected
  {
  }

  lemma CloseView(v: MenuView)
    requires ViewOk(v) && !v.hidden && v.subHidden
    ensures var w := ApplyOp(ApplyOp(ApplyOp(v, ToggleMenu), Unmark), Restore);
      ViewOk(w) && w.hidden && w.subHidden && !w.buttonHighlighted && !w.rowSelected
  {
  }

  /** Nothing open: every menu and submenu hidden and in place. */
  predicate AllClosed(c: MenuState) {
    c.openMenu.None? && c.openSub.None?
    && forall k :: k in c.menus ==> c.menus[k].hidden && c.menus[k].subHidden && ViewOk(c.menus[k])
  }

  lemma OpenFromClosed(c: MenuState, id: string, g: Option<Geometry>)
    requires AllClosed(c) && id in c.menus
    ensures Inv(OpenMenu(c, id, g)) && OpenMenu(c, id, g).openMenu == Some(id)
    ensures g.Some? ==> OpenMenu(c, id, g).menus[id].fixedAt == Some(Position(g.value))
  {
    OpenView(c.menus[id], Place(g));
  }

  lemma TriggerClickOpens(s: MenuState, id: string, g: Option<Geometry>)
    requires Inv(s) && id in s.menus && s.openMenu != Some(id)
    ensures Inv(TriggerClick(s, id, g))
    ensures TriggerClick(s, id, g).openMenu == Some(id) && TriggerClick(s, id, g).openSub.None?
    ensures g.Some? ==> TriggerClick(s, id, g).menus[id].fixedAt == Some(Position(g.value))
  {
    CloseOthersEffect(s, id);
    var c := CloseOthers(s, id);
    assert AllClosed(c);
    assert !IsHidden(Put(c, id, ToggleMenu), id);
    OpenFromClosed(c, id, g);
  }

  lemma TriggerClickCloses(s: MenuState, id: string, g: Option<Geometry>)
    requires Inv(s) && id in s.menus && s.openMenu == Some(id)
    ensures Inv(TriggerClick(s, id, g))
    ensures TriggerClick(s, id, g).openMenu.None? && TriggerClick(s, id, g).openSub.None?
    ensures !TriggerClick(s, id, g).menus[id].buttonHighlighted && !TriggerClick(s, id, g).menus[id].rowSelected
  {
    CloseOthersEffect(s, id);
    var c := CloseOthers(s, id);
    var s3 := Put(c, id, ToggleMenu);
    assert IsHidden(s3, id);
    var r := Put(Put(s3, id, Unmark), id, Restore).(openMenu := None);
    assert TriggerClick(s, id, g) == r;
    CloseView(c.menus[id]);
    assert r.menus[id] == ApplyOp(ApplyOp(ApplyOp(c.menus[id], ToggleMenu), Unmark), Restore);
    assert forall k :: k in r.menus && k != id ==> r.menus[k] == c.menus[k];
  }

  /**
    The actions button toggles its own menu: it opens (closing any other)
    when it was not the open one and closes otherwise.
   */
  lemma TriggerClickToggles(s: MenuState, id: string, g: Option<Geometry>)
    requires Inv(s) && id in s.menus
    ensures Inv(TriggerClick(s, id, g))
    ensures TriggerClick(s, id, g).openMenu == if s.openMenu == Some(id) then None else Some(id)
    ensures TriggerClick(s, id, g).openSub.None?
    ensures s.openMenu != Some(id) && g.Some? ==> TriggerClick(s, id, g).menus[id].fixedAt == Some(Position(g.value))
  {
    if s.openMenu == Some(id) {
      TriggerClickCloses(s, id, g);
    } else {
      TriggerClickOpens(s, id, g);
    }
  }

  /** Opening a menu twice in a row records its parent once and floats it once. */
  lemma FloatOnce(v: MenuView, a: Option<Pos>, b: Option<Pos>)
    requires ViewOk(v)
    ensures var w := ApplyOp(ApplyOp(v, Float(a)), Float(b));
      w.parentSaved && w.floating && w.inBody
      && w.(fixedAt := None) == ApplyOp(v, Float(a)).(fixedAt := None)
  {
  }

  /** Restoring a menu that does not float changes nothing. */
  lemma RestoreIdle(v: MenuView)
    requires !v.floating
    ensures ApplyOp(v, Restore) == v
  {
  }

  /**
    The "Move to folder" option of the open menu toggles that menu's
    submenu and leaves the menu open; the entries shown are the folders.
   */
  lemma MoveOptionToggles(s: MenuState, id: string, folders: seq<SidebarRender.Folder>)
    requires Inv(s) && s.openMenu == Some(id)
    ensures Inv(MoveOptionClick(s, id, folders).0)
    ensures MoveOptionClick(s, id, folders).0.openMenu == Some(id)
    ensures MoveOptionClick(s, id, folders).0.openSub == if s.openSub == Some(id) then None else Some(id)
    ensures MoveOptionClick(s, id, folders).1 == if s.openSub == Some(id) then None else Some(SubmenuEntries(folders))
  {
  }

  lemma HideRestoreView(v: MenuView)
    requires ViewOk(v)
    ensures var w := ApplyOp(ApplyOp(ApplyOp(v, HideMenu), HideSub), Restore);
      ViewOk(w) && w.hidden && w.subHidden
    ensures var w := ApplyOp(ApplyOp(v, HideMenu), Restore);
      ViewOk(w) && w.hidden && w.subHidden == v.subHidden
  {
  }

  /**
    Closing after an action leaves every menu hidden and in place, but the
    item's button and row keep their highlight: these handlers never remove
    those classes.
   */
  lemma CloseAfterActionCloses(s: MenuState, id: string)
    requires Inv(s) && s.openMenu == Some(id)
    ensures AllClosed(CloseAfterAction(s, id)) && Inv(CloseAfterAction(s, id))
    ensures CloseAfterAction(s, id).menus[id].buttonHighlighted && CloseAfterAction(s, id).menus[id].rowSelected
  {
    var c := CloseAfterAction(s, id);
    HideRestoreView(s.menus[id]);
    assert c.menus[id] == ApplyOp(ApplyOp(ApplyOp(s.menus[id], HideMenu), HideSub), Restore);
    assert forall k :: k in c.menus && k != id ==> c.menus[k] == s.menus[k];
  }

  /** "Delete" leaves every menu hidden and in place. */
  lemma DeleteClickCloses(s: MenuState, id: string)
    requires Inv(s) && s.openMenu == Some(id)
    ensures AllClosed(DeleteClick(s, id).0) && Inv(DeleteClick(s, id).0)
    ensures DeleteClick(s, id).0.menus[id].buttonHighlighted && DeleteClick(s, id).0.menus[id].rowSelected
  {
    var s1 := Put(Put(s, id, HideMenu), id, Restore);
    HideRestoreView(s.menus[id]);
    assert s1.menus[id] == ApplyOp(ApplyOp(s.menus[id], HideMenu), Restore);
    assert forall k :: k in s1.menus && k != id ==> s1.menus[k] == s.menus[k];
    if s.openSub.Some? {
      var s2 := Put(s1, id, HideSub);
      assert s2.menus[id] == ApplyOp(s1.menus[id], HideSub);
    }
  }

  /** After a folder pick, the new-folder shortcut or a delete, no menu or submenu is open. */
  lemma ActionsCloseEverything(s: MenuState, historyId: int, folderId: int)
    requires Inv(s) && s.openMenu == Some(IntToString(historyId))
    ensures Inv(FolderPick(s, historyId, folderId).0) && FolderPick(s, historyId, folderId).0.openMenu.None?
    ensures Inv(CreateFolderShortcut(s, historyId).0) && CreateFolderShortcut(s, historyId).0.openMenu.None?
    ensures Inv(DeleteClick(s, IntToString(historyId)).0) && DeleteClick(s, IntToString(historyId)).0.openMenu.None?
    ensures FolderPick(s, historyId, folderId).0.openSub.None? && DeleteClick(s, IntToString(historyId)).0.openSub.None?
  {
    var id := IntToString(historyId);
    CloseAfterActionCloses(s, id);
    DeleteClickCloses(s, id);
  }

  lemma RepositionKeepsInv(s: MenuState, g: Option<Geometry>)
    requires Inv(s)
    ensures Inv(Reposition(s, g))
    ensures Reposition(s, g).openMenu == s.openMenu && Reposition(s, g).openSub == s.openSub
  {
  }

  /**
    Two buttons clicked one after the other leave only the second menu open
    and highlighted: every other menu is hidden and the first one has lost
    its highlight.
   */
  lemma SecondMenuReplacesFirst(ids: set<string>, a: string, b: string, g: Option<Geometry>, h: Option<Geometry>)
    requires a in ids && b in ids && a != b
    ensures var s := TriggerClick(TriggerClick(Init(ids), a, g), b, h);
      Inv(s) && s.openMenu == Some(b) && !s.menus[b].hidden && s.menus[b].buttonHighlighted
      && (forall k :: k in s.menus && k != b ==> s.menus[k].hidden)
      && !s.menus[a].buttonHighlighted && !s.menus[a].rowSelected
  {
    InitInv(ids);
    var s1 := TriggerClick(Init(ids), a, g);
    TriggerClickToggles(Init(ids), a, g);
    TriggerClickToggles(s1, b, h);
  }
}

=== FILE: article_renderer.dfy ===
/**
  `ArticleRenderer` (PB_Assistant/website/services/articlerenderer.py): the
  dictionaries the result template reads, one per article, and the split of
  an article's retrieved passages into those the answer cited and the rest.
 */
module ArticleRenderer {
  import opened Base
  import opened Strings
  import opened PyValues
  import opened DatabaseHandler
  import QaChain

  type Doc = QaChain.Doc

  /** A dictionary of `render_articles`. */
  datatype Rendered = Rendered(
    doi: Option<string>,
    title: Option<string>,
    year: PyVal,
    urlSource: string,
    authors: string,
    journal: string)

  /** A dictionary of `render_articles_and_contents`. */
  datatype RenderedContents = RenderedContents(
    id: int,
    doi: Option<string>,
    title: Option<string>,
    year: PyVal,
    urlSource: string,
    authorsDisplay: string,
    journal: string,
    pageContents: seq<string>,
    notUsedByLlm: seq<string>)

  const DoiResolver := "https://doi.org/"
  const NotAvailable := "N/A"

  /** `"https://doi.org/" + doi if doi else ""`. */
  function UrlSource(doi: Option<string>): (r: string)
    ensures doi.Some? && doi.value != "" ==> r == DoiResolver + doi.value
    ensures doi.None? || doi.value == "" ==> r == ""
  {
    if doi.Some? && doi.value != "" then DoiResolver + doi.value else ""
  }

  /** A non-empty link names the DOI: stripping the resolver prefix gives it back. */
  lemma UrlSourceNamesDoi(doi: Option<string>)
    ensures var u := UrlSource(doi);
      u == "" || (StartsWith(u, DoiResolver) && doi == Some(u[|DoiResolver|..]))
  {
  }

  /** `publication_year or "N/A"`: a missing year or year 0 is not shown. */
  function Year(year: Option<int>): (r: PyVal)
    ensures r.PInt? <==> year.Some? && year.value != 0
    ensures r.PInt? ==> r.i == year.value
    ensures !r.PInt? ==> r == PStr(NotAvailable)
  {
    if year.Some? && year.value != 0 then PInt(year.value) else PStr(NotAvailable)
  }

  /** `source or "N/A"`. */
  function Journal(source: Option<string>): (r: string)
    ensures r != ""
    ensures source.Some? && source.value != "" ==> r == source.value
    ensures !(source.Some? && source.value != "") ==> r == NotAvailable
  {
    if source.Some? && source.value != "" then source.value else NotAvailable
  }

  function RenderOne(a: Article): Rendered {
    Rendered(a.doi, a.title, Year(a.publicationYear), UrlSource(a.doi), a.authorsString, Journal(a.source))
  }

  /** `render_articles`: one dictionary per article, in the same order. */
  function RenderArticles(articles: seq<Article>): (r: seq<Rendered>)
    ensures |r| == |articles|
    ensures forall i :: 0 <= i < |articles| ==>
      r[i].doi == articles[i].doi && r[i].title == articles[i].title && r[i].authors == articles[i].authorsString
  {
    Map(articles, RenderOne)
  }

  // ---------------------------------------------------------------- authors

  function StripName(s: string): string {
    Strip(Python, s)
  }

  /**
    `authors_display`: the first three comma-separated names, each
    stripped, joined by ", ", with "..." after them when there are more;
    "N/A" for an empty `authors_string`.
   */
  function AuthorsDisplay(authors: string): (r: string)
    ensures authors == "" ==> r == NotAvailable
    ensures authors != "" && |Split(authors, ',')| > 3 ==> |r| >= 3 && r[|r| - 3..] == "..."
  {
    if authors == "" then NotAvailable
    else
      var parts := Split(authors, ',');
      Join(Map(Take(parts, 3), StripName), ", ") + (if |parts| > 3 then "..." else "")
  }

  function Pad(s: string): string {
    " " + s
  }

  /** The parts `split(',')` finds in `", ".join(names)`: every name after the first keeps its space. */
  function Spaced(names: seq<string>): (r: seq<string>)
    ensures |r| == |names|
    ensures names != [] ==> r[0] == names[0]
    ensures forall i :: 0 < i < |names| ==> r[i] == Pad(names[i])
  {
    if names == [] then []
    else
      var tail := Map(names[1..], Pad);
      assert forall i :: 0 < i < |names| ==> tail[i - 1] == Pad(names[i]);
      [names[0]] + tail
  }

  lemma {:induction false} JoinPadded(names: seq<string>)
    requires names != []
    ensures Join(Map(names, Pad), ",") == " " + Join(names, ", ")
    decreases |names|
  {
    if |names| > 1 {
      JoinPadded(names[1..]);
      var m := Map(names, Pad);
      assert m[1..] == Map(names[1..], Pad);
      assert Join(m, ",") == Pad(names[0]) + "," + Join(m[1..], ",");
    }
  }

  lemma JoinSpaced(names: seq<string>)
    ensures Join(names, ", ") == Join(Spaced(names), ",")
  {
    if |names| > 1 {
      JoinPadded(names[1..]);
      assert Spaced(names)[1..] == Map(names[1..], Pad);
    }
  }

  /** A trimmed name behind one space strips back to itself. */
  lemma StripPadded(n: string)
    requires Trimmed(Python, n)
    ensures StripName(Pad(n)) == n
  {
    assert Pad(n)[1..] == n;
    assert StripStart(Python, Pad(n)) == StripStart(Python, n);
    if n != [] {
      assert StripStart(Python, n) == n;
    }
  }

  /** Author names as the database stores them: non-empty, trimmed, with no comma inside. */
  predicate PlainNames(names: seq<string>) {
    forall i :: 0 <= i < |names| ==> names[i] != "" && Trimmed(Python, names[i]) && ',' !in names[i]
  }

  lemma SpacedHasNoComma(names: seq<string>)
    requires PlainNames(names)
    ensures forall i :: 0 <= i < |Spaced(names)| ==> ',' !in Spaced(names)[i]
  {
    var sp := Spaced(names);
    forall i | 0 <= i < |sp| ensures ',' !in sp[i] {
      if i > 0 {
        assert sp[i] == Pad(names[i]);
      }
    }
  }

  lemma JoinedNamesNonEmpty(names: seq<string>)
    requires PlainNames(names) && names != []
    ensures Join(names, ", ") != ""
  {
    if |names| > 1 {
      assert Join(names, ", ") == names[0] + ", " + Join(names[1..], ", ");
    }
  }

  /** Stripping the first three parts gives back the first three names. */
  lemma SpacedStripsBack(names: seq<string>)
    requires PlainNames(names)
    ensures Map(Take(Spaced(names), 3), StripName) == Take(names, 3)
  {
    var sp := Spaced(names);
    var shown := Map(Take(sp, 3), StripName);
    forall i | 0 <= i < |shown| ensures shown[i] == names[i] {
      SpacedPartStrips(names, i);
    }
  }

  lemma SpacedPartStrips(names: seq<string>, i: nat)
    requires PlainNames(names) && i < |names|
    ensures StripName(Spaced(names)[i]) == names[i]
  {
    var n := names[i];
    if i == 0 {
      StripKeepsTrimmed(Python, n);
    } else {
      StripPadded(n);
    }
  }

  /**
    The display of a joined author list lists its first three authors, and
    ends in "..." exactly when there are more than three.
   */
  lemma DisplayOfJoinedNames(names: seq<string>)
    requires PlainNames(names)
    ensures names == [] ==> AuthorsDisplay(Join(names, ", ")) == NotAvailable
    ensures names != [] ==>
      AuthorsDisplay(Join(names, ", ")) == Join(Take(names, 3), ", ") + (if |names| > 3 then "..." else "")
  {
    if names != [] {
      var sp := Spaced(names);
      JoinSpaced(names);
      SpacedHasNoComma(names);
      JoinSplit(sp, ',');
      JoinedNamesNonEmpty(names);
      SpacedStripsBack(names);
      assert Split(Join(names, ", "), ',') == sp;
    }
  }

  /**
    Composed with the database side: for a paper whose author entries all
    carry plain string names, the display shows the first three of them.
   */
  lemma DisplayOfStoredAuthors(list: seq<PyVal>)
    requires forall i :: 0 <= i < |list| ==> HasName(list[i]) && Get(list[i].entries, "name", PNone).PStr?
    requires PlainNames(Map(list, NameOf))
    ensures AuthorsString(list).Some?
    ensures var names := Map(list, NameOf);
      AuthorsDisplay(AuthorsString(list).value)
        == if names == [] then NotAvailable else Join(Take(names, 3), ", ") + (if |names| > 3 then "..." else "")
  {
    AuthorNamesAreFiltered(list);
    FilterKeepsAll(list, HasName);
    DisplayOfJoinedNames(Map(list, NameOf));
  }

  // ---------------------------------------------------------------- page contents

  /** `doc["page_content"].replace('"', "'")`. */
  function Cleaned(d: Doc): string {
    ReplaceChar(d.pageContent, '"', '\'')
  }

  /**
    The comprehension's test for one document: `Ok(None)` when it belongs
    to another article, `Ok(Some(b))` when it is this article's and `b`
    says whether its chunk is among the cited ones, `Err` when it raises
    (a missing `id` or `chunk_id`, or `list(None)` for absent chunk ids).
   */
  function Classify(d: Doc, textId: PyVal, chunkIds: Option<seq<PyVal>>): (r: Result<Option<bool>, PyError>)
    ensures r.Ok? && r.value.Some? <==> "id" in d.metadata && d.metadata["id"] == textId && "chunk_id" in d.metadata && chunkIds.Some?
    ensures r.Ok? && r.value.Some? ==> r.value.value == (d.metadata["chunk_id"] in chunkIds.value)
  {
    if "id" !in d.metadata then Err(KeyError)
    else if d.metadata["id"] != textId then Ok(None)
    else if "chunk_id" !in d.metadata then Err(KeyError)
    else if chunkIds.None? then Err(TypeError)
    else Ok(Some(d.metadata["chunk_id"] in chunkIds.value))
  }

  /** No document makes the comprehension raise. */
  predicate Readable(docs: seq<Doc>, textId: PyVal, chunkIds: Option<seq<PyVal>>) {
    forall i :: 0 <= i < |docs| ==> Classify(docs[i], textId, chunkIds).Ok?
  }

  /**
    `page_contents` (`used`) or `page_contents_not_used_by_llm` (`!used`):
    the cleaned text of this article's documents whose chunk is, or is
    not, among the cited chunk ids. Both fail on the same documents.
   */
  function Contents(docs: seq<Doc>, textId: PyVal, chunkIds: Option<seq<PyVal>>, used: bool): (r: Result<seq<string>, PyError>)
    ensures r.Ok? <==> Readable(docs, textId, chunkIds)
    ensures r.Ok? ==> |r.value| <= |docs| && forall k :: 0 <= k < |r.value| ==> '"' !in r.value[k]
  {
    if docs == [] then Ok([])
    else
      match Classify(docs[0], textId, chunkIds)
      case Err(e) => Err(e)
      case Ok(tag) =>
        match Contents(docs[1..], textId, chunkIds, used)
        case Err(e) => Err(e)
        case Ok(rest) => Ok((if tag == Some(used) then [Cleaned(docs[0])] else []) + rest)
  }

  /** The document belongs to the article with this text id. */
  function OfArticle(textId: PyVal): Doc -> bool {
    (d: Doc) => "id" in d.metadata && d.metadata["id"] == textId
  }

  /** The document belongs to the article and its chunk is (`used`) or is not cited. */
  function Picks(textId: PyVal, chunkIds: seq<PyVal>, used: bool): Doc -> bool {
    (d: Doc) => "id" in d.metadata && d.metadata["id"] == textId
      && "chunk_id" in d.metadata && (d.metadata["chunk_id"] in chunkIds) == used
  }

  /** For a document that does not raise, the pick and the comprehension's test agree. */
  lemma PicksIffTagged(d: Doc, textId: PyVal, chunkIds: Option<seq<PyVal>>, used: bool)
    requires Classify(d, textId, chunkIds).Ok?
    ensures Picks(textId, chunkIds.GetOr([]), used)(d) <==> Classify(d, textId, chunkIds) == Ok(Some(used))
  {
  }

  /** One step of the comprehension, for a document that does not raise. */
  lemma ContentsCons(d: Doc, rest: seq<Doc>, textId: PyVal, chunkIds: Option<seq<PyVal>>, used: bool)
    requires Classify(d, textId, chunkIds).Ok?
    requires Readable(rest, textId, chunkIds)
    ensures Contents([d] + rest, textId, chunkIds, used)
         == Ok((if Picks(textId, chunkIds.GetOr([]), used)(d) then [Cleaned(d)] else []) + Contents(rest, textId, chunkIds, used).value)
  {
    PicksIffTagged(d, textId, chunkIds, used);
    assert ([d] + rest)[1..] == rest;
  }

  /**
    The reference reading of each comprehension: filter the documents,
    then clean the text, so each list keeps document order.
   */
  lemma {:induction false} ContentsAreFiltered(docs: seq<Doc>, textId: PyVal, chunkIds: Option<seq<PyVal>>, used: bool)
    requires Readable(docs, textId, chunkIds)
    ensures Contents(docs, textId, chunkIds, used) == Ok(Map(Filter(docs, Picks(textId, chunkIds.GetOr([]), used)), Cleaned))
    decreases |docs|
  {
    if docs != [] {
      var p := Picks(textId, chunkIds.GetOr([]), used);
      var d, rest := docs[0], docs[1..];
      assert Readable(rest, textId, chunkIds) by {
        forall i | 0 <= i < |rest| ensures Classify(rest[i], textId, chunkIds).Ok? {
          assert rest[i] == docs[i + 1];
        }
      }
      ContentsAreFiltered(rest, textId, chunkIds, used);
      assert docs == [d] + rest;
      ContentsCons(d, rest, textId, chunkIds, used);
      FilterCons(d, rest, p);
      var head := if p(d) then [d] else [];
      MapAppend(head, Filter(rest, p), Cleaned);
      assert Map(head, Cleaned) == if p(d) then [Cleaned(d)] else [];
    }
  }

  /**
    Between them the two lists hold each of the article's documents
    exactly once: their sizes add up to the number of its documents.
   */
  lemma PartitionCovers(docs: seq<Doc>, textId: PyVal, chunkIds: Option<seq<PyVal>>)
    requires Readable(docs, textId, chunkIds)
    ensures Contents(docs, textId, chunkIds, true).Ok? && Contents(docs, textId, chunkIds, false).Ok?
    ensures |Contents(docs, textId, chunkIds, true).value| + |Contents(docs, textId, chunkIds, false).value|
         == |Filter(docs, OfArticle(textId))|
  {
    var ids := chunkIds.GetOr([]);
    ContentsAreFiltered(docs, textId, chunkIds, true);
    ContentsAreFiltered(docs, textId, chunkIds, false);
    var mine := Filter(docs, OfArticle(textId));
    var cited := (d: Doc) => "chunk_id" in d.metadata && d.metadata["chunk_id"] in ids;
    var uncited := (d: Doc) => !cited(d);
    assert forall k :: 0 <= k < |mine| ==> "chunk_id" in mine[k].metadata by {
      forall k | 0 <= k < |mine| ensures "chunk_id" in mine[k].metadata {
        var i :| 0 <= i < |docs| && docs[i] == mine[k];
        assert Classify(docs[i], textId, chunkIds).Ok?;
      }
    }
    FilterFilter(docs, OfArticle(textId), cited, Picks(textId, ids, true));
    assert forall k :: 0 <= k < |mine| ==> uncited(mine[k]) == Picks(textId, ids, false)(mine[k]);
    FilterSameOn(mine, uncited, Picks(textId, ids, false));
    FilterFilter(docs, OfArticle(textId), Picks(textId, ids, false), Picks(textId, ids, false));
    FilterPartitionCount(mine, cited, uncited);
  }

  /** The text id the documents are compared with: `None` when the paper has no text. */
  function TextIdValue(a: Article): PyVal {
    match a.textId
    case None => PNone
    case Some(t) => PInt(t)
  }

  function RenderWithContents(a: Article, used: seq<string>, unused: seq<string>): RenderedContents {
    RenderedContents(a.id, a.doi, a.title, Year(a.publicationYear), UrlSource(a.doi),
      AuthorsDisplay(a.authorsString), Journal(a.source), used, unused)
  }

  /**
    `render_articles_and_contents`: one dictionary per article, in order;
    the first article whose documents make a comprehension raise stops it.
   */
  function RenderArticlesAndContents(articles: seq<Article>, docs: seq<Doc>, chunkIds: Option<seq<PyVal>>)
    : (r: Result<seq<RenderedContents>, PyError>)
    ensures r.Ok? <==> forall i :: 0 <= i < |articles| ==> Readable(docs, TextIdValue(articles[i]), chunkIds)
    ensures r.Ok? ==> |r.value| == |articles|
    ensures r.Ok? ==> forall i :: 0 <= i < |articles| ==>
      r.value[i].id == articles[i].id && r.value[i].authorsDisplay == AuthorsDisplay(articles[i].authorsString)
      && Ok(r.value[i].pageContents) == Contents(docs, TextIdValue(articles[i]), chunkIds, true)
      && Ok(r.value[i].notUsedByLlm) == Contents(docs, TextIdValue(articles[i]), chunkIds, false)
  {
    if articles == [] then Ok([])
    else
      var a := articles[0];
      match Contents(docs, TextIdValue(a), chunkIds, true)
      case Err(e) => Err(e)
      case Ok(used) =>
        var unused := Contents(docs, TextIdValue(a), chunkIds, false);
        match RenderArticlesAndContents(articles[1..], docs, chunkIds)
        case Err(e) => Err(e)
        case Ok(rest) => Ok([RenderWithContents(a, used, unused.value)] + rest)
  }

  /** The two renderings agree on every field they share. */
  lemma RenderingsAgree(articles: seq<Article>, docs: seq<Doc>, chunkIds: Option<seq<PyVal>>, i: nat)
    requires i < |articles|
    requires RenderArticlesAndContents(articles, docs, chunkIds).Ok?
    ensures var plain := RenderArticles(articles)[i];
      var full := RenderArticlesAndContents(articles, docs, chunkIds).value[i];
      plain.doi == full.doi && plain.title == full.title && plain.year == full.year
      && plain.urlSource == full.urlSource && plain.journal == full.journal
  {
    RenderAgreesFrom(articles, docs, chunkIds, i);
  }

  lemma {:induction false} RenderAgreesFrom(articles: seq<Article>, docs: seq<Doc>, chunkIds: Option<seq<PyVal>>, i: nat)
    requires i < |articles|
    requires RenderArticlesAndContents(articles, docs, chunkIds).Ok?
    ensures var full := RenderArticlesAndContents(articles, docs, chunkIds).value[i];
      full.doi == articles[i].doi && full.title == articles[i].title && full.year == Year(articles[i].publicationYear)
      && full.urlSource == UrlSource(articles[i].doi) && full.journal == Journal(articles[i].source)
    decreases i
  {
    var r := RenderArticlesAndContents(articles, docs, chunkIds);
    var a := articles[0];
    var used := Contents(docs, TextIdValue(a), chunkIds, true).value;
    var unused := Contents(docs, TextIdValue(a), chunkIds, false).value;
    var rest := RenderArticlesAndContents(articles[1..], docs, chunkIds);
    assert r == Ok([RenderWithContents(a, used, unused)] + rest.value);
    if i > 0 {
      RenderAgreesFrom(articles[1..], docs, chunkIds, i - 1);
      assert r.value[i] == rest.value[i - 1];
      assert articles[1..][i - 1] == articles[i];
    }
  }
}

=== FILE: base.dfy ===
/** Failure-aware wrappers shared by every module of the model. */
module Base {

  /** A value that may be missing: Python's `None`, JavaScript's `null`/`undefined`. */
  datatype Option<+T> = None | Some(value: T) {
    function GetOr(default: T): T {
      match this
      case Some(v) => v
      case None => default
    }
  }

  /** The outcome of a step that can raise: `Err` carries the exception kind. */
  datatype Result<+T, +E> = Ok(value: T) | Err(error: E)

  /** Elements of `xs` that satisfy `p`, in order. */
  function Filter<T>(xs: seq<T>, p: T -> bool): (r: seq<T>)
    ensures |r| <= |xs|
    ensures forall i :: 0 <= i < |r| ==> r[i] in xs && p(r[i])
    ensures forall i :: 0 <= i < |xs| && p(xs[i]) ==> xs[i] in r
    decreases |xs|
  {
    if xs == [] then []
    else if p(xs[|xs| - 1]) then Filter(xs[..|xs| - 1], p) + [xs[|xs| - 1]]
    else Filter(xs[..|xs| - 1], p)
  }

  lemma {:induction false} FilterAppend<T>(xs: seq<T>, ys: seq<T>, p: T -> bool)
    ensures Filter(xs + ys, p) == Filter(xs, p) + Filter(ys, p)
    decreases |ys|
  {
    if ys == [] {
      assert xs + ys == xs;
    } else {
      assert (xs + ys)[..|xs + ys| - 1] == xs + ys[..|ys| - 1];
      FilterAppend(xs, ys[..|ys| - 1], p);
    }
  }

  /** Filtering with a predicate every element meets changes nothing. */
  lemma {:induction false} FilterKeepsAll<T>(xs: seq<T>, p: T -> bool)
    requires forall i :: 0 <= i < |xs| ==> p(xs[i])
    ensures Filter(xs, p) == xs
    decreases |xs|
  {
    if xs != [] {
      FilterKeepsAll(xs[..|xs| - 1], p);
      assert xs[..|xs| - 1] + [xs[|xs| - 1]] == xs;
    }
  }

  /** Element-wise image of `xs` under `f`. */
  function Map<T, U>(xs: seq<T>, f: T -> U): (r: seq<U>)
    ensures |r| == |xs|
    ensures forall i :: 0 <= i < |xs| ==> r[i] == f(xs[i])
  {
    seq(|xs|, i requires 0 <= i < |xs| => f(xs[i]))
  }
  /** Filtering a sequence built at its front. */
  lemma FilterCons<T>(x: T, xs: seq<T>, p: T -> bool)
    ensures Filter([x] + xs, p) == (if p(x) then [x] else []) + Filter(xs, p)
  {
    FilterAppend([x], xs, p);
    assert [x][..0] == [];
    assert Filter([x], p) == Filter([], p) + (if p(x) then [x] else []);
  }

  lemma MapAppend<T, U>(xs: seq<T>, ys: seq<T>, f: T -> U)
    ensures Map(xs + ys, f) == Map(xs, f) + Map(ys, f)
  {
  }

  /** The first `n` elements of `xs` (all of them when there are fewer): `slice(0, n)`. */
  function Take<T>(xs: seq<T>, n: nat): (r: seq<T>)
    ensures |r| == if n < |xs| then n else |xs|
    ensures r == xs[..|r|]
  {
    if n < |xs| then xs[..n] else xs
  }

  /** Filtering twice is filtering once by the conjunction. */
  lemma {:induction false} FilterFilter<T>(xs: seq<T>, p: T -> bool, q: T -> bool, both: T -> bool)
    requires forall x :: both(x) == (p(x) && q(x))
    ensures Filter(Filter(xs, p), q) == Filter(xs, both)
    decreases |xs|
  {
    if xs != [] {
      var init := xs[..|xs| - 1];
      FilterFilter(init, p, q, both);
      if p(xs[|xs| - 1]) {
        var f := Filter(init, p) + [xs[|xs| - 1]];
        assert f[..|f| - 1] == Filter(init, p);
      }
    }
  }

  /** Predicates that agree on every element of `xs` filter it alike. */
  lemma {:induction false} FilterSameOn<T>(xs: seq<T>, p: T -> bool, q: T -> bool)
    requires forall k :: 0 <= k < |xs| ==> p(xs[k]) == q(xs[k])
    ensures Filter(xs, p) == Filter(xs, q)
    decreases |xs|
  {
    if xs != [] {
      FilterSameOn(xs[..|xs| - 1], p, q);
    }
  }

  /** A predicate and its negation split a sequence between them. */
  lemma {:induction false} FilterPartitionCount<T>(xs: seq<T>, p: T -> bool, notP: T -> bool)
    requires forall x :: notP(x) == !p(x)
    ensures |Filter(xs, p)| + |Filter(xs, notP)| == |xs|
    decreases |xs|
  {
    if xs != [] {
      FilterPartitionCount(xs[..|xs| - 1], p, notP);
    }
  }

  /**
    The dictionary built by walking `xs` in order and setting `key(x)` to
    `val(x)` for every element `keep` accepts, so that a later element
    replaces an earlier one with the same key.
   */
  function LastWins<T, K, V>(xs: seq<T>, keep: T -> bool, key: T -> K, val: T -> V): map<K, V>
    decreases |xs|
  {
    if xs == [] then map[]
    else
      var m := LastWins(xs[..|xs| - 1], keep, key, val);
      var x := xs[|xs| - 1];
      if keep(x) then m[key(x) := val(x)] else m
  }

  /** Every key comes from a kept element, and holds that element's value. */
  lemma {:induction false} LastWinsFrom<T, K, V>(xs: seq<T>, keep: T -> bool, key: T -> K, val: T -> V, k: K) returns (i: nat)
    requires k in LastWins(xs, keep, key, val)
    ensures i < |xs| && keep(xs[i]) && key(xs[i]) == k
    ensures LastWins(xs, keep, key, val)[k] == val(xs[i])
    decreases |xs|
  {
    var n := |xs| - 1;
    if keep(xs[n]) && key(xs[n]) == k {
      i := n;
    } else {
      var init := xs[..n];
      i := LastWinsFrom(init, keep, key, val, k);
      assert xs[i] == init[i];
    }
  }

  /** A kept element that no later kept element shadows supplies its key's value. */
  lemma {:induction false} LastWinsValue<T, K, V>(xs: seq<T>, keep: T -> bool, key: T -> K, val: T -> V, i: nat)
    requires i < |xs| && keep(xs[i])
    requires forall j :: i < j < |xs| && keep(xs[j]) ==> key(xs[j]) != key(xs[i])
    ensures key(xs[i]) in LastWins(xs, keep, key, val)
    ensures LastWins(xs, keep, key, val)[key(xs[i])] == val(xs[i])
    decreases |xs|
  {
    var n := |xs| - 1;
    if i < n {
      var init := xs[..n];
      assert init[i] == xs[i];
      forall j | i < j < |init| && keep(init[j])
        ensures key(init[j]) != key(init[i])
      {
        assert init[j] == xs[j];
      }
      LastWinsValue(init, keep, key, val, i);
    }
  }

  /** Every kept element's key is present. */
  lemma {:induction false} LastWinsPresent<T, K, V>(xs: seq<T>, keep: T -> bool, key: T -> K, val: T -> V, i: nat)
    requires i < |xs| && keep(xs[i])
    ensures key(xs[i]) in LastWins(xs, keep, key, val)
    decreases |xs|
  {
    var n := |xs| - 1;
    if i < n {
      var init := xs[..n];
      assert init[i] == xs[i];
      LastWinsPresent(init, keep, key, val, i);
    }
  }

  /** The keys are exactly the keys of the kept elements. */
  lemma LastWinsKeys<T, K, V>(xs: seq<T>, keep: T -> bool, key: T -> K, val: T -> V, k: K)
    ensures k in LastWins(xs, keep, key, val) <==> exists i :: 0 <= i < |xs| && keep(xs[i]) && key(xs[i]) == k
  {
    if k in LastWins(xs, keep, key, val) {
      var i := LastWinsFrom(xs, keep, key, val, k);
    }
    if exists i :: 0 <= i < |xs| && keep(xs[i]) && key(xs[i]) == k {
      var i :| 0 <= i < |xs| && keep(xs[i]) && key(xs[i]) == k;
      LastWinsPresent(xs, keep, key, val, i);
    }
  }

  /** The position of the first element that satisfies `p` (a query's `.first()`). */
  function FirstIndex<T>(rows: seq<T>, p: T -> bool): (r: Option<nat>)
    ensures r.Some? ==> r.value < |rows| && p(rows[r.value]) && forall j :: 0 <= j < r.value ==> !p(rows[j])
    ensures r.None? <==> forall j :: 0 <= j < |rows| ==> !p(rows[j])
  {
    if rows == [] then None
    else if p(rows[0]) then Some(0)
    else match FirstIndex(rows[1..], p)
      case None => None
      case Some(i) => Some(i + 1)
  }
}

=== FILE: content_panel.dfy ===
/**
  The document-contents panel (`display_contents` and `hideContentPanel`
  in main.utils.js, repeated unchanged in main.js): which history row is
  highlighted, whether the panel shows, its title and its paragraphs.
 */
module ContentPanel {
  import opened Base
  import opened JsValues
  import Titles

  /** A paragraph of the panel: contents the answer used are shown in bold. */
  datatype Paragraph = Used(text: string) | Unused(text: string)

  datatype PanelState = PanelState(selected: JsVal, highlighted: set<string>, shown: bool, title: string, paragraphs: seq<Paragraph>)

  /** The page as loaded: nothing selected (`''`), nothing highlighted, the panel hidden. */
  const Initial := PanelState(Str(""), {}, false, "", [])

  /** The element id of a history row. */
  function RowKey(id: JsVal): string {
    "row-" + JsString(id)
  }

  /** `selectedRowId != ''` is false exactly for the values loosely equal to the empty string. */
  predicate LooselyEmpty(v: JsVal) {
    v == Str("") || v == Num(0) || v == Bool(false)
  }

  /** `hideContentPanel(id)`: empty the panel, hide it, unhighlight row `id`; the selection stays. */
  function HideContentPanel(s: PanelState, id: JsVal): (r: PanelState)
    ensures !r.shown && r.title == "" && r.paragraphs == []
    ensures r.highlighted == s.highlighted - {RowKey(id)}
    ensures r.selected == s.selected
  {
    s.(highlighted := s.highlighted - {RowKey(id)}, shown := false, title := "", paragraphs := [])
  }

  /**
    `display_contents`: move the highlight to row `id`, then show the
    panel with the used contents before the unused ones, or hide it when
    both lists are empty.
   */
  function DisplayContents(s: PanelState, id: JsVal, title: string, used: seq<string>, unused: seq<string>): (r: PanelState)
    ensures r.selected == id
    ensures r.shown <==> used != [] || unused != []
    ensures r.shown ==> r.title == Titles.PanelTitle(title) && RowKey(id) in r.highlighted
    ensures !r.shown ==> r.title == "" && r.paragraphs == [] && RowKey(id) !in r.highlighted
    ensures |r.paragraphs| == if r.shown then |used| + |unused| else 0
    ensures r.shown ==> forall i :: 0 <= i < |used| ==> r.paragraphs[i] == Used(used[i])
    ensures r.shown ==> forall j :: 0 <= j < |unused| ==> r.paragraphs[|used| + j] == Unused(unused[j])
  {
    var h1 := if !LooselyEmpty(s.selected) then s.highlighted - {RowKey(s.selected)} else s.highlighted;
    var s1 := s.(selected := id, highlighted := h1 + {RowKey(id)}, title := "", paragraphs := []);
    if !(used == [] && unused == []) then
      s1.(shown := true, title := Titles.PanelTitle(title),
          paragraphs := Map(used, (t: string) => Used(t)) + Map(unused, (t: string) => Unused(t)))
    else HideContentPanel(s1, id)
  }

  /** At most one row is highlighted, and only the selected one. */
  predicate Inv(s: PanelState) {
    s.highlighted <= {RowKey(s.selected)} && (LooselyEmpty(s.selected) ==> s.highlighted == {})
  }

  /**
    Selecting a row takes the highlight away from the previously selected
    row: the highlight is on the new row alone while the panel is shown,
    and on no row when there was nothing to show.
   */
  lemma DisplayMovesHighlight(s: PanelState, id: JsVal, title: string, used: seq<string>, unused: seq<string>)
    requires Inv(s) && !LooselyEmpty(id)
    ensures var r := DisplayContents(s, id, title, used, unused);
      Inv(r) && r.highlighted == (if r.shown then {RowKey(id)} else {})
  {
  }

  /** Closing the panel keeps the invariant and leaves no row highlighted. */
  lemma HideKeepsInv(s: PanelState)
    requires Inv(s)
    ensures Inv(HideContentPanel(s, s.selected)) && HideContentPanel(s, s.selected).highlighted == {}
  {
  }

  /**
    Row ids are the sidebar's numeric ids; the value `0`, loosely equal to
    `''`, is never unhighlighted by the next selection.
   */
  lemma ZeroIdKeepsHighlight(title: string)
    ensures var r := DisplayContents(DisplayContents(Initial, Num(0), title, ["a"], []), Num(1), title, ["b"], []);
      r.highlighted == {RowKey(Num(0)), RowKey(Num(1))}
  {
    assert RowKey(Num(0)) != RowKey(Num(1)) by {
      assert RowKey(Num(0))[4] == '0' && RowKey(Num(1))[4] == '1';
    }
  }
}

=== FILE: create_folder.dfy ===
/**
  The New folder dialog's Create button (main.ui.js): the name is
  trimmed, rejected when empty, checked against the existing folders
  ignoring case, and only then sent to be created.
 */
module CreateFolder {
  import opened Base
  import opened Strings

  /** The requests the button sends, in order. */
  datatype FolderRequest = ListFolders | Create(name: string, color: string)

  /**
    How the create request failed: `jsonError` is a non-empty `error` of
    the parsed reply, `responseText` the raw reply, and `textError` what
    parsing that text gives (`None` when it is not JSON, `Some("")` when
    it carries no `error`).
   */
  datatype Failure = Failure(jsonError: Option<string>, responseText: string, textError: Option<string>)

  datatype CreateReply = Created | CreateFailed(failure: Failure)

  /** What the user sees at the end. */
  datatype Effect =
    | InlineError(message: string)
    | Toast(message: string)
    | CloseAndReload
    | Unchanged

  datatype Outcome = Outcome(requests: seq<FolderRequest>, effect: Effect)

  const EmptyNameMessage := "Folder name cannot be empty."
  const FetchFailedMessage := "Failed to fetch existing folders for validation."
  const CreateFailedMessage := "Failed to create folder."

  function DuplicateMessage(name: string): string {
    "A folder with the name \"" + name + "\" already exists."
  }

  /** An existing folder has this name when both are lower-cased. */
  predicate IsDuplicate(name: string, existing: seq<string>) {
    exists i :: 0 <= i < |existing| && Lower(existing[i]) == Lower(name)
  }

  /**
    The error handler of the create request: a server `error` is shown in
    the dialog; a text reply that is not JSON, or no reply text at all,
    gives the generic toast; JSON text without an `error` shows nothing.
   */
  function FailureEffect(f: Failure): (e: Effect)
    ensures f.jsonError.Some? && f.jsonError.value != "" ==> e == InlineError(f.jsonError.value)
    ensures !HasJsonError(f) && f.responseText != "" && f.textError.Some? && f.textError.value != "" ==>
      e == InlineError(f.textError.value)
    ensures e.Toast? <==> !HasJsonError(f) && (f.responseText == "" || f.textError.None?)
    ensures e.Toast? ==> e.message == CreateFailedMessage
    ensures e == Unchanged <==> !HasJsonError(f) && f.responseText != "" && f.textError == Some("")
    ensures e.InlineError? ==> e.message != ""
    ensures !e.CloseAndReload?
  {
    match f.jsonError
    case Some(msg) => if msg != "" then InlineError(msg) else FailureText(f)
    case None => FailureText(f)
  }

  /** The parsed reply carries a truthy `error`. */
  predicate HasJsonError(f: Failure) {
    f.jsonError.Some? && f.jsonError.value != ""
  }

  /**
    The `responseText` branch: no text gives the toast; text that is not
    JSON gives the toast; JSON with a non-empty `error` shows it in the
    dialog; JSON without one shows nothing.
   */
  function FailureText(f: Failure): (e: Effect)
    ensures e.Toast? <==> f.responseText == "" || f.textError.None?
    ensures e.Toast? ==> e.message == CreateFailedMessage
    ensures f.responseText != "" && f.textError.Some? && f.textError.value != "" ==> e == InlineError(f.textError.value)
    ensures e == Unchanged <==> f.responseText != "" && f.textError == Some("")
    ensures e.InlineError? ==> e.message != ""
    ensures !e.CloseAndReload?
  {
    if f.responseText == "" then Toast(CreateFailedMessage)
    else match f.textError
      case None => Toast(CreateFailedMessage)
      case Some(msg) => if msg != "" then InlineError(msg) else Unchanged
  }

  /**
    One press of Create: `existing` is the folder names the validation
    fetch returned (`None` when it failed) and `reply` how the create
    request ended, when it is sent.
   */
  function CreateClick(input: string, color: string, existing: Option<seq<string>>, reply: CreateReply): (r: Outcome)
    ensures Strip(JavaScript, input) == "" ==> r == Outcome([], InlineError(EmptyNameMessage))
    ensures Strip(JavaScript, input) != "" ==> |r.requests| >= 1 && r.requests[0] == ListFolders
    ensures r.effect == CloseAndReload ==> reply == Created
  {
    var name := Strip(JavaScript, input);
    if name == "" then Outcome([], InlineError(EmptyNameMessage))
    else match existing
      case None => Outcome([ListFolders], Toast(FetchFailedMessage))
      case Some(names) =>
        if IsDuplicate(name, names) then Outcome([ListFolders], InlineError(DuplicateMessage(name)))
        else
          var effect := match reply
            case Created => CloseAndReload
            case CreateFailed(f) => FailureEffect(f);
          Outcome([ListFolders, Create(name, color)], effect)
  }

  predicate SendsCreate(r: Outcome) {
    exists i :: 0 <= i < |r.requests| && r.requests[i].Create?
  }

  /**
    A create request is sent exactly when the trimmed name is non-empty,
    the existing folders were fetched and none of them has that name in
    any letter case; it then carries the trimmed name and the chosen colour.
   */
  lemma CreateIffFresh(input: string, color: string, existing: Option<seq<string>>, reply: CreateReply)
    ensures SendsCreate(CreateClick(input, color, existing, reply)) <==>
      Strip(JavaScript, input) != "" && existing.Some? && !IsDuplicate(Strip(JavaScript, input), existing.value)
    ensures SendsCreate(CreateClick(input, color, existing, reply)) ==>
      CreateClick(input, color, existing, reply).requests == [ListFolders, Create(Strip(JavaScript, input), color)]
  {
    var r := CreateClick(input, color, existing, reply);
    if SendsCreate(r) {
      var i :| 0 <= i < |r.requests| && r.requests[i].Create?;
    }
    if Strip(JavaScript, input) != "" && existing.Some? && !IsDuplicate(Strip(JavaScript, input), existing.value) {
      assert r.requests[1].Create?;
    }
  }

  /** The name sent is never blank and carries no surrounding white space. */
  lemma CreatedNameTrimmed(input: string, color: string, existing: Option<seq<string>>, reply: CreateReply)
    requires SendsCreate(CreateClick(input, color, existing, reply))
    ensures var name := CreateClick(input, color, existing, reply).requests[1].name;
      name != "" && Trimmed(JavaScript, name)
  {
    CreateIffFresh(input, color, existing, reply);
  }

  /** The duplicate check ignores letter case on the typed side as well. */
  lemma DuplicateIgnoresCase(name: string, existing: seq<string>)
    ensures IsDuplicate(Lower(name), existing) <==> IsDuplicate(name, existing)
  {
    LowerIdempotent(name);
  }

  /**
    Once a folder is created, creating the same name again, in any letter
    case and with any surrounding white space, is refused as a duplicate.
   */
  lemma SecondCreateRefused(first: string, second: string, color: string, existing: seq<string>, reply: CreateReply)
    requires SendsCreate(CreateClick(first, color, Some(existing), Created))
    requires Lower(Strip(JavaScript, second)) == Lower(Strip(JavaScript, first))
    ensures var again := CreateClick(second, color, Some(existing + [Strip(JavaScript, first)]), reply);
      !SendsCreate(again) && again.effect == InlineError(DuplicateMessage(Strip(JavaScript, second)))
  {
    CreateIffFresh(first, color, Some(existing), Created);
    var names := existing + [Strip(JavaScript, first)];
    assert Lower(names[|existing|]) == Lower(Strip(JavaScript, second));
    CreateIffFresh(second, color, Some(names), reply);
  }
}

=== FILE: database_handler.dfy ===
/**
  The two lookups of `DatabaseHandler` (PB_Assistant/website/services) that
  shape data rather than only forward a query: the per-article dictionary
  built for the result page, and the text-id to paper-id mapping. The ORM
  is a table: a sequence of paper rows, or a map from text id to paper id.
 */
module DatabaseHandler {
  import opened Base
  import opened Strings
  import opened PyValues

  /**
    One `AcademicPaper` row with the fields the result page reads, and the
    id of its one-to-one `AcademicPaperText`, if it has one. Each entry of
    `authorList` is whatever the JSON column holds.
   */
  datatype PaperRow = PaperRow(
    id: int,
    doi: Option<string>,
    title: Option<string>,
    publicationYear: Option<int>,
    source: Option<string>,
    authorList: seq<PyVal>,
    textId: Option<int>)

  /** `model_to_dict(paper)` with `academicpaper_text_id` and `authors_string` added. */
  datatype Article = Article(
    id: int,
    doi: Option<string>,
    title: Option<string>,
    publicationYear: Option<int>,
    source: Option<string>,
    textId: Option<int>,
    authorsString: string)

  /** `a.get("name")` is defined: the entry is a dictionary. */
  predicate IsDict(a: PyVal) {
    a.PDict?
  }

  /** The entry's name is kept by the generator: it is truthy. */
  predicate HasName(a: PyVal) {
    a.PDict? && Truthy(Get(a.entries, "name", PNone))
  }

  /** The entry's name as text (the empty string when it is not a string). */
  function NameOf(a: PyVal): string {
    if a.PDict? && Get(a.entries, "name", PNone).PStr? then Get(a.entries, "name", PNone).s else ""
  }

  /**
    An author list `", ".join(...)` accepts: every entry answers `.get`
    and every truthy name is a string.
   */
  predicate JoinableAuthors(list: seq<PyVal>) {
    forall i :: 0 <= i < |list| ==> IsDict(list[i]) && (HasName(list[i]) ==> Get(list[i].entries, "name", PNone).PStr?)
  }

  /**
    The names the generator yields, in list order; `None` when it raises
    (`.get` on a non-dictionary, or `join` meeting a non-string name).
   */
  function AuthorNames(list: seq<PyVal>): (r: Option<seq<string>>)
    ensures r.Some? <==> JoinableAuthors(list)
    ensures r.Some? ==> |r.value| <= |list| && forall k :: 0 <= k < |r.value| ==> r.value[k] != ""
  {
    if list == [] then Some([])
    else
      var a := list[0];
      match AuthorNames(list[1..])
      case None => None
      case Some(rest) =>
        if !a.PDict? then None
        else
          var name := Get(a.entries, "name", PNone);
          if !Truthy(name) then Some(rest)
          else if name.PStr? then Some([name.s] + rest)
          else None
  }

  /** `", ".join(a.get("name", "") for a in author_list if a.get("name"))`. */
  function AuthorsString(list: seq<PyVal>): (r: Option<string>)
    ensures r.Some? <==> JoinableAuthors(list)
  {
    match AuthorNames(list)
    case None => None
    case Some(names) => Some(Join(names, ", "))
  }

  /** The kept names are exactly the truthy names of the list, in order. */
  lemma {:induction false} AuthorNamesAreFiltered(list: seq<PyVal>)
    requires JoinableAuthors(list)
    ensures AuthorNames(list) == Some(Map(Filter(list, HasName), NameOf))
    decreases |list|
  {
    if list != [] {
      var x, rest := list[0], list[1..];
      assert JoinableAuthors(rest) by {
        forall i | 0 <= i < |rest|
          ensures IsDict(rest[i]) && (HasName(rest[i]) ==> Get(rest[i].entries, "name", PNone).PStr?)
        {
          assert rest[i] == list[i + 1];
        }
      }
      AuthorNamesAreFiltered(rest);
      var names := Map(Filter(rest, HasName), NameOf);
      assert list == [x] + rest;
      FilterCons(x, rest, HasName);
      if HasName(x) {
        MapAppend([x], Filter(rest, HasName), NameOf);
        assert Map([x], NameOf) == [NameOf(x)];
        assert Filter(list, HasName) == [x] + Filter(rest, HasName);
        assert AuthorNames(list) == Some([NameOf(x)] + names);
      } else {
        assert Filter(list, HasName) == Filter(rest, HasName);
        assert AuthorNames(list) == Some(names);
      }
    }
  }

  /** A list with no truthy names gives the empty string, not an error. */
  lemma {:induction false} NamelessAuthorsJoinEmpty(list: seq<PyVal>)
    requires forall i :: 0 <= i < |list| ==> IsDict(list[i]) && !HasName(list[i])
    ensures AuthorsString(list) == Some("")
    decreases |list|
  {
    if list != [] {
      NamelessAuthorsJoinEmpty(list[1..]);
    }
  }

  function ToArticle(row: PaperRow): (r: Option<Article>)
    ensures r.Some? <==> JoinableAuthors(row.authorList)
    ensures r.Some? ==> r.value.id == row.id && r.value.doi == row.doi && r.value.title == row.title
    ensures r.Some? ==> r.value.textId == row.textId && Some(r.value.authorsString) == AuthorsString(row.authorList)
    ensures r.Some? ==> r.value.publicationYear == row.publicationYear && r.value.source == row.source
  {
    match AuthorsString(row.authorList)
    case None => None
    case Some(authors) =>
      Some(Article(row.id, row.doi, row.title, row.publicationYear, row.source, row.textId, authors))
  }

  /** `filter(academicpaper_text__id__in=doc_ids)`: the row's text id is one of the ids. */
  function Selects(docIds: seq<int>): PaperRow -> bool {
    (row: PaperRow) => row.textId.Some? && row.textId.value in docIds
  }

  /** Every row converts: the loop finishes without raising. */
  predicate AllConvert(rows: seq<PaperRow>) {
    forall i :: 0 <= i < |rows| ==> ToArticle(rows[i]).Some?
  }

  function ArticlesOf(rows: seq<PaperRow>): (r: Option<seq<Article>>)
    ensures r.Some? <==> AllConvert(rows)
    ensures r.Some? ==> |r.value| == |rows| && forall i :: 0 <= i < |rows| ==> Some(r.value[i]) == ToArticle(rows[i])
  {
    if rows == [] then Some([])
    else
      match ToArticle(rows[0])
      case None => None
      case Some(a) =>
        match ArticlesOf(rows[1..])
        case None => None
        case Some(rest) => Some([a] + rest)
  }

  /**
    `retrieve_articles_by_doc_ids`: `table` is `None` when the query itself
    raises. Every exception is caught and turned into `[]`.
   */
  function RetrieveArticles(table: Option<seq<PaperRow>>, docIds: seq<int>): (r: seq<Article>)
    ensures docIds == [] ==> r == []
    ensures table.None? ==> r == []
    ensures forall k :: 0 <= k < |r| ==> r[k].textId.Some? && r[k].textId.value in docIds
  {
    match table
    case None => []
    case Some(rows) =>
      var selected := Filter(rows, Selects(docIds));
      match ArticlesOf(selected)
      case None => []
      case Some(articles) =>
        assert forall k :: 0 <= k < |articles| ==> articles[k].textId == selected[k].textId;
        articles
  }

  /**
    When every selected row converts, there is one article per selected
    row, in table order; when one of them raises, the whole answer is `[]`.
   */
  lemma RetrieveOnePerSelectedRow(rows: seq<PaperRow>, docIds: seq<int>)
    ensures var selected := Filter(rows, Selects(docIds));
      var r := RetrieveArticles(Some(rows), docIds);
      (AllConvert(selected) ==> |r| == |selected| && forall k :: 0 <= k < |r| ==> Some(r[k]) == ToArticle(selected[k]))
      && (!AllConvert(selected) ==> r == [])
  {
  }

  /**
    The lookup `get_academicitem_ids_from_text_ids` means to do: the paper
    id of each text id the table knows, in input order, repeats kept and
    unknown ids skipped.
   */
  function AcademicItemIds(textIds: seq<int>, table: map<int, int>): (r: seq<int>)
    ensures |r| <= |textIds|
    ensures forall k :: 0 <= k < |r| ==> r[k] in table.Values
    ensures |r| == |textIds| <==> forall i :: 0 <= i < |textIds| ==> textIds[i] in table
  {
    if textIds == [] then []
    else
      var rest := AcademicItemIds(textIds[1..], table);
      var t := textIds[0];
      if t in table then [table[t]] + rest else rest
  }

  /**
    The names a query may use for the fields of `AcademicPaperText`
    (PB_Assistant/models.py:67-75): its key, its one-to-one link by field
    or column name, and its own fields.
   */
  const TextFields: set<string> := {"id", "academicpaper", "academicpaper_id", "text", "hasfulltext", "created_at"}

  /** The names of the link to `AcademicPaper`, whose values `table` holds. */
  const LinkFields: set<string> := {"academicpaper", "academicpaper_id"}

  /** The ORM's refusal of a query that names a field the model lacks. */
  datatype QueryError = FieldError(name: string)

  /**
    `get_academicitem_ids_from_text_ids` with `values_list("id", field)`:
    a field the model lacks raises `FieldError` before any row is read;
    the link field gives the lookup `AcademicItemIds` describes. Other real
    fields hold no paper ids and are outside this model.
   */
  function ItemIdsNaming(field: string, textIds: seq<int>, table: map<int, int>): (r: Result<seq<int>, QueryError>)
    requires field in LinkFields || field !in TextFields
    ensures r.Err? <==> field !in TextFields
    ensures r.Err? ==> r.error == FieldError(field)
    ensures r.Ok? ==> r.value == AcademicItemIds(textIds, table)
  {
    if field in LinkFields then Ok(AcademicItemIds(textIds, table)) else Err(FieldError(field))
  }

  /**
    The query as written names `paper_id`, which `AcademicPaperText` lacks,
    so every call raises, whatever the ids and rows.
   */
  function AcademicItemIdsAsWritten(textIds: seq<int>, table: map<int, int>): (r: Result<seq<int>, QueryError>)
    ensures r == Err(FieldError("paper_id"))
  {
    ItemIdsNaming("paper_id", textIds, table)
  }

  /** Naming the link column instead, every call answers with the lookup. */
  function AcademicItemIdsCorrected(textIds: seq<int>, table: map<int, int>): (r: Result<seq<int>, QueryError>)
    ensures r == Ok(AcademicItemIds(textIds, table))
  {
    ItemIdsNaming("academicpaper_id", textIds, table)
  }

  /** Looking up a concatenation is concatenating the lookups, so repeats are kept. */
  lemma {:induction false} AcademicItemIdsAppend(a: seq<int>, b: seq<int>, table: map<int, int>)
    ensures AcademicItemIds(a + b, table) == AcademicItemIds(a, table) + AcademicItemIds(b, table)
    decreases |a|
  {
    if a == [] {
      assert a + b == b;
    } else {
      assert (a + b)[1..] == a[1..] + b;
      assert (a + b)[0] == a[0];
      AcademicItemIdsAppend(a[1..], b, table);
      var rest := AcademicItemIds(a[1..], table);
      assert AcademicItemIds(a + b, table) == (if a[0] in table then [table[a[0]]] else []) + AcademicItemIds(a[1..] + b, table);
      assert AcademicItemIds(a, table) == (if a[0] in table then [table[a[0]]] else []) + rest;
      if a[0] in table {
        assert [table[a[0]]] + (rest + AcademicItemIds(b, table)) == ([table[a[0]]] + rest) + AcademicItemIds(b, table);
      }
    }
  }

  /** Each known id contributes its paper id at its own place. */
  lemma {:induction false} AcademicItemIdsAllKnown(textIds: seq<int>, table: map<int, int>)
    requires forall i :: 0 <= i < |textIds| ==> textIds[i] in table
    ensures AcademicItemIds(textIds, table) == seq(|textIds|, i requires 0 <= i < |textIds| => table[textIds[i]])
    decreases |textIds|
  {
    if textIds != [] {
      AcademicItemIdsAllKnown(textIds[1..], table);
    }
  }
}

=== FILE: drag_drop.dfy ===
/**
  Dragging history rows onto folder headers and back onto the top-level
  list (main.history.js). Highlights are kept as the set of header ids
  carrying the drop border, plus one flag for the top-level list.
 */
module DragDrop {
  import opened Base
  import opened Strings
  import opened JsValues
  import opened HistoryApi
  import SidebarDom
  import OpenFolders

  /** The row being dragged: its history id and its element-and-ancestors chain. */
  datatype Dragged = Dragged(historyId: int, chain: seq<SidebarDom.Node>)

  datatype DragState = DragState(
    dragged: Option<Dragged>,
    dimmed: Option<int>,
    highlightedHeaders: set<string>,
    topHighlighted: bool)

  const Idle := DragState(None, None, {}, false)

  function DragStart(s: DragState, d: Dragged): (r: DragState)
    ensures r.dragged == Some(d) && r.dimmed == Some(d.historyId)
    ensures r.(dragged := s.dragged, dimmed := s.dimmed) == s
  {
    s.(dragged := Some(d), dimmed := Some(d.historyId))
  }

  function DragEnd(s: DragState): (r: DragState)
    ensures r.dragged.None? && r.dimmed.None?
    ensures r.(dragged := s.dragged, dimmed := s.dimmed) == s
  {
    s.(dragged := None, dimmed := None)
  }

  /** `$(header).attr('id').split('-')[1]`: `undefined` when there is no hyphen. */
  function SecondDashField(id: string): JsVal {
    var parts := Split(id, '-');
    if |parts| > 1 then Str(parts[1]) else Undefined
  }

  /** Dragging over a header always highlights it, leaving removes the highlight. */
  function HeaderDragOver(s: DragState, headerId: string): (r: DragState)
    ensures r.highlightedHeaders == s.highlightedHeaders + {headerId}
    ensures r.(highlightedHeaders := s.highlightedHeaders) == s
  {
    s.(highlightedHeaders := s.highlightedHeaders + {headerId})
  }

  function HeaderDragLeave(s: DragState, headerId: string): (r: DragState)
    ensures r.highlightedHeaders == s.highlightedHeaders - {headerId}
    ensures r.(highlightedHeaders := s.highlightedHeaders) == s
  {
    s.(highlightedHeaders := s.highlightedHeaders - {headerId})
  }

  /** Dropping on a header: the highlight goes, and a dragged row is moved into that folder. */
  function HeaderDrop(s: DragState, headerId: string): (r: (DragState, Option<Request>))
    ensures headerId !in r.0.highlightedHeaders
    ensures r.0.highlightedHeaders == s.highlightedHeaders - {headerId}
    ensures r.0.(highlightedHeaders := s.highlightedHeaders) == s
    ensures r.1.Some? <==> s.dragged.Some?
    ensures r.1.Some? ==> r.1.value == Move(Num(s.dragged.value.historyId), SecondDashField(headerId))
  {
    var s' := s.(highlightedHeaders := s.highlightedHeaders - {headerId});
    match s.dragged
    case None => (s', None)
    case Some(d) => (s', Some(Move(Num(d.historyId), SecondDashField(headerId))))
  }

  /**
    The request a drop on folder `n`'s header sends names folder `n`: its
    `folder_id` is the digit string of `n`, which reads back as `n`.
   */
  lemma HeaderDropNamesFolder(s: DragState, n: nat)
    requires s.dragged.Some?
    ensures HeaderDrop(s, OpenFolders.HeaderId(n)).1 == Some(Move(Num(s.dragged.value.historyId), Str(NatToString(n))))
    ensures ParseInt(Some(NatToString(n))) == Num(n)
  {
    var d := NatToString(n);
    NatToStringRoundTrip(n);
    assert '-' !in d by {
      forall i | 0 <= i < |d| ensures d[i] != '-' {
        assert IsDigit(d[i]);
      }
    }
    assert '-' !in "folder";
    JoinSplit(["folder", d], '-');
    assert Join(["folder", d], "-") == OpenFolders.HeaderId(n);
    ParseIntOfDecimal(n);
  }

  /** Dropping without a drag in progress sends nothing. */
  lemma NoDragNoRequest(s: DragState, headerId: string)
    requires s.dragged.None?
    ensures HeaderDrop(s, headerId).1.None?
    ensures TopDrop(s).1.None? && TopDropAsWritten(s).1.None?
  {
  }

  predicate FromFolder(s: DragState) {
    s.dragged.Some? && SidebarDom.InFolder(s.dragged.value.chain)
  }

  predicate FromFolderAsWritten(s: DragState) {
    s.dragged.Some? && SidebarDom.InFolderAsWritten(s.dragged.value.chain)
  }

  /**
    Dragging over the top-level list, as written: the border is added only
    when the dragged row has an ancestor whose id starts with `folder-`,
    and nothing else changes.
   */
  function TopDragOver(s: DragState): (r: DragState)
    ensures r.topHighlighted <==> s.topHighlighted || FromFolderAsWritten(s)
    ensures r.(topHighlighted := s.topHighlighted) == s
  {
    if FromFolderAsWritten(s) then s.(topHighlighted := true) else s
  }

  /** The highlight as evidently meant: only for a row coming out of a folder. */
  function TopDragOverIntended(s: DragState): (r: DragState)
    ensures r.topHighlighted <==> s.topHighlighted || FromFolder(s)
    ensures r.(topHighlighted := s.topHighlighted) == s
  {
    if FromFolder(s) then s.(topHighlighted := true) else s
  }

  function TopDragLeave(s: DragState): (r: DragState)
    ensures !r.topHighlighted
    ensures r.(topHighlighted := s.topHighlighted) == s
  {
    s.(topHighlighted := false)
  }

  /** Dropping on the top-level list moves a row out of its folder (`folder_id: null`). */
  function TopDrop(s: DragState): (r: (DragState, Option<Request>))
    ensures !r.0.topHighlighted
    ensures r.0.(topHighlighted := s.topHighlighted) == s
    ensures r.1.Some? <==> FromFolder(s)
    ensures r.1.Some? ==> r.1.value == Move(Num(s.dragged.value.historyId), Null)
  {
    var s' := s.(topHighlighted := false);
    if FromFolder(s) then (s', Some(Move(Num(s.dragged.value.historyId), Null))) else (s', None)
  }

  /** The drop as written, with the `closest('[id^="folder-"]')` test. */
  function TopDropAsWritten(s: DragState): (r: (DragState, Option<Request>))
    ensures !r.0.topHighlighted
    ensures r.0.(topHighlighted := s.topHighlighted) == s
    ensures r.1.Some? <==> FromFolderAsWritten(s)
    ensures r.1.Some? ==> r.1.value == Move(Num(s.dragged.value.historyId), Null)
  {
    var s' := s.(topHighlighted := false);
    if FromFolderAsWritten(s) then (s', Some(Move(Num(s.dragged.value.historyId), Null))) else (s', None)
  }

  /**
    For a row dragged out of folder `k`: as written the top-level list is
    never highlighted and nothing is sent (the page above `#folderList`
    carrying no `folder-` id), while the intended test highlights the list
    and sends the move to the top level.
   */
  lemma DropBackFromFolder(views: seq<SidebarDom.SidebarRender.FolderView>, k: nat, j: nat,
                           listClasses: set<string>, page: seq<SidebarDom.Node>, s: DragState)
    requires k < |views| && j < |views[k].rows|
    requires SidebarDom.NoFolderIds(page)
    requires s.dragged == Some(Dragged(views[k].rows[j].id, SidebarDom.FolderRowChain(views, k, j, listClasses, page)))
    ensures TopDragOver(s).topHighlighted == s.topHighlighted
    ensures TopDragOverIntended(s).topHighlighted
    ensures TopDropAsWritten(s).1.None?
    ensures TopDrop(s).1 == Some(Move(Num(views[k].rows[j].id), Null))
  {
    SidebarDom.FolderRowNotRecognised(views, k, j, listClasses, page);
    assert SidebarDom.FolderRowChain(views, k, j, listClasses, page)[3].id == Some("folderList");
  }

  /** A top-level row dropped on the top-level list sends nothing. */
  lemma DropTopRowOnTop(row: SidebarDom.SidebarRender.Row, listClasses: set<string>, siblings: seq<SidebarDom.Node>,
                        page: seq<SidebarDom.Node>, s: DragState)
    requires forall i :: 0 <= i < |page| ==> page[i].id != Some("folderList")
    requires s.dragged == Some(Dragged(row.id, SidebarDom.TopRowChain(row, listClasses, siblings, page)))
    ensures TopDrop(s).1.None?
  {
    var top := SidebarDom.TopRowChain(row, listClasses, siblings, page);
    forall i | 0 <= i < |top|
      ensures top[i].id != Some("folderList")
    {
      if i >= 2 {
        assert top[i] == page[i - 2];
      }
    }
  }
}

=== FILE: history_api.dfy ===
/**
  The two requests the sidebar sends about one history item, and what it
  does with the reply: `moveHistoryItem` and `deletePrompt`
  (main.history.js; main.js carries an identical `deletePrompt`).
 */
module HistoryApi {
  import opened Base
  import opened Strings
  import opened JsValues

  /** `PUT /api/history/<id>/move/` with body `{folder_id}`, or `DELETE /delete-history/<id>`. */
  datatype Request =
    | Move(historyId: JsVal, folderId: JsVal)
    | Delete(promptId: JsVal)

  function Url(r: Request): string {
    match r
    case Move(h, _) => "/api/history/" + JsString(h) + "/move/"
    case Delete(p) => "/delete-history/" + JsString(p)
  }

  datatype Reply = Succeeded | Failed

  /** What the page does once a reply arrives. */
  datatype Effect = ReloadHistory | ShowError(message: string) | Navigate(url: string)

  const MoveFailedMessage := "Failed to move item."
  const DeleteFailedMessage := "Failed to delete the resource."

  /** `moveHistoryItem`: rebuild the sidebar on success, report otherwise. */
  function MoveOutcome(reply: Reply): (e: Effect)
    ensures e.ReloadHistory? <==> reply.Succeeded?
    ensures e.ShowError? ==> e.message == MoveFailedMessage
    ensures reply.Failed? ==> e == ShowError(MoveFailedMessage)
  {
    if reply.Succeeded? then ReloadHistory else ShowError(MoveFailedMessage)
  }

  /**
    `deletePrompt`: after the user confirms, the request is sent; on success
    the page leaves for `/` when the deleted item is the one on screen
    (`promptId === parseInt(data-history-id)`) and otherwise rebuilds the
    sidebar. `activeAttr` is the page's `data-history-id` attribute.
   */
  function DeleteOutcome(promptId: JsVal, activeAttr: Option<string>, reply: Reply): (e: Effect)
    ensures e.Navigate? <==> reply.Succeeded? && StrictEquals(promptId, ParseInt(activeAttr))
    ensures e.Navigate? ==> e.url == "/"
    ensures e.ShowError? <==> reply.Failed?
    ensures e.ShowError? ==> e.message == DeleteFailedMessage
  {
    match reply
    case Succeeded => if StrictEquals(promptId, ParseInt(activeAttr)) then Navigate("/") else ReloadHistory
    case Failed => ShowError(DeleteFailedMessage)
  }

  /** Nothing is sent until the confirmation dialog is accepted. */
  function DeletePrompt(promptId: JsVal, confirmed: bool): (r: Option<Request>)
    ensures r.Some? <==> confirmed
    ensures r.Some? ==> r.value == Delete(promptId) && Url(r.value) == "/delete-history/" + JsString(promptId)
  {
    if confirmed then Some(Delete(promptId)) else None
  }

  /** The argument the item menu's Delete button passes, as written: the id text from `split('-')[1]`. */
  function DeleteArgumentAsWritten(idText: string): JsVal {
    Str(idText)
  }

  /** The argument it evidently means to pass: the id as a number, as the older flat list does. */
  function DeleteArgument(idText: string): JsVal {
    ParseInt(Some(idText))
  }

  /** As written, deleting from the menu never leaves the page, even for the item on screen. */
  lemma MenuDeleteAsWrittenNeverNavigates(idText: string, activeAttr: Option<string>)
    ensures !DeleteOutcome(DeleteArgumentAsWritten(idText), activeAttr, Succeeded).Navigate?
  {
  }

  /**
    With the numeric argument, deleting item `n` from its menu leaves the
    page exactly when item `n` is the one on screen; and either way the
    request goes to the same URL.
   */
  lemma MenuDeleteNavigatesIffActive(n: int, activeAttr: Option<string>)
    ensures DeleteOutcome(DeleteArgument(IntToString(n)), activeAttr, Succeeded).Navigate? <==> ParseInt(activeAttr) == Num(n)
    ensures activeAttr == Some(IntToString(n)) ==> DeleteOutcome(DeleteArgument(IntToString(n)), activeAttr, Succeeded) == Navigate("/")
    ensures Url(Delete(DeleteArgument(IntToString(n)))) == Url(Delete(DeleteArgumentAsWritten(IntToString(n))))
  {
    DeleteArgumentIsNumber(n);
    NumberMatchesParsed(n, ParseInt(activeAttr));
    if activeAttr == Some(IntToString(n)) {
      ParseIntOfDecimal(n);
    }
  }

  lemma DeleteArgumentIsNumber(n: int)
    ensures DeleteArgument(IntToString(n)) == Num(n)
  {
    ParseIntOfDecimal(n);
  }

  /** `===` between a number and a `parseInt` result is equality of values. */
  lemma NumberMatchesParsed(n: int, parsed: JsVal)
    requires parsed.Num? || parsed.NaN?
    ensures StrictEquals(Num(n), parsed) <==> parsed == Num(n)
  {
  }
}

=== FILE: importer.dfy ===
/**
  The paper importer (PB_Assistant/apps/textprocessing/importer.py): the
  empty-record guard, duplicate lookup by DOI, then slug, then fuzzy title
  score, insertion with a planetary-boundary link, and the batch counts.
  The paper table is a sequence of rows in primary-key order, so a
  query's `.first()` is the first matching row.
 */
module Importer {
  import opened Base
  import opened Strings
  import opened PyValues
  import opened PaperData

  /**
    The library calls duplicate detection depends on (`slugify`,
    `fuzz.token_sort_ratio`) and the `FUZZY_MATCHING_ENABLED` setting.
   */
  datatype Matcher = Matcher(slugify: string -> string, ratio: (string, string) -> int, fuzzyEnabled: bool)

  /** The default `threshold` of `find_duplicate`, which is the one every caller gets. */
  const FuzzyThreshold := 90

  const SkippedEmpty := "skipped_empty"
  const NewRecord := "new_record"
  /** The status of a duplicate: the empty string. */
  const Duplicate := ""

  /** `generate_title_slug`. */
  function TitleSlug(title: Option<string>, slugify: string -> string): (r: Option<string>)
    ensures r.None? <==> !Present(title)
    ensures r.Some? ==> r.value == slugify(title.value)
  {
    if Present(title) then Some(slugify(title.value)) else None
  }

  // ---------------------------------------------------------------- lookup

  function SameDoi(doi: string): StoredPaper -> bool {
    (row: StoredPaper) => row.doi == Some(doi)
  }

  function SameSlug(slug: string): StoredPaper -> bool {
    (row: StoredPaper) => row.titleSlug == Some(slug)
  }

  /** A titled row whose lower-cased title scores at least the threshold against the paper's. */
  function FuzzyMatch(m: Matcher, title: string): StoredPaper -> bool {
    (row: StoredPaper) => row.title.Some? && m.ratio(Lower(title), Lower(row.title.value)) >= FuzzyThreshold
  }

  /**
    `find_duplicate`: the first row with the paper's DOI; failing that, and
    only for a titled paper, the first row with its title's slug; failing
    that, when fuzzy matching is on, the first titled row scoring high enough.
   */
  function FindDuplicate(p: Paper, db: seq<StoredPaper>, m: Matcher): (r: Option<nat>)
    ensures r.Some? ==> r.value < |db|
  {
    var byDoi := if Present(p.doi) then FirstIndex(db, SameDoi(p.doi.value)) else None;
    if byDoi.Some? then byDoi
    else if !Present(p.title) then None
    else
      var bySlug := FirstIndex(db, SameSlug(m.slugify(p.title.value)));
      if bySlug.Some? then bySlug
      else if m.fuzzyEnabled then FirstIndex(db, FuzzyMatch(m, p.title.value))
      else None
  }

  /** Some row matches the paper by one of the criteria in force. */
  predicate HasMatch(p: Paper, db: seq<StoredPaper>, m: Matcher) {
    exists i :: 0 <= i < |db| && (
      || (Present(p.doi) && SameDoi(p.doi.value)(db[i]))
      || (Present(p.title) && SameSlug(m.slugify(p.title.value))(db[i]))
      || (Present(p.title) && m.fuzzyEnabled && FuzzyMatch(m, p.title.value)(db[i])))
  }

  /** A duplicate is reported exactly when some row matches by a criterion in force. */
  lemma DuplicateIffMatch(p: Paper, db: seq<StoredPaper>, m: Matcher)
    ensures FindDuplicate(p, db, m).Some? <==> HasMatch(p, db, m)
  {
    var r := FindDuplicate(p, db, m);
    if r.Some? {
      assert 0 <= r.value < |db|;
    }
  }

  /**
    The lookup order: a DOI match wins over everything; a slug match wins
    over a fuzzy one; the fuzzy score is consulted only when it is on.
   */
  lemma DuplicateLookupOrder(p: Paper, db: seq<StoredPaper>, m: Matcher)
    ensures Present(p.doi) && FirstIndex(db, SameDoi(p.doi.value)).Some? ==>
      FindDuplicate(p, db, m) == FirstIndex(db, SameDoi(p.doi.value))
    ensures var noDoi := !Present(p.doi) || FirstIndex(db, SameDoi(p.doi.value)).None?;
      noDoi && Present(p.title) && FirstIndex(db, SameSlug(m.slugify(p.title.value))).Some? ==>
      FindDuplicate(p, db, m) == FirstIndex(db, SameSlug(m.slugify(p.title.value)))
    ensures !m.fuzzyEnabled && FindDuplicate(p, db, m).Some? ==>
      var row := db[FindDuplicate(p, db, m).value];
      (Present(p.doi) && row.doi == p.doi) || (Present(p.title) && row.titleSlug == Some(m.slugify(p.title.value)))
  {
  }

  // ---------------------------------------------------------------- insertion

  /** `add_planetary_boundary`: a missing boundary changes nothing, otherwise its id joins the links. */
  function AddPlanetaryBoundary(links: set<int>, pb: Option<int>): (r: set<int>)
    ensures links <= r
    ensures pb.None? ==> r == links
    ensures pb.Some? ==> pb.value in r && r - links <= {pb.value}
  {
    match pb
    case None => links
    case Some(id) => if id in links then links else links + {id}
  }

  /** Linking twice is linking once, and the order two boundaries are linked in does not matter. */
  lemma AddPlanetaryBoundaryIdempotent(links: set<int>, a: Option<int>, b: Option<int>)
    ensures AddPlanetaryBoundary(AddPlanetaryBoundary(links, a), a) == AddPlanetaryBoundary(links, a)
    ensures AddPlanetaryBoundary(AddPlanetaryBoundary(links, a), b) == AddPlanetaryBoundary(AddPlanetaryBoundary(links, b), a)
  {
  }

  /**
    `insert_new_paper` followed by the model's `save`: the slug is the
    paper's own, else the title's slug, and `save` fills it in once more
    when the title is set and the slug is still empty.
   */
  function InsertNewPaper(p: Paper, slugify: string -> string): (row: StoredPaper)
    ensures row.doi == p.doi && row.title == p.title && row.authorList == p.authorList && row.boundaries == {}
    ensures row.text == p.text && row.keywords == p.keywords && row.meta == p.meta
    ensures row.publicationYear == p.publicationYear && row.source == p.source
    ensures Present(p.titleSlug) ==> row.titleSlug == p.titleSlug
    ensures !Present(p.titleSlug) ==> row.titleSlug == TitleSlug(p.title, slugify)
  {
    var slug := if Present(p.titleSlug) then p.titleSlug else TitleSlug(p.title, slugify);
    var saved := if Present(p.title) && !Present(slug) then Some(slugify(p.title.value)) else slug;
    StoredPaper(p.doi, p.text, p.title, saved, p.publicationYear, p.source, p.keywords, p.authorList, p.meta, {})
  }

  datatype ImportResult = ImportResult(status: string, paper: Option<StoredPaper>, db: seq<StoredPaper>)

  /** A record with neither a DOI nor a title: nothing to check duplicates against. */
  predicate IsEmptyRecord(p: Paper) {
    !Present(p.doi) && !Present(p.title)
  }

  /**
    `import_academic_paper`: skip an empty record; otherwise overwrite the
    slug from the title, and insert and link the paper unless a duplicate
    exists.
   */
  function ImportAcademicPaper(p: Paper, pb: Option<int>, db: seq<StoredPaper>, m: Matcher): (r: ImportResult)
    ensures r.status == SkippedEmpty <==> IsEmptyRecord(p)
    ensures r.status == NewRecord <==> !IsEmptyRecord(p) && FindDuplicate(p, db, m).None?
    ensures r.status != NewRecord ==> r.paper.None? && r.db == db
    ensures r.status == NewRecord ==> r.paper.Some? && r.db == db + [r.paper.value]
  {
    if IsEmptyRecord(p) then ImportResult(SkippedEmpty, None, db)
    else
      var slugged := p.(titleSlug := TitleSlug(p.title, m.slugify));
      match FindDuplicate(slugged, db, m)
      case Some(_) => ImportResult(Duplicate, None, db)
      case None =>
        var row := InsertNewPaper(slugged, m.slugify);
        var linked := row.(boundaries := AddPlanetaryBoundary(row.boundaries, pb));
        ImportResult(NewRecord, Some(linked), db + [linked])
  }

  /** An inserted paper keeps its DOI and title, carries its title's slug and is linked to the boundary. */
  lemma InsertedRow(p: Paper, pb: Option<int>, db: seq<StoredPaper>, m: Matcher)
    requires ImportAcademicPaper(p, pb, db, m).status == NewRecord
    ensures var row := ImportAcademicPaper(p, pb, db, m).paper.value;
      row.doi == p.doi && row.title == p.title && row.titleSlug == TitleSlug(p.title, m.slugify)
      && row.text == p.text && row.keywords == p.keywords && row.meta == p.meta && row.authorList == p.authorList
      && row.boundaries == AddPlanetaryBoundary({}, pb)
  {
  }

  /** Importing the same record again, straight after it was inserted, finds it as a duplicate. */
  lemma ReimportIsDuplicate(p: Paper, pb: Option<int>, pb2: Option<int>, db: seq<StoredPaper>, m: Matcher)
    requires ImportAcademicPaper(p, pb, db, m).status == NewRecord
    ensures var first := ImportAcademicPaper(p, pb, db, m);
      ImportAcademicPaper(p, pb2, first.db, m) == ImportResult(Duplicate, None, first.db)
  {
    var first := ImportAcademicPaper(p, pb, db, m);
    var db2 := first.db;
    var row := first.paper.value;
    InsertedRow(p, pb, db, m);
    assert db2[|db|] == row;
    if Present(p.doi) {
      assert SameDoi(p.doi.value)(db2[|db|]);
    } else {
      assert SameSlug(m.slugify(p.title.value))(db2[|db|]);
    }
    DuplicateIffMatch(p.(titleSlug := TitleSlug(p.title, m.slugify)), db2, m);
  }

  // ---------------------------------------------------------------- batch

  datatype Counts = Counts(emptyRecordsSkipped: nat, newPapers: nat)

  lemma EmptyCountStep(papers: seq<Paper>, i: nat)
    requires i < |papers|
    ensures |Filter(papers[..i + 1], IsEmptyRecord)| == |Filter(papers[..i], IsEmptyRecord)| + if IsEmptyRecord(papers[i]) then 1 else 0
  {
    assert papers[..i + 1][..i] == papers[..i];
  }

  /** One import keeps the rows before it and appends at most one row, linked to the boundary. */
  lemma ImportStep(p: Paper, pb: Option<int>, db: seq<StoredPaper>, dbOut: seq<StoredPaper>, m: Matcher)
    requires |db| <= |dbOut| && dbOut[..|db|] == db
    requires forall k :: |db| <= k < |dbOut| ==> dbOut[k].boundaries == AddPlanetaryBoundary({}, pb)
    ensures var r := ImportAcademicPaper(p, pb, dbOut, m);
      |r.db| == |dbOut| + (if r.status == NewRecord then 1 else 0) && r.db[..|db|] == db
      && forall k :: |db| <= k < |r.db| ==> r.db[k].boundaries == AddPlanetaryBoundary({}, pb)
  {
    var r := ImportAcademicPaper(p, pb, dbOut, m);
    if r.status == NewRecord {
      InsertedRow(p, pb, dbOut, m);
      assert r.db[..|db|] == dbOut[..|db|];
    }
  }

  /**
    `import_academic_papers`: every record in turn against the table as
    the previous ones left it; the counts are of skipped empty records and
    of inserted papers, so duplicates are in neither.
   */
  method ImportAcademicPapers(papers: seq<Paper>, pb: Option<int>, db: seq<StoredPaper>, m: Matcher)
    returns (counts: Counts, dbOut: seq<StoredPaper>)
    ensures counts.emptyRecordsSkipped == |Filter(papers, IsEmptyRecord)|
    ensures counts.emptyRecordsSkipped + counts.newPapers <= |papers|
    ensures |dbOut| == |db| + counts.newPapers && dbOut[..|db|] == db
    ensures forall k :: |db| <= k < |dbOut| ==> dbOut[k].boundaries == AddPlanetaryBoundary({}, pb)
  {
    var skipped, added := 0, 0;
    dbOut := db;
    for i := 0 to |papers|
      invariant skipped == |Filter(papers[..i], IsEmptyRecord)|
      invariant skipped + added <= i
      invariant |dbOut| == |db| + added && dbOut[..|db|] == db
      invariant forall k :: |db| <= k < |dbOut| ==> dbOut[k].boundaries == AddPlanetaryBoundary({}, pb)
    {
      EmptyCountStep(papers, i);
      var r := ImportAcademicPaper(papers[i], pb, dbOut, m);
      ImportStep(papers[i], pb, db, dbOut, m);
      if r.status == SkippedEmpty {
        skipped := skipped + 1;
      } else if r.status == NewRecord {
        added := added + 1;
      }
      dbOut := r.db;
    }
    assert papers[..|papers|] == papers;
    counts := Counts(skipped, added);
  }

  // ---------------------------------------------------------------- field helpers

  /** `safe_truncate`: at most `length` characters of a present value, and "" otherwise. */
  function SafeTruncate(value: Option<string>, length: int): (r: string)
    ensures !Present(value) ==> r == ""
    ensures Present(value) ==> |r| <= |value.value| && r == value.value[..|r|]
    ensures length >= 0 ==> |r| <= length
    ensures Present(value) && length >= |value.value| ==> r == value.value
  {
    if Present(value) then PySliceTo(value.value, length) else ""
  }

  /** Truncating what was already truncated changes nothing. */
  lemma SafeTruncateIdempotent(value: Option<string>, length: nat)
    ensures SafeTruncate(Some(SafeTruncate(value, length)), length) == SafeTruncate(value, length)
  {
  }

  /** `get_clean_field`: a non-empty string lower-cased and stripped; anything else gives `None`. */
  function GetCleanField(v: PyVal): (r: Option<string>)
    ensures r.Some? <==> v.PStr? && v.s != ""
    ensures r.Some? ==> Trimmed(Python, r.value) && Lower(r.value) == r.value
  {
    if v.PStr? && v.s != "" then
      LowerStripCommute(Python, v.s);
      LowerIdempotent(Strip(Python, v.s));
      Some(Strip(Python, Lower(v.s)))
    else None
  }

  /** Cleaning a cleaned value again gives it back (unless it came out empty). */
  lemma GetCleanFieldIdempotent(v: PyVal)
    requires GetCleanField(v).Some? && GetCleanField(v).value != ""
    ensures GetCleanField(PStr(GetCleanField(v).value)) == GetCleanField(v)
  {
    var c := GetCleanField(v).value;
    StripKeepsTrimmed(Python, c);
  }
}

=== FILE: js_values.dfy ===
/**
  The few JavaScript value semantics the sidebar depends on: truthiness,
  strict equality (`===`) and `parseInt(x, 10)`.
 */
module JsValues {
  import opened Base
  import opened Strings

  /** A JavaScript value as seen by the sidebar code; numbers are integral. */
  datatype JsVal = Num(n: int) | NaN | Str(s: string) | Bool(b: bool) | Null | Undefined

  predicate Truthy(v: JsVal) {
    match v
    case Num(n) => n != 0
    case NaN => false
    case Str(s) => s != ""
    case Bool(b) => b
    case Null => false
    case Undefined => false
  }

  /** `a === b`: no conversions, and `NaN` equals nothing. */
  predicate StrictEquals(a: JsVal, b: JsVal) {
    match (a, b)
    case (Num(x), Num(y)) => x == y
    case (Str(x), Str(y)) => x == y
    case (Bool(x), Bool(y)) => x == y
    case (Null, Null) => true
    case (Undefined, Undefined) => true
    case _ => false
  }

  /** `String(v)`, which is also what a template literal interpolates. */
  function JsString(v: JsVal): string {
    match v
    case Num(n) => IntToString(n)
    case NaN => "NaN"
    case Str(s) => s
    case Bool(b) => if b then "true" else "false"
    case Null => "null"
    case Undefined => "undefined"
  }

  /** The longest prefix of `s` made of ASCII digits. */
  function LeadingDigits(s: string): (r: string)
    ensures |r| <= |s| && r == s[..|r|]
    ensures forall i :: 0 <= i < |r| ==> IsDigit(r[i])
    ensures |r| < |s| ==> !IsDigit(s[|r|])
  {
    if s != [] && IsDigit(s[0]) then [s[0]] + LeadingDigits(s[1..]) else ""
  }

  /**
    `parseInt(x, 10)` of an attribute value: `None` is a missing attribute
    (`undefined`, which parses as `NaN`).
   */
  function ParseInt(attr: Option<string>): (r: JsVal)
    ensures r.Num? || r.NaN?
  {
    match attr
    case None => NaN
    case Some(raw) =>
      var t := StripStart(JavaScript, raw);
      var negative := t != [] && t[0] == '-';
      var unsigned := if t != [] && (t[0] == '-' || t[0] == '+') then t[1..] else t;
      var digits := LeadingDigits(unsigned);
      if digits == "" then NaN
      else
        var v: int := DigitsValue(digits);
        Num(if negative then -v else v)
  }

  lemma {:induction false} LeadingDigitsOfDigits(s: string)
    requires forall i :: 0 <= i < |s| ==> IsDigit(s[i])
    ensures LeadingDigits(s) == s
  {
    if s != [] {
      LeadingDigitsOfDigits(s[1..]);
    }
  }

  /** A digit string, with or without a leading minus, parses to its value. */
  lemma ParseIntOfDigits(d: string)
    requires AllDigits(d)
    ensures ParseInt(Some(d)) == Num(DigitsValue(d))
    ensures ParseInt(Some("-" + d)) == Num(-(DigitsValue(d) as int))
  {
    LeadingDigitsOfDigits(d);
    assert IsDigit(d[0]) && !IsSpace(JavaScript, d[0]);
    assert StripStart(JavaScript, d) == d;
    var m := "-" + d;
    assert m[1..] == d;
    assert StripStart(JavaScript, m) == m;
  }

  /** `parseInt` reads back the decimal rendering `String(n)` of every integer. */
  lemma ParseIntOfDecimal(n: int)
    ensures ParseInt(Some(IntToString(n))) == Num(n)
  {
    var m: nat := if n < 0 then -n else n;
    NatToStringRoundTrip(m);
    ParseIntOfDigits(NatToString(m));
  }
}

=== FILE: legacy_sidebar.dfy ===
/**
  The older flat history list of main.js: every item in one list, labels
  cut at 18 characters, and a delete button that passes the numeric id.
 */
module LegacySidebar {
  import opened Base
  import opened JsValues
  import opened HistoryApi
  import Titles
  import SidebarRender

  datatype LegacyRow = LegacyRow(id: int, caption: string, active: bool)

  /**
    The list element, the empty-history note and the clear button. The
    list's own visibility is carried over: a non-empty load never shows a
    list that an earlier empty load hid.
   */
  datatype LegacyView = LegacyView(listShown: bool, rows: seq<LegacyRow>, emptyShown: bool, clearShown: bool)

  function LegacyRender(item: SidebarRender.HistoryItem, activeId: JsVal): LegacyRow {
    LegacyRow(item.id, Titles.LegacyFormatTitle(item.title), StrictEquals(Num(item.id), activeId))
  }

  /** `loadPromptHistory` of main.js, given the previous view and the fetched items. */
  function LegacyLoad(prev: LegacyView, items: seq<SidebarRender.HistoryItem>, activeId: JsVal): (r: LegacyView)
    ensures items == [] ==> !r.listShown && r.emptyShown && !r.clearShown && r.rows == prev.rows
    ensures items != [] ==> r.listShown == prev.listShown && !r.emptyShown && r.clearShown
    ensures items != [] ==> |r.rows| == |items| && forall i :: 0 <= i < |items| ==>
      r.rows[i].id == items[i].id && r.rows[i].caption == Titles.LegacyFormatTitle(items[i].title)
      && (r.rows[i].active <==> activeId == Num(items[i].id))
  {
    if items == [] then prev.(listShown := false, emptyShown := true, clearShown := false)
    else prev.(rows := Map(items, (it: SidebarRender.HistoryItem) => LegacyRender(it, activeId)), emptyShown := false, clearShown := true)
  }

  /** At most one row is active, and only one whose id is the page's. */
  lemma AtMostOneActive(prev: LegacyView, items: seq<SidebarRender.HistoryItem>, activeAttr: Option<string>)
    requires items != []
    ensures var r := LegacyLoad(prev, items, ParseInt(activeAttr));
      forall i, j :: 0 <= i < |r.rows| && 0 <= j < |r.rows| && r.rows[i].active && r.rows[j].active ==> r.rows[i].id == r.rows[j].id
    ensures ParseInt(activeAttr) == NaN ==>
      forall i :: 0 <= i < |items| ==> !LegacyLoad(prev, items, ParseInt(activeAttr)).rows[i].active
  {
  }

  /**
    The row's delete button passes the numeric id, so deleting succeeds in
    leaving the page exactly when the deleted row is the active one.
   */
  lemma LegacyDeleteNavigatesIffActive(prev: LegacyView, items: seq<SidebarRender.HistoryItem>, activeAttr: Option<string>, i: nat)
    requires i < |items|
    ensures var row := LegacyLoad(prev, items, ParseInt(activeAttr)).rows[i];
      DeleteOutcome(Num(row.id), activeAttr, Succeeded) == (if row.active then Navigate("/") else ReloadHistory)
  {
  }

  /**
    Without folders, the current sidebar lists the same items in the same
    order with the same highlight; only the labels' length differs.
   */
  lemma AgreesWithoutFolders(prev: LegacyView, items: seq<SidebarRender.HistoryItem>, activeId: JsVal)
    requires items != []
    ensures var now, was := SidebarRender.Render([], items, activeId), LegacyLoad(prev, items, activeId);
      |now.topLevel| == |was.rows|
      && forall i :: 0 <= i < |was.rows| ==> now.topLevel[i].id == was.rows[i].id && now.topLevel[i].active == was.rows[i].active
  {
    SidebarRender.PlaceCharacterized([], items);
    FilterKeepsAll(items, (it: SidebarRender.HistoryItem) => SidebarRender.Unfiled([], it));
  }
}

=== FILE: menu_position.dfy ===
/**
  `positionActionsMenu` (main.history.js): where a floating item menu is
  pinned, from its button's bounding box, the menu's size and the viewport.
 */
module MenuPosition {
  import opened Base

  /** Button box corner, menu size and viewport size, in CSS pixels. */
  datatype Geometry = Geometry(buttonTop: real, buttonLeft: real, menuWidth: real, menuHeight: real, viewportW: real, viewportH: real)

  datatype Pos = Pos(top: real, left: real)

  /** The margin kept from every viewport edge. */
  const Margin: real := 8.0
  /** The gap left between a menu flipped above its button and the button. */
  const FlipGap: real := 6.0

  /**
    The four clamps in order: left edge, right edge, flip above the button
    when the menu would run off the bottom, top edge.
   */
  function Position(g: Geometry): (p: Pos)
    ensures p.top >= Margin
    ensures p.left + g.menuWidth <= g.viewportW - Margin
    ensures g.menuWidth <= g.viewportW - 2.0 * Margin ==> p.left >= Margin
    ensures g.buttonTop + g.menuHeight <= g.viewportH - Margin ==>
      p.top == if g.buttonTop < Margin then Margin else g.buttonTop
    ensures g.buttonTop + g.menuHeight > g.viewportH - Margin ==>
      p.top == if g.buttonTop - g.menuHeight - FlipGap < Margin then Margin else g.buttonTop - g.menuHeight - FlipGap
  {
    var left1 := if g.buttonLeft < Margin then Margin else g.buttonLeft;
    var left2 := if left1 + g.menuWidth > g.viewportW - Margin then g.viewportW - g.menuWidth - Margin else left1;
    var top1 := if g.buttonTop + g.menuHeight > g.viewportH - Margin then g.buttonTop - g.menuHeight - FlipGap else g.buttonTop;
    var top2 := if top1 < Margin then Margin else top1;
    Pos(top2, left2)
  }

  /** The function returns early, changing nothing, when the menu or its button is missing. */
  function Place(g: Option<Geometry>): (p: Option<Pos>)
    ensures p.Some? <==> g.Some?
    ensures g.Some? ==> p.value == Position(g.value)
  {
    match g
    case None => None
    case Some(geo) => Some(Position(geo))
  }

  /**
    When the menu is smaller than the viewport less both margins and the
    button is on screen, the pinned menu lies wholly inside the margins.
   */
  lemma FitsInViewport(g: Geometry)
    requires g.menuWidth <= g.viewportW - 2.0 * Margin
    requires g.menuHeight <= g.viewportH - 2.0 * Margin
    requires g.buttonTop <= g.viewportH - 2.0
    ensures var p := Position(g);
      Margin <= p.left && p.left + g.menuWidth <= g.viewportW - Margin
      && Margin <= p.top && p.top + g.menuHeight <= g.viewportH - Margin
  {
  }

  /** A menu that already fits at its button stays exactly there. */
  lemma StaysAtButton(g: Geometry)
    requires Margin <= g.buttonLeft && g.buttonLeft + g.menuWidth <= g.viewportW - Margin
    requires Margin <= g.buttonTop && g.buttonTop + g.menuHeight <= g.viewportH - Margin
    ensures Position(g) == Pos(g.buttonTop, g.buttonLeft)
  {
  }
}

=== FILE: open_folders.dfy ===
/**
  The list of expanded folders kept in local storage under `openFolders`
  (main.history.js): `addOpenFolder`, `removeOpenFolder`, and the mapping
  from a stored entry to the element selector `restoreFolderState` uses.
 */
module OpenFolders {
  import opened Base
  import opened Strings

  /**
    One entry of the stored JSON array: the code itself writes header ids
    (strings); numbers and bare digit strings are accepted from older
    versions, and anything else is skipped.
   */
  datatype Stored = StoredNum(n: int) | StoredStr(s: string) | StoredOther

  predicate Distinct(list: seq<Stored>) {
    forall i, j :: 0 <= i < j < |list| ==> list[i] != list[j]
  }

  /** `addOpenFolder`: append the header id unless it is already present. */
  function Add(list: seq<Stored>, headerId: string): (r: seq<Stored>)
    ensures StoredStr(headerId) in r
    ensures forall x :: x in r <==> x in list || x == StoredStr(headerId)
    ensures |list| <= |r| <= |list| + 1 && r[..|list|] == list
  {
    if StoredStr(headerId) in list then list else list + [StoredStr(headerId)]
  }

  /** `removeOpenFolder`: drop every entry strictly equal to the header id. */
  function Remove(list: seq<Stored>, headerId: string): (r: seq<Stored>)
    ensures StoredStr(headerId) !in r
    ensures forall x :: x in r <==> x in list && x != StoredStr(headerId)
    ensures |r| <= |list|
  {
    Filter(list, (x: Stored) => x != StoredStr(headerId))
  }

  lemma AddIdempotent(list: seq<Stored>, headerId: string)
    ensures Add(Add(list, headerId), headerId) == Add(list, headerId)
  {
  }

  lemma AddKeepsDistinct(list: seq<Stored>, headerId: string)
    requires Distinct(list)
    ensures Distinct(Add(list, headerId))
  {
  }

  /** Removing leaves the other entries in their original order. */
  lemma RemoveKeepsOthers(list: seq<Stored>, other: seq<Stored>, headerId: string)
    requires forall x :: x in other ==> x != StoredStr(headerId)
    ensures Remove(list + other, headerId) == Remove(list, headerId) + other
  {
    FilterAppend(list, other, (x: Stored) => x != StoredStr(headerId));
    assert forall i :: 0 <= i < |other| ==> other[i] in other;
    FilterKeepsAll(other, (x: Stored) => x != StoredStr(headerId));
  }

  /** Opening and then closing a folder forgets it, whatever was stored. */
  lemma RemoveAfterAdd(list: seq<Stored>, headerId: string)
    ensures Remove(Add(list, headerId), headerId) == Remove(list, headerId)
  {
    if StoredStr(headerId) !in list {
      FilterAppend(list, [StoredStr(headerId)], (x: Stored) => x != StoredStr(headerId));
      assert Filter([StoredStr(headerId)], (x: Stored) => x != StoredStr(headerId)) == [];
    }
  }

  /** Closing and then opening a folder puts it last. */
  lemma AddAfterRemove(list: seq<Stored>, headerId: string)
    ensures Add(Remove(list, headerId), headerId) == Remove(list, headerId) + [StoredStr(headerId)]
  {
  }

  /** The header element id the sidebar gives folder `id`. */
  function HeaderId(folderId: int): string {
    "folder-" + IntToString(folderId)
  }

  /**
    The id selector `restoreFolderState` builds for one stored entry:
    numbers and digit strings get the `folder-` prefix, strings already
    carrying it and any other string are used as they are; values that are
    neither numbers nor strings are skipped.
   */
  function Selector(raw: Stored): (r: Option<string>)
    ensures raw.StoredOther? <==> r.None?
    ensures r.Some? ==> |r.value| >= 1 && r.value[0] == '#'
  {
    match raw
    case StoredNum(n) => Some("#" + HeaderId(n))
    case StoredStr(s) =>
      if StartsWith(s, "folder-") then Some("#" + s)
      else if AllDigits(s) then Some("#folder-" + s)
      else Some("#" + s)
    case StoredOther => None
  }

  /**
    Every accepted spelling of folder `n` (the header id, the bare number
    and its digit string) selects that folder's header.
   */
  lemma SelectorSpellings(n: nat)
    ensures Selector(StoredStr(HeaderId(n))) == Some("#" + HeaderId(n))
    ensures Selector(StoredNum(n)) == Some("#" + HeaderId(n))
    ensures Selector(StoredStr(NatToString(n))) == Some("#" + HeaderId(n))
  {
    NatToStringRoundTrip(n);
    var d := NatToString(n);
    assert !StartsWith(d, "folder-") by {
      assert IsDigit(d[0]);
    }
    assert IntToString(n) == d;
    assert "#folder-" + d == "#" + HeaderId(n);
  }
}

=== FILE: paper_data.dfy ===
/**
  The records the import pipeline passes around (PB_Assistant/data_models.py)
  and the stored rows it writes (PB_Assistant/models.py), reduced to the
  fields the pipeline reads or sets.
 */
module PaperData {
  import opened Base

  datatype AffiliationData = AffiliationData(name: string, country: Option<string>)

  datatype AuthorData = AuthorData(
    name: string,
    surnameInitials: Option<string>,
    email: Option<string>,
    orcid: Option<string>,
    affiliations: seq<AffiliationData>)

  /** What `parse_tei_header` collects besides the paper fields, kept under `meta["grobid"]`. */
  datatype RawMeta = RawMeta(
    keywords: seq<string>,
    identifiers: map<string, string>,
    journal: Option<string>,
    publisher: Option<string>,
    summary: Option<string>)

  /** `meta` of a paper imported from a PDF. */
  datatype IngestMeta = IngestMeta(grobid: RawMeta, identifiers: map<string, string>, ingestSource: string)

  /** `AcademicPaperData`. `keywords` is the `{source: terms}` dictionary. */
  datatype Paper = Paper(
    doi: Option<string>,
    text: Option<string>,
    title: Option<string>,
    titleSlug: Option<string>,
    bestOaPdfUrl: Option<string>,
    allPdfUrls: seq<string>,
    publicationYear: Option<int>,
    source: Option<string>,
    keywords: Option<map<string, seq<string>>>,
    authorList: seq<AuthorData>,
    meta: Option<IngestMeta>,
    planetaryBoundary: seq<string>)

  /** A `PlanetaryBoundary` row. */
  datatype Boundary = Boundary(id: int, name: string, shortName: string)

  /**
    An `AcademicPaper` row: the paper's fields as inserted, plus the ids of
    the planetary boundaries it is linked to.
   */
  datatype StoredPaper = StoredPaper(
    doi: Option<string>,
    text: Option<string>,
    title: Option<string>,
    titleSlug: Option<string>,
    publicationYear: Option<int>,
    source: Option<string>,
    keywords: Option<map<string, seq<string>>>,
    authorList: seq<AuthorData>,
    meta: Option<IngestMeta>,
    boundaries: set<int>)

  /** Python truthiness of an optional string: present and non-empty. */
  predicate Present(s: Option<string>) {
    s.Some? && s.value != ""
  }
}

=== FILE: pdf_ingest.dfy ===
/**
  Ingesting one PDF (PB_Assistant/apps/textprocessing/pdf_ingest.py):
  resolve the planetary boundary by name, turn the GROBID header into an
  `AcademicPaperData` record, import it, and store the extracted full text
  of a newly inserted paper. The GROBID client and the embedder are
  external; what they answer (or that they raise) is an input.
 */
module PdfIngest {
  import opened Base
  import opened Strings
  import opened PaperData
  import opened TeiHeader
  import opened Importer

  // ---------------------------------------------------------------- boundary lookup

  /** Django's `__iexact`: equal after case folding (ASCII letters only here). */
  predicate IExact(a: string, b: string) {
    Lower(a) == Lower(b)
  }

  function NameIs(name: string): Boundary -> bool {
    (b: Boundary) => IExact(b.name, name)
  }

  function ShortNameIs(name: string): Boundary -> bool {
    (b: Boundary) => IExact(b.shortName, name)
  }

  /**
    `get_boundary`: no boundary for a missing or empty name; otherwise the
    first row whose name matches ignoring case, failing that the first row
    whose short name does. `rows` is the table in primary-key order.
   */
  function GetBoundary(name: Option<string>, rows: seq<Boundary>): (r: Option<Boundary>)
    ensures !Present(name) ==> r.None?
    ensures r.Some? ==> r.value in rows && (IExact(r.value.name, name.value) || IExact(r.value.shortName, name.value))
  {
    if !Present(name) then None
    else match FirstIndex(rows, NameIs(name.value))
      case Some(i) => Some(rows[i])
      case None =>
        match FirstIndex(rows, ShortNameIs(name.value))
        case Some(j) => Some(rows[j])
        case None => None
  }

  /**
    A present name finds a boundary exactly when some row matches it by
    name or by short name, and a match on the full name wins over any
    short-name match: the result is then the first row matched by name.
   */
  lemma GetBoundaryFinds(name: string, rows: seq<Boundary>)
    requires name != ""
    ensures GetBoundary(Some(name), rows).Some? <==>
      exists k :: 0 <= k < |rows| && (IExact(rows[k].name, name) || IExact(rows[k].shortName, name))
    ensures forall k :: 0 <= k < |rows| && IExact(rows[k].name, name) ==>
      var b := GetBoundary(Some(name), rows).value;
      IExact(b.name, name) && exists i :: 0 <= i <= k && rows[i] == b
  {
    var byName := FirstIndex(rows, NameIs(name));
    var byShort := FirstIndex(rows, ShortNameIs(name));
    if exists k :: 0 <= k < |rows| && (IExact(rows[k].name, name) || IExact(rows[k].shortName, name)) {
      var k :| 0 <= k < |rows| && (IExact(rows[k].name, name) || IExact(rows[k].shortName, name));
      if !IExact(rows[k].name, name) {
        assert ShortNameIs(name)(rows[k]);
      } else {
        assert NameIs(name)(rows[k]);
      }
    }
    forall k | 0 <= k < |rows| && IExact(rows[k].name, name)
      ensures var b := GetBoundary(Some(name), rows).value;
        IExact(b.name, name) && exists i :: 0 <= i <= k && rows[i] == b
    {
      assert NameIs(name)(rows[k]);
      var i := byName.value;
      assert i <= k;
    }
  }

  // ---------------------------------------------------------------- header translation

  const UnknownAffiliation: string := "Unknown affiliation"
  const UnknownAuthor: string := "Unknown"
  const GrobidSource: string := "grobid"

  /** `name or default`. */
  function NameOr(name: Option<string>, default: string): (r: string)
    ensures Present(name) ==> r == name.value
    ensures !Present(name) ==> r == default
  {
    if Present(name) then name.value else default
  }

  /** One affiliation dictionary `{name, country}` as an `AffiliationData`. */
  function TranslateAffiliation(a: Aff): AffiliationData {
    AffiliationData(NameOr(a.name, UnknownAffiliation), a.country)
  }

  /**
    `_translate_affiliations_dc`: one record per affiliation, in order; a
    missing or empty name becomes "Unknown affiliation" and the country is
    carried over unchanged.
   */
  function TranslateAffiliations(affs: seq<Aff>): (r: seq<AffiliationData>)
    ensures |r| == |affs|
    ensures forall i :: 0 <= i < |affs| ==>
      r[i].country == affs[i].country && r[i].name == NameOr(affs[i].name, UnknownAffiliation)
  {
    if affs == [] then [] else [TranslateAffiliation(affs[0])] + TranslateAffiliations(affs[1..])
  }

  /** Every translated affiliation is named: none comes out with an empty name. */
  lemma TranslatedAffiliationsNamed(affs: seq<Aff>)
    ensures forall a :: a in TranslateAffiliations(affs) ==> a.name != ""
  {
    var r := TranslateAffiliations(affs);
    forall a | a in r ensures a.name != "" {
      var i :| 0 <= i < |r| && r[i] == a;
    }
  }

  /** Translating affiliations of a concatenation translates each part. */
  lemma {:induction false} TranslateAffiliationsAppend(a: seq<Aff>, b: seq<Aff>)
    ensures TranslateAffiliations(a + b) == TranslateAffiliations(a) + TranslateAffiliations(b)
  {
    if a != [] {
      assert (a + b)[1..] == a[1..] + b;
      TranslateAffiliationsAppend(a[1..], b);
    }
  }

  function TranslateAuthor(a: ParsedAuthor): AuthorData {
    AuthorData(
      NameOr(Some(a.name), UnknownAuthor),
      a.surnameInitials,
      a.email,
      a.orcid,
      TranslateAffiliations(a.affiliations.GetOr([])))
  }

  /**
    `_translate_authors_to_dc`: one `AcademicAuthorData` per parsed author,
    in order, with the name defaulting to "Unknown", the other fields
    carried over and a missing affiliation list read as empty.
   */
  function TranslateAuthors(authors: seq<ParsedAuthor>): (r: seq<AuthorData>)
    ensures |r| == |authors|
    ensures forall i :: 0 <= i < |authors| ==>
      r[i].name == NameOr(Some(authors[i].name), UnknownAuthor)
      && r[i].surnameInitials == authors[i].surnameInitials
      && r[i].email == authors[i].email
      && r[i].orcid == authors[i].orcid
      && r[i].affiliations == TranslateAffiliations(authors[i].affiliations.GetOr([]))
  {
    if authors == [] then [] else [TranslateAuthor(authors[0])] + TranslateAuthors(authors[1..])
  }

  /**
    Every translated author is named, and an author whose name is already
    known keeps it: translation only fills in what is missing.
   */
  lemma TranslatedAuthorsNamed(authors: seq<ParsedAuthor>)
    ensures forall a :: a in TranslateAuthors(authors) ==> a.name != ""
    ensures forall i :: 0 <= i < |authors| && authors[i].name != "" ==> TranslateAuthors(authors)[i].name == authors[i].name
  {
    var r := TranslateAuthors(authors);
    forall a | a in r ensures a.name != "" {
      var i :| 0 <= i < |r| && r[i] == a;
    }
  }

  /** The keyword dictionary: `{"grobid": keywords}` when there are any. */
  function KeywordsObject(keywords: seq<string>): (r: Option<map<string, seq<string>>>)
    ensures r.Some? <==> keywords != []
    ensures r.Some? ==> r.value.Keys == {GrobidSource} && r.value[GrobidSource] == keywords
  {
    if keywords != [] then Some(map[GrobidSource := keywords]) else None
  }

  /**
    `_translate_record_from_grobid`. The random `paper_id` is not part of
    the record here.
   */
  function TranslateRecord(parsed: ParsedHeader): (r: Paper)
    ensures r.doi == (if "doi" in parsed.identifiers then Some(parsed.identifiers["doi"]) else None)
    ensures r.text == parsed.summary && r.title == parsed.title
    ensures r.publicationYear == parsed.publicationYear && r.source == parsed.journal
    ensures r.keywords.Some? <==> parsed.keywords != []
    ensures r.keywords.Some? ==> r.keywords.value == map[GrobidSource := parsed.keywords]
    ensures r.titleSlug.None? && r.bestOaPdfUrl.None? && r.allPdfUrls == [] && r.planetaryBoundary == []
    ensures |r.authorList| == |parsed.authors|
    ensures r.meta == Some(IngestMeta(parsed.rawMeta, parsed.identifiers, GrobidSource))
  {
    Paper(
      if "doi" in parsed.identifiers then Some(parsed.identifiers["doi"]) else None,
      parsed.summary,
      parsed.title,
      None,
      None,
      [],
      parsed.publicationYear,
      parsed.journal,
      KeywordsObject(parsed.keywords),
      TranslateAuthors(parsed.authors),
      Some(IngestMeta(parsed.rawMeta, parsed.identifiers, GrobidSource)),
      [])
  }

  /**
    For a header `parse_tei_header` produced, the record's DOI is the
    header's own `doi`, and the record counts as empty for the importer
    exactly when the header has neither a DOI nor a title.
   */
  lemma TranslatedHeaderAgrees(h: HeaderNodes)
    ensures var parsed := ParseTeiHeader(h);
      TranslateRecord(parsed).doi == parsed.doi
      && (IsEmptyRecord(TranslateRecord(parsed)) <==> !Present(parsed.doi) && !Present(parsed.title))
  {
  }

  // ---------------------------------------------------------------- ingest_file

  /** An `AcademicPaperText` row. */
  datatype TextRow = TextRow(text: string, hasFullText: bool)

  /**
    The database as ingestion sees it: the paper rows, the text row of each
    paper that has one (keyed by the paper's position), and the papers whose
    text has been handed to the embedder, in order.
   */
  datatype Store = Store(papers: seq<StoredPaper>, texts: map<nat, TextRow>, embedded: seq<nat>)

  /** A text row belongs to an existing paper (the one-to-one foreign key). */
  predicate ValidStore(s: Store) {
    forall k :: k in s.texts ==> k < |s.papers|
  }

  /**
    What the outside world answers: the header GROBID returns, already
    parsed (`None` when the request or the XML parse raises); the full text
    (`None` when extraction raises); and the embedder (`None` when there is
    none, `Some(false)` when it raises).
   */
  datatype Services = Services(header: Option<HeaderNodes>, fulltext: Option<string>, embedder: Option<bool>)

  const Error: string := "error"

  /** What `ingest_file` did to the store, and whether a step raised. */
  datatype Saved = Saved(raised: bool, store: Store)

  /**
    The full-text step for the freshly inserted paper at position `key`:
    a paper whose text row already holds full text is left alone;
    otherwise the text is extracted and, when non-empty, written
    (`update_or_create`) and handed to the embedder.
   */
  function SaveFulltext(key: nat, svc: Services, s: Store): (r: Saved)
    ensures r.store.papers == s.papers
    ensures key in s.texts && s.texts[key].hasFullText ==> r == Saved(false, s)
    ensures r.store.texts.Keys <= s.texts.Keys + {key}
    ensures forall k :: k in s.texts && k != key ==> k in r.store.texts && r.store.texts[k] == s.texts[k]
  {
    if key in s.texts && s.texts[key].hasFullText then Saved(false, s)
    else match svc.fulltext
      case None => Saved(true, s)
      case Some(text) =>
        if text == "" then Saved(false, s)
        else
          var written := s.(texts := s.texts[key := TextRow(text, true)]);
          match svc.embedder
          case None => Saved(false, written)
          case Some(ok) =>
            if ok then Saved(false, written.(embedded := written.embedded + [key]))
            else Saved(true, written)
  }

  /**
    For a paper without a text row: the step raises exactly when extraction
    raises or the embedder raises on a non-empty text; the row exists
    afterwards exactly when the text is non-empty, and holds it; the paper
    is embedded exactly when that text reached a working embedder.
   */
  lemma SaveFulltextFresh(key: nat, svc: Services, s: Store)
    requires key !in s.texts
    ensures var r := SaveFulltext(key, svc, s);
      (r.raised <==> svc.fulltext.None? || (svc.fulltext.value != "" && svc.embedder == Some(false)))
      && (svc.fulltext.Some? ==>
        (key in r.store.texts <==> svc.fulltext.value != "")
        && (key in r.store.texts ==> r.store.texts[key] == TextRow(svc.fulltext.value, true)))
      && (r.store.embedded == s.embedded + [key] <==> svc.fulltext.Some? && svc.fulltext.value != "" && svc.embedder == Some(true))
      && (r.store.embedded != s.embedded + [key] ==> r.store.embedded == s.embedded)
  {
    assert s.embedded != s.embedded + [key];
  }

  datatype Ingested = Ingested(status: string, paper: Option<StoredPaper>, store: Store)

  /**
    `ingest_file`. Every exception is caught and reported as ("error",
    None), but whatever was written before it stays written: the paper
    row, and the text row when the embedder is what raised.
   */
  function IngestFile(svc: Services, boundary: Option<int>, m: Matcher, s: Store): (r: Ingested)
    ensures svc.header.None? ==> r == Ingested(Error, None, s)
    ensures svc.header.Some? ==>
      var imported := ImportAcademicPaper(TranslateRecord(ParseTeiHeader(svc.header.value)), boundary, s.papers, m);
      r.store.papers == imported.db
      && (imported.status != NewRecord ==> r == Ingested(imported.status, None, s))
      && (imported.status == NewRecord ==> r.status in {NewRecord, Error})
      && (r.status == NewRecord ==> r.paper == imported.paper)
    ensures r.status == Error ==> r.paper.None?
    ensures r.store.texts.Keys <= s.texts.Keys + {|s.papers|}
    ensures forall k :: k in s.texts && k != |s.papers| ==> k in r.store.texts && r.store.texts[k] == s.texts[k]
  {
    if svc.header.None? then Ingested(Error, None, s)
    else
      var record := TranslateRecord(ParseTeiHeader(svc.header.value));
      var imported := ImportAcademicPaper(record, boundary, s.papers, m);
      var inserted := s.(papers := imported.db);
      if imported.status != NewRecord then Ingested(imported.status, None, inserted)
      else
        var saved := SaveFulltext(|s.papers|, svc, inserted);
        if saved.raised then Ingested(Error, None, saved.store)
        else Ingested(imported.status, imported.paper, saved.store)
  }

  /**
    Ingestion keeps the foreign key intact, and a run that is not a new
    insert writes nothing: no paper, no text, no embedding.
   */
  lemma IngestKeepsStore(svc: Services, boundary: Option<int>, m: Matcher, s: Store)
    requires ValidStore(s)
    ensures var r := IngestFile(svc, boundary, m, s);
      ValidStore(r.store)
      && (r.store.papers == s.papers ==> r.store == s)
  {
  }

  /**
    A successful new insert into a consistent store ends with the paper as
    the last row; its text row holds the extracted text exactly when the
    extractor returned some, and it is embedded exactly when an embedder is
    configured (and then the text was non-empty).
   */
  lemma IngestNewPaperText(svc: Services, boundary: Option<int>, m: Matcher, s: Store)
    requires ValidStore(s)
    requires IngestFile(svc, boundary, m, s).status == NewRecord
    ensures var r := IngestFile(svc, boundary, m, s);
      var key := |s.papers|;
      |r.store.papers| == key + 1 && r.paper == Some(r.store.papers[key])
      && svc.fulltext.Some?
      && (key in r.store.texts <==> svc.fulltext.value != "")
      && (key in r.store.texts ==> r.store.texts[key] == TextRow(svc.fulltext.value, true))
      && (r.store.embedded == s.embedded + [key] <==> svc.fulltext.value != "" && svc.embedder == Some(true))
      && (r.store.embedded != s.embedded + [key] ==> r.store.embedded == s.embedded)
  {
    var key := |s.papers|;
    var record := TranslateRecord(ParseTeiHeader(svc.header.value));
    var imported := ImportAcademicPaper(record, boundary, s.papers, m);
    var inserted := s.(papers := imported.db);
    assert key !in inserted.texts;
    SaveFulltextFresh(key, svc, inserted);
  }
  /**
    A paper ingested from a PDF is stored with what the header gave: the
    abstract as its text, the header's keywords under "grobid", the GROBID
    metadata and the translated authors.
   */
  lemma IngestStoresHeaderFields(svc: Services, boundary: Option<int>, m: Matcher, s: Store)
    requires svc.header.Some?
    requires ImportAcademicPaper(TranslateRecord(ParseTeiHeader(svc.header.value)), boundary, s.papers, m).status == NewRecord
    ensures var parsed := ParseTeiHeader(svc.header.value);
      var row := IngestFile(svc, boundary, m, s).store.papers[|s.papers|];
      row.text == parsed.summary && row.title == parsed.title
      && row.keywords == KeywordsObject(parsed.keywords)
      && row.meta == Some(IngestMeta(parsed.rawMeta, parsed.identifiers, GrobidSource))
      && row.authorList == TranslateAuthors(parsed.authors)
  {
    var record := TranslateRecord(ParseTeiHeader(svc.header.value));
    InsertedRow(record, boundary, s.papers, m);
  }

  /**
    An exception after the insert still reports "error" with no paper, yet
    the paper row was written: ingesting the same file again reports it as
    a duplicate.
   */
  lemma ErrorAfterInsertKeepsPaper(svc: Services, boundary: Option<int>, m: Matcher, s: Store)
    requires ValidStore(s) && svc.header.Some? && svc.fulltext.None?
    requires ImportAcademicPaper(TranslateRecord(ParseTeiHeader(svc.header.value)), boundary, s.papers, m).status == NewRecord
    ensures var r := IngestFile(svc, boundary, m, s);
      r.status == Error && r.paper.None? && |r.store.papers| == |s.papers| + 1
      && IngestFile(svc, boundary, m, r.store).status == Duplicate
  {
    var record := TranslateRecord(ParseTeiHeader(svc.header.value));
    ReimportIsDuplicate(record, boundary, boundary, s.papers, m);
  }
}

=== FILE: py_values.dfy ===
/**
  Python values as the services see them after JSON decoding or ORM
  reads: `None`, booleans, integers, strings, lists and string-keyed
  dictionaries. Floats are left out.
 */
module PyValues {
  import opened Base
  import opened Strings

  datatype PyVal =
    | PNone
    | PBool(b: bool)
    | PInt(i: int)
    | PStr(s: string)
    | PList(items: seq<PyVal>)
    | PDict(entries: map<string, PyVal>)

  /** Python truthiness. */
  predicate Truthy(v: PyVal) {
    match v
    case PNone => false
    case PBool(b) => b
    case PInt(i) => i != 0
    case PStr(s) => s != ""
    case PList(items) => items != []
    case PDict(m) => m != map[]
  }

  /** `d.get(key, default)`. */
  function Get(d: map<string, PyVal>, key: string, default: PyVal): (r: PyVal)
    ensures key in d ==> r == d[key]
    ensures key !in d ==> r == default
  {
    if key in d then d[key] else default
  }

  /**
    `str(v)`: strings are themselves, numbers their decimal digits, and
    `None`/booleans their Python spelling; `repr` gives the text of a
    list or dictionary.
   */
  function Str(v: PyVal, repr: PyVal -> string): (r: string)
    ensures v.PStr? ==> r == v.s
    ensures v.PInt? ==> r == IntToString(v.i)
  {
    match v
    case PNone => "None"
    case PBool(b) => if b then "True" else "False"
    case PInt(i) => IntToString(i)
    case PStr(s) => s
    case PList(_) => repr(v)
    case PDict(_) => repr(v)
  }

  /** The exception a step raises. */
  datatype PyError = TypeError | KeyError | DecodeError

  /**
    `x in container`: list membership, substring for strings, key for
    dictionaries; the other operands raise `TypeError`.
   */
  function In(x: PyVal, container: PyVal): (r: Result<bool, PyError>)
    ensures container.PList? ==> r == Ok(x in container.items)
    ensures container.PDict? && x.PStr? ==> r == Ok(x.s in container.entries)
    ensures container.PStr? && x.PStr? ==> r == Ok(Contains(container.s, x.s))
  {
    match container
    case PList(items) => Ok(x in items)
    case PStr(s) => if x.PStr? then Ok(Contains(s, x.s)) else Err(TypeError)
    case PDict(m) =>
      // Keys are strings here, so only a string can be found; other hashable values are simply absent.
      if x.PStr? then Ok(x.s in m) else if x.PList? || x.PDict? then Err(TypeError) else Ok(false)
    case _ => Err(TypeError)
  }
}

=== FILE: qa_chain.dfy ===
/**
  Post-processing of the language model's answer (qa_chain.py):
  `normalize`, `parse_llm_output`, `process_qa_response` and
  `serialize_documents`. `json.loads` is the parameter `decode`, giving
  `None` where it raises `JSONDecodeError`.
 */
module QaChain {
  import opened Base
  import opened Strings
  import opened PyValues

  // ------------------------------------------------------------ normalize

  /** The normalised answer dictionary: `{"response": …, "chunk_id_list": […]}`. */
  datatype Normalized = Normalized(response: string, chunkIdList: seq<string>)

  function ToDict(n: Normalized): map<string, PyVal> {
    map["response" := PStr(n.response), "chunk_id_list" := PList(Map(n.chunkIdList, (c: string) => PStr(c)))]
  }

  /** The chunk ids `normalize` keeps: the list's elements, or none when it is not a list. */
  function ChunkValues(v: PyVal): seq<PyVal> {
    match v
    case PList(items) => items
    case _ => []
  }

  /**
    `normalize`: the response as a stripped string (missing means `""`),
    and the chunk ids as strings, a value that is not a list counting as
    no ids.
   */
  function Normalize(d: map<string, PyVal>, repr: PyVal -> string): (r: Normalized)
    ensures Trimmed(Python, r.response)
    ensures "response" !in d ==> r.response == ""
    ensures |r.chunkIdList| == |ChunkValues(Get(d, "chunk_id_list", PList([])))|
    ensures forall i :: 0 <= i < |r.chunkIdList| ==> r.chunkIdList[i] == Str(ChunkValues(Get(d, "chunk_id_list", PList([])))[i], repr)
  {
    var resp := Strip(Python, Str(Get(d, "response", PStr("")), repr));
    Normalized(resp, Map(ChunkValues(Get(d, "chunk_id_list", PList([]))), (x: PyVal) => Str(x, repr)))
  }

  /** A dictionary with neither key normalises to an empty answer with no ids. */
  lemma NormalizeMissingKeys(d: map<string, PyVal>, repr: PyVal -> string)
    requires "response" !in d && "chunk_id_list" !in d
    ensures Normalize(d, repr) == Normalized("", [])
  {
  }

  /** A `chunk_id_list` that is not a list is dropped. */
  lemma NormalizeDropsNonList(d: map<string, PyVal>, repr: PyVal -> string)
    requires "chunk_id_list" in d && !d["chunk_id_list"].PList?
    ensures Normalize(d, repr).chunkIdList == []
  {
  }

  lemma NormalizeToDictResponse(n: Normalized, repr: PyVal -> string)
    requires Trimmed(Python, n.response)
    ensures Normalize(ToDict(n), repr).response == n.response
  {
    var d := ToDict(n);
    assert "response" in d && d["response"] == PStr(n.response);
    assert Get(d, "response", PStr("")) == PStr(n.response);
    assert Str(PStr(n.response), repr) == n.response;
    StripKeepsTrimmed(Python, n.response);
  }

  lemma NormalizeToDictChunks(n: Normalized, repr: PyVal -> string)
    ensures Normalize(ToDict(n), repr).chunkIdList == n.chunkIdList
  {
    var vals := ChunkValues(Get(ToDict(n), "chunk_id_list", PList([])));
    assert vals == Map(n.chunkIdList, (c: string) => PStr(c));
    var again := Normalize(ToDict(n), repr);
    forall i | 0 <= i < |n.chunkIdList|
      ensures again.chunkIdList[i] == n.chunkIdList[i]
    {
      assert vals[i] == PStr(n.chunkIdList[i]);
    }
  }

  /** Normalising a normalised answer changes nothing. */
  lemma NormalizeIdempotent(d: map<string, PyVal>, repr: PyVal -> string)
    ensures Normalize(ToDict(Normalize(d, repr)), repr) == Normalize(d, repr)
  {
    NormalizeToDictResponse(Normalize(d, repr), repr);
    NormalizeToDictChunks(Normalize(d, repr), repr);
  }

  /** Ids given as numbers or strings come out as the same strings. */
  lemma NormalizeStringifies(resp: string, ids: seq<int>, repr: PyVal -> string)
    ensures var d := map["response" := PStr(resp), "chunk_id_list" := PList(Map(ids, (i: int) => PInt(i)))];
      Normalize(d, repr).chunkIdList == Map(ids, (i: int) => IntToString(i))
  {
  }

  // ------------------------------------------------------------ locating the JSON

  /** `s.find(c)`: the first index of `c`, or -1. */
  function Find(s: string, c: char): (r: int)
    ensures -1 <= r < |s|
    ensures r == -1 <==> c !in s
    ensures r >= 0 ==> s[r] == c && c !in s[..r]
  {
    if |s| == 0 then -1
    else if s[0] == c then 0
    else
      var k := Find(s[1..], c);
      assert s[1..][..if k < 0 then 0 else k] == s[1..if k < 0 then 1 else k + 1];
      if k < 0 then -1 else k + 1
  }

  /** `s.rfind(c)`: the last index of `c`, or -1. */
  function FindLast(s: string, c: char): (r: int)
    ensures -1 <= r < |s|
    ensures r == -1 <==> c !in s
    ensures r >= 0 ==> s[r] == c && c !in s[r + 1..]
  {
    if |s| == 0 then -1
    else if s[|s| - 1] == c then |s| - 1
    else
      var k := FindLast(s[..|s| - 1], c);
      assert k >= 0 ==> s[k + 1..] == s[..|s| - 1][k + 1..] + [s[|s| - 1]];
      k
  }

  /** Python's clamping of a slice bound, negative bounds counting from the end. */
  function SliceBound(n: int, i: int): (r: nat)
    requires n >= 0
    ensures r <= n
  {
    if i < 0 then (if n + i < 0 then 0 else n + i) else if i > n then n else i
  }

  /** `s[start:end]`. */
  function PySlice(s: string, start: int, end: int): (r: string)
    ensures var a, b := SliceBound(|s|, start), SliceBound(|s|, end);
      r == if a < b then s[a..b] else ""
  {
    var a, b := SliceBound(|s|, start), SliceBound(|s|, end);
    if a < b then s[a..b] else ""
  }

  /** The text `parse_llm_output` hands to the decoder, as written: from the first `{` through the first `}`. */
  function JsonSliceAsWritten(s: string): string {
    PySlice(s, Find(s, '{'), Find(s, '}') + 1)
  }

  /** The slice the comment above it describes: from the first `{` through the last `}`. */
  function JsonSlice(s: string): string {
    PySlice(s, Find(s, '{'), FindLast(s, '}') + 1)
  }

  /**
    When the as-written slice is not empty it is `"}"` or starts with
    `{`, and it ends with its only `}`.
   */
  lemma JsonSliceAsWrittenShape(s: string)
    ensures var r := JsonSliceAsWritten(s);
      r != "" ==> (r[0] == '{' || r == "}") && r[|r| - 1] == '}' && '}' !in r[..|r| - 1]
  {
    var i, j := Find(s, '{'), Find(s, '}');
    var r := JsonSliceAsWritten(s);
    if r != "" {
      if i >= 0 {
        assert r == s[i..j + 1];
        assert r[..|r| - 1] == s[..j][i..];
      } else {
        assert r == s[|s| - 1..j + 1];
      }
    }
  }

  /** The corrected slice, when not empty, is `"}"` or runs from a `{` to a `}`. */
  lemma JsonSliceShape(s: string)
    ensures var r := JsonSlice(s);
      r != "" ==> (r[0] == '{' || r == "}") && r[|r| - 1] == '}'
  {
    var i, j := Find(s, '{'), FindLast(s, '}');
    var r := JsonSlice(s);
    if r != "" && i < 0 {
      assert r == s[|s| - 1..j + 1];
    }
  }

  /** A JSON object wrapped in text without braces (a code fence, a preamble) is cut out exactly. */
  lemma JsonSliceOfWrapped(pre: string, json: string, post: string)
    requires '{' !in pre && '}' !in post
    requires |json| >= 2 && json[0] == '{' && json[|json| - 1] == '}'
    ensures JsonSlice(pre + json + post) == json
  {
    var s := pre + json + post;
    assert s[|pre|] == '{' && s[..|pre|] == pre;
    FindFirstAt(s, '{', |pre|);
    var e := |pre| + |json| - 1;
    assert s[e] == '}' && s[e + 1..] == post;
    FindLastAt(s, '}', e);
    assert s[|pre|..e + 1] == json;
  }

  lemma FindFirstAt(s: string, c: char, k: nat)
    requires k < |s| && s[k] == c && c !in s[..k]
    ensures Find(s, c) == k
  {
  }

  lemma FindLastAt(s: string, c: char, k: nat)
    requires k < |s| && s[k] == c && c !in s[k + 1..]
    ensures FindLast(s, c) == k
  {
  }

  /**
    As written, an object whose text holds a `}` before its closing brace
    (an answer quoting `{x}`, a nested object) is cut at that inner brace,
    so the decoder gets a truncated object; the last-brace slice gets it whole.
   */
  lemma InnerBraceTruncates(pre: string, json: string, post: string, k: nat)
    requires '{' !in pre && '}' !in pre && '}' !in post
    requires |json| >= 2 && json[0] == '{' && json[|json| - 1] == '}'
    requires 0 < k < |json| - 1 && json[k] == '}' && '}' !in json[..k]
    ensures JsonSliceAsWritten(pre + json + post) == json[..k + 1] != json
    ensures JsonSlice(pre + json + post) == json
  {
    JsonSliceOfWrapped(pre, json, post);
    FirstBraceSlice(pre, json, post, k);
  }

  lemma FirstBraceSlice(pre: string, json: string, post: string, k: nat)
    requires '{' !in pre && '}' !in pre
    requires |json| >= 1 && json[0] == '{'
    requires k < |json| && json[k] == '}' && '}' !in json[..k]
    ensures JsonSliceAsWritten(pre + json + post) == json[..k + 1]
  {
    var s := pre + json + post;
    FirstBraces(pre, json, post, k);
    assert s[|pre|..|pre| + k + 1] == json[..k + 1];
  }

  lemma FirstBraces(pre: string, json: string, post: string, k: nat)
    requires '{' !in pre && '}' !in pre
    requires |json| >= 1 && json[0] == '{'
    requires k < |json| && json[k] == '}' && '}' !in json[..k]
    ensures Find(pre + json + post, '{') == |pre| && Find(pre + json + post, '}') == |pre| + k
  {
    var s := pre + json + post;
    assert s[|pre|] == '{' && s[..|pre|] == pre;
    FindFirstAt(s, '{', |pre|);
    assert s[..|pre| + k] == pre + json[..k];
    FindFirstAt(s, '}', |pre| + k);
  }

  /** Text without `{` yields `""` or `"}"`, neither of which is JSON. */
  lemma NoOpeningBrace(s: string)
    requires '{' !in s
    ensures JsonSlice(s) == "" || JsonSlice(s) == "}"
    ensures JsonSliceAsWritten(s) == "" || JsonSliceAsWritten(s) == "}"
  {
    JsonSliceShape(s);
    JsonSliceAsWrittenShape(s);
  }

  // ------------------------------------------------------------ parse_llm_output

  /**
    The last steps of `parse_llm_output`: a decoding error counts as `{}`,
    and each value is taken from the object when its key is there and
    defaults on its own (`""` for `response`, `[]` for `chunk_id_list`).
   */
  function ValuesOf(parsed: Option<map<string, PyVal>>): (r: (PyVal, PyVal))
    ensures r.0 == if parsed.Some? && "response" in parsed.value then parsed.value["response"] else PStr("")
    ensures r.1 == if parsed.Some? && "chunk_id_list" in parsed.value then parsed.value["chunk_id_list"] else PList([])
  {
    var m := parsed.GetOr(map[]);
    (Get(m, "response", PStr("")), Get(m, "chunk_id_list", PList([])))
  }

  /**
    `parse_llm_output` as written: decode the first-brace slice, then take
    or default each value on its own; a slice that does not decode gives
    both defaults.
   */
  function ParseLlmOutput(s: string, decode: string -> Option<map<string, PyVal>>): (r: (PyVal, PyVal))
    ensures decode(JsonSliceAsWritten(s)).None? ==> r == (PStr(""), PList([]))
    ensures decode(JsonSliceAsWritten(s)).Some? ==>
      var m := decode(JsonSliceAsWritten(s)).value;
      (r.0 == if "response" in m then m["response"] else PStr(""))
      && (r.1 == if "chunk_id_list" in m then m["chunk_id_list"] else PList([]))
  {
    ValuesOf(decode(JsonSliceAsWritten(s)))
  }

  /** The parser as its comment describes it: the same steps over the last-brace slice. */
  function ParseLlmOutputCorrected(s: string, decode: string -> Option<map<string, PyVal>>): (r: (PyVal, PyVal))
    ensures decode(JsonSlice(s)).None? ==> r == (PStr(""), PList([]))
    ensures decode(JsonSlice(s)).Some? ==>
      var m := decode(JsonSlice(s)).value;
      (r.0 == if "response" in m then m["response"] else PStr(""))
      && (r.1 == if "chunk_id_list" in m then m["chunk_id_list"] else PList([]))
  {
    ValuesOf(decode(JsonSlice(s)))
  }

  /** Text that is not JSON at all (no `{`) parses to the defaults. */
  lemma NotJsonGivesDefaults(s: string, decode: string -> Option<map<string, PyVal>>)
    requires '{' !in s && decode("").None? && decode("}").None?
    ensures ParseLlmOutput(s, decode) == (PStr(""), PList([]))
    ensures ParseLlmOutputCorrected(s, decode) == (PStr(""), PList([]))
  {
    NoOpeningBrace(s);
  }

  /**
    An object with one brace pair, bare or fenced, is parsed the same both
    ways, with each missing key defaulted on its own.
   */
  lemma FlatObjectParsesAlike(pre: string, json: string, post: string, decode: string -> Option<map<string, PyVal>>)
    requires '{' !in pre && '}' !in pre && '}' !in post
    requires |json| >= 2 && json[0] == '{' && json[|json| - 1] == '}' && '}' !in json[..|json| - 1]
    ensures ParseLlmOutput(pre + json + post, decode) == ParseLlmOutputCorrected(pre + json + post, decode)
  {
    var s := pre + json + post;
    assert JsonSlice(s) == json by {
      JsonSliceOfWrapped(pre, json, post);
    }
    assert JsonSliceAsWritten(s) == json by {
      FirstBraceSlice(pre, json, post, |json| - 1);
      assert json[..|json|] == json;
    }
    SameSliceSameParse(s, decode);
  }

  lemma SameSliceSameParse(s: string, decode: string -> Option<map<string, PyVal>>)
    requires JsonSliceAsWritten(s) == JsonSlice(s)
    ensures ParseLlmOutput(s, decode) == ParseLlmOutputCorrected(s, decode)
  {
  }

  // ------------------------------------------------------------ process_qa_response

  /** A retrieved chunk: its text and its metadata (`id` is the text's id, `chunk_id` the chunk's). */
  datatype Doc = Doc(pageContent: string, metadata: map<string, PyVal>)

  /** `chunk_ids` as returned: the parsed value untouched, or the tuple `zip` built. */
  datatype ChunkIds = Raw(value: PyVal) | Paired(ids: seq<PyVal>)

  datatype QaResult = QaResult(answer: PyVal, chunkIds: ChunkIds, docIds: seq<PyVal>)

  const NotAvailable := "The answer is not available in the documents."

  /**
    The comprehension over the retrieved documents: `(id, chunk_id)` of
    each whose `chunk_id` is in the answer's list, in document order; the
    first `in` on an unsuitable value, or a missing key, raises.
   */
  function Pairs(docs: seq<Doc>, chunkIds: PyVal): (r: Result<seq<(PyVal, PyVal)>, PyError>)
    ensures r.Ok? ==> |r.value| <= |docs|
  {
    if docs == [] then Ok([])
    else
      var m := docs[0].metadata;
      match In(Get(m, "chunk_id", PNone), chunkIds)
      case Err(e) => Err(e)
      case Ok(member) =>
        if !member then Pairs(docs[1..], chunkIds)
        else if "id" !in m || "chunk_id" !in m then Err(KeyError)
        else match Pairs(docs[1..], chunkIds)
          case Err(e) => Err(e)
          case Ok(rest) => Ok([(m["id"], m["chunk_id"])] + rest)
  }

  /**
    What `process_qa_response` does with the parsed pair when documents were
    retrieved: a falsy list is returned as is; otherwise the cited chunks'
    ids, paired with their texts' ids, when some retrieved chunk was cited.
   */
  function Answer(docs: seq<Doc>, parsed: (PyVal, PyVal)): (r: Result<QaResult, PyError>)
    ensures r.Ok? ==> r.value.answer == parsed.0
    ensures !Truthy(parsed.1) ==> r == Ok(QaResult(parsed.0, Raw(parsed.1), []))
    ensures r.Ok? && r.value.chunkIds.Paired? ==> |r.value.chunkIds.ids| == |r.value.docIds| > 0
    ensures r.Ok? && r.value.chunkIds.Raw? ==> r.value.docIds == [] && r.value.chunkIds.value == parsed.1
  {
    var (answer, cids) := parsed;
    if !Truthy(cids) then Ok(QaResult(answer, Raw(cids), []))
    else match Pairs(docs, cids)
      case Err(e) => Err(e)
      case Ok(ps) =>
        if ps == [] then Ok(QaResult(answer, Raw(cids), []))
        else Ok(QaResult(answer, Paired(Map(ps, (p: (PyVal, PyVal)) => p.1)), Map(ps, (p: (PyVal, PyVal)) => p.0)))
  }

  /**
    `process_qa_response`: with no documents a fixed answer and no ids,
    without looking at the model's output; otherwise the answer of the
    first-brace parser the source calls, and, when some retrieved chunk was
    cited, the cited chunks' ids paired with their texts' ids.
   */
  function ProcessQaResponse(result: string, docs: seq<Doc>, decode: string -> Option<map<string, PyVal>>): (r: Result<QaResult, PyError>)
    ensures docs == [] ==> r == Ok(QaResult(PStr(NotAvailable), Raw(PList([])), []))
    ensures docs != [] && r.Ok? ==> r.value.answer == ParseLlmOutput(result, decode).0
    ensures r.Ok? && r.value.chunkIds.Paired? ==> |r.value.chunkIds.ids| == |r.value.docIds| > 0
    ensures r.Ok? && r.value.chunkIds.Raw? ==> r.value.docIds == []
  {
    if docs == [] then Ok(QaResult(PStr(NotAvailable), Raw(PList([])), []))
    else Answer(docs, ParseLlmOutput(result, decode))
  }

  /** The same with the last-brace parser the comment on the slice asks for. */
  function ProcessQaResponseCorrected(result: string, docs: seq<Doc>, decode: string -> Option<map<string, PyVal>>): (r: Result<QaResult, PyError>)
    ensures docs == [] ==> r == ProcessQaResponse(result, docs, decode)
    ensures docs != [] && r.Ok? ==> r.value.answer == ParseLlmOutputCorrected(result, decode).0
  {
    if docs == [] then Ok(QaResult(PStr(NotAvailable), Raw(PList([])), []))
    else Answer(docs, ParseLlmOutputCorrected(result, decode))
  }

  /**
    An answer whose text quotes a `}` is lost as written: the truncated
    slice does not decode, so the source returns the empty answer and the
    empty list, while the corrected parser returns the object's `response`.
   */
  lemma InnerBraceLosesAnswer(pre: string, json: string, post: string, k: nat, docs: seq<Doc>,
                              decode: string -> Option<map<string, PyVal>>)
    requires '{' !in pre && '}' !in pre && '}' !in post
    requires |json| >= 2 && json[0] == '{' && json[|json| - 1] == '}'
    requires 0 < k < |json| - 1 && json[k] == '}' && '}' !in json[..k]
    requires decode(json[..k + 1]).None? && decode(json).Some? && "response" in decode(json).value
    requires docs != []
    ensures ProcessQaResponse(pre + json + post, docs, decode) == Ok(QaResult(PStr(""), Raw(PList([])), []))
    ensures ProcessQaResponseCorrected(pre + json + post, docs, decode).Ok? ==>
      ProcessQaResponseCorrected(pre + json + post, docs, decode).value.answer == decode(json).value["response"]
  {
    InnerBraceTruncates(pre, json, post, k);
  }

  /** Every retrieved document carries both metadata keys, as the retriever builds them. */
  predicate WellFormed(docs: seq<Doc>) {
    forall i :: 0 <= i < |docs| ==> "id" in docs[i].metadata && "chunk_id" in docs[i].metadata
  }

  function ChunkOf(d: Doc): PyVal {
    Get(d.metadata, "chunk_id", PNone)
  }

  function PairOf(d: Doc): (PyVal, PyVal) {
    (Get(d.metadata, "id", PNone), ChunkOf(d))
  }

  /** The documents whose chunk id the answer lists, in retrieval order. */
  function Cited(docs: seq<Doc>, items: seq<PyVal>): (r: seq<Doc>)
    ensures |r| <= |docs|
    ensures forall i :: 0 <= i < |r| ==> r[i] in docs && ChunkOf(r[i]) in items
    ensures forall i :: 0 <= i < |docs| && ChunkOf(docs[i]) in items ==> docs[i] in r
  {
    if docs == [] then []
    else (if ChunkOf(docs[0]) in items then [docs[0]] else []) + Cited(docs[1..], items)
  }

  lemma PairsShift(p: (PyVal, PyVal), d: Doc, rest: seq<(PyVal, PyVal)>, c: seq<Doc>)
    requires p == PairOf(d) && |rest| == |c|
    requires forall i :: 0 <= i < |c| ==> rest[i] == PairOf(c[i])
    ensures forall i :: 0 <= i < |c| + 1 ==> ([p] + rest)[i] == PairOf(([d] + c)[i])
  {
    forall i | 0 <= i < |c| + 1 ensures ([p] + rest)[i] == PairOf(([d] + c)[i]) {
      if i > 0 {
        assert ([p] + rest)[i] == rest[i - 1];
        assert ([d] + c)[i] == c[i - 1];
      }
    }
  }

  lemma {:induction false} PairsOfList(docs: seq<Doc>, items: seq<PyVal>)
    requires WellFormed(docs)
    ensures Pairs(docs, PList(items)).Ok?
    ensures |Pairs(docs, PList(items)).value| == |Cited(docs, items)|
    ensures forall i :: 0 <= i < |Cited(docs, items)| ==> Pairs(docs, PList(items)).value[i] == PairOf(Cited(docs, items)[i])
    decreases |docs|
  {
    if docs != [] {
      assert WellFormed(docs[1..]) by {
        forall i | 0 <= i < |docs[1..]| ensures "id" in docs[1..][i].metadata && "chunk_id" in docs[1..][i].metadata {
          assert docs[1..][i] == docs[i + 1];
        }
      }
      PairsOfList(docs[1..], items);
      var d := docs[0];
      assert "id" in d.metadata && "chunk_id" in d.metadata;
      var rest := Pairs(docs[1..], PList(items)).value;
      var c := Cited(docs[1..], items);
      assert In(ChunkOf(d), PList(items)) == Ok(ChunkOf(d) in items);
      if ChunkOf(d) in items {
        assert PairOf(d) == (d.metadata["id"], d.metadata["chunk_id"]);
        assert Pairs(docs, PList(items)) == Ok([PairOf(d)] + rest);
        assert Cited(docs, items) == [d] + c;
        PairsShift(PairOf(d), d, rest, c);
      } else {
        assert Pairs(docs, PList(items)) == Ok(rest);
        assert Cited(docs, items) == c;
      }
    }
  }

  /** When no retrieved chunk is cited, the model's list comes back unchanged with no text ids. */
  lemma NothingMatchedKeepsList(result: string, docs: seq<Doc>, decode: string -> Option<map<string, PyVal>>, items: seq<PyVal>)
    requires docs != [] && WellFormed(docs)
    requires ParseLlmOutput(result, decode).1 == PList(items)
    requires Cited(docs, items) == []
    ensures ProcessQaResponse(result, docs, decode) == Ok(QaResult(ParseLlmOutput(result, decode).0, Raw(PList(items)), []))
  {
    if items != [] {
      PairsOfList(docs, items);
    }
  }

  /**
    With a list of cited ids, the result pairs, position by position, the
    chunk id and text id of every retrieved document whose chunk was cited,
    in retrieval order.
   */
  lemma CitedChunksPaired(result: string, docs: seq<Doc>, decode: string -> Option<map<string, PyVal>>, items: seq<PyVal>)
    requires docs != [] && WellFormed(docs)
    requires ParseLlmOutput(result, decode).1 == PList(items)
    requires Cited(docs, items) != []
    ensures ProcessQaResponse(result, docs, decode).Ok?
    ensures var r := ProcessQaResponse(result, docs, decode).value;
      r.chunkIds.Paired? && |r.chunkIds.ids| == |r.docIds| == |Cited(docs, items)|
    ensures var r := ProcessQaResponse(result, docs, decode).value; var cited := Cited(docs, items);
      forall i :: 0 <= i < |cited| ==>
        r.chunkIds.ids[i] == ChunkOf(cited[i]) && r.docIds[i] == Get(cited[i].metadata, "id", PNone)
        && r.chunkIds.ids[i] in items
  {
    PairsOfList(docs, items);
  }

  /** An empty list of cited ids gives empty chunk and text ids. */
  lemma NothingCitedNothingReturned(result: string, docs: seq<Doc>, decode: string -> Option<map<string, PyVal>>)
    requires docs != [] && ParseLlmOutput(result, decode).1 == PList([])
    ensures ProcessQaResponse(result, docs, decode) == Ok(QaResult(ParseLlmOutput(result, decode).0, Raw(PList([])), []))
  {
  }

  // ------------------------------------------------------------ serialize_documents

  function SerializeDoc(d: Doc): map<string, PyVal> {
    map["page_content" := PStr(d.pageContent), "metadata" := PDict(d.metadata)]
  }

  /** `serialize_documents`: one dictionary per document, in order. */
  function SerializeDocuments(docs: seq<Doc>): (r: seq<map<string, PyVal>>)
    ensures |r| == |docs|
    ensures forall i :: 0 <= i < |docs| ==> r[i].Keys == {"page_content", "metadata"}
  {
    Map(docs, SerializeDoc)
  }

  /** Reading a serialised document back. */
  function DeserializeDoc(m: map<string, PyVal>): Option<Doc> {
    if "page_content" in m && "metadata" in m && m["page_content"].PStr? && m["metadata"].PDict?
    then Some(Doc(m["page_content"].s, m["metadata"].entries))
    else None
  }

  /** Serialising loses nothing: every document reads back as itself. */
  lemma SerializeRoundTrip(docs: seq<Doc>)
    ensures forall i :: 0 <= i < |docs| ==> DeserializeDoc(SerializeDocuments(docs)[i]) == Some(docs[i])
  {
  }
}

=== FILE: sections.dfy ===
/**
  `toggleSection` (main.ui.js): a collapsible sidebar section whose
  collapsed flag is kept in local storage and restored on load.
 */
module Sections {
  import opened Base
  import opened JsValues

  /** What the page shows: the content, the rotated arrow, the header class and `aria-expanded`. */
  datatype SectionView = SectionView(contentShown: bool, iconRotated: bool, headerCollapsed: bool, ariaExpanded: string)

  datatype Section = Section(view: SectionView, stored: Option<string>)

  function ViewOf(collapsed: bool): (v: SectionView)
    ensures v.contentShown <==> !collapsed
    ensures v.iconRotated <==> !collapsed
    ensures v.headerCollapsed <==> collapsed
    ensures v.ariaExpanded == if collapsed then "false" else "true"
  {
    SectionView(!collapsed, !collapsed, collapsed, JsString(Bool(!collapsed)))
  }

  /** The section on page load: collapsed exactly when the stored string is `"true"`. */
  function Load(stored: Option<string>): (s: Section)
    ensures s.stored == stored
    ensures !s.view.contentShown <==> stored == Some("true")
  {
    Section(ViewOf(stored == Some("true")), stored)
  }

  /**
    The slide finishes with the content's visibility flipped; the new
    collapsed flag is written to storage (the boolean becomes the string
    `"true"` or `"false"`) and the header follows it.
   */
  function Toggle(s: Section): (r: Section)
    ensures r.view.contentShown <==> !s.view.contentShown
    ensures r.stored == Some(if s.view.contentShown then "true" else "false")
    ensures r.view == ViewOf(s.view.contentShown)
  {
    var nowCollapsed := s.view.contentShown;
    Section(ViewOf(nowCollapsed), Some(JsString(Bool(nowCollapsed))))
  }

  /** A click toggles the section unless it landed on a button inside the header. */
  function HeaderClick(s: Section, onButton: bool): (r: Section)
    ensures onButton ==> r == s
    ensures !onButton ==> r == Toggle(s)
  {
    if onButton then s else Toggle(s)
  }

  /**
    Enter and Space toggle the focused header: the content's visibility
    flips and the stored flag is the one the next page load restores.
    Other keys do nothing.
   */
  function HeaderKey(s: Section, key: string): (r: Section)
    ensures key == "Enter" || key == " " ==>
      (r.view.contentShown <==> !s.view.contentShown) && Load(r.stored) == r
    ensures key != "Enter" && key != " " ==> r == s
  {
    if key == "Enter" || key == " " then Toggle(s) else s
  }

  /** The state a toggle leaves is exactly the state the next page load restores. */
  lemma ToggleSurvivesReload(s: Section)
    ensures Load(Toggle(s).stored) == Toggle(s)
  {
  }

  /** Toggling twice shows the section as before, and stores its collapsed flag. */
  lemma ToggleTwice(stored: Option<string>)
    ensures Toggle(Toggle(Load(stored))).view == Load(stored).view
    ensures Toggle(Toggle(Load(stored))).stored == Some(if stored == Some("true") then "true" else "false")
  {
  }

  /** Only the exact string `"true"` collapses: no stored value, `"false"` or any other spelling expands. */
  lemma OnlyTrueCollapses(stored: Option<string>)
    requires stored != Some("true")
    ensures Load(stored).view == ViewOf(false)
  {
  }
}

=== FILE: sidebar_dom.dfy ===
/**
  The element tree `loadPromptHistory` builds inside `#folderList`, and the
  two jQuery lookups on it that decide which folders come back expanded
  after a reload (`restoreFolderState`) and whether a dragged row counts as
  "in a folder" (the top-level drop handler).
 */
module SidebarDom {
  import opened Base
  import opened Strings
  import opened OpenFolders
  import SidebarRender

  /** An element: its `id` attribute, its class list, its children in document order. */
  datatype Node = Node(id: Option<string>, classes: set<string>, children: seq<Node>)

  /** `.flex-col.gap-1.ml-4`: the selector both the render and the restore use for a folder's content. */
  const ContentClasses: set<string> := {"flex-col", "gap-1", "ml-4"}

  predicate Matches(n: Node, cs: set<string>) {
    cs <= n.classes
  }

  // ------------------------------------------------------------ the markup

  function HeaderNode(f: SidebarRender.Folder): Node {
    Node(Some(HeaderId(f.id)),
      {"folder-header", "flex", "items-center", "justify-between", "gap-2", "pl-2", "pr-1", "py-1.5",
       "rounded-md", "hover:bg-slate-100", "dark:hover:bg-slate-800/50", "transition-colors", "group", "cursor-pointer"},
      [Node(None, {"flex", "items-center", "gap-2", "min-w-0"},
         [Node(None, {"material-symbols-outlined", "text-base", "transition-transform", "duration-300", "section-toggle-icon"}, []),
          Node(None, {"w-2.5", "h-2.5", "rounded-full", "shrink-0"}, []),
          Node(None, {"folder-name-text", "text-sm", "font-medium", "text-slate-600", "dark:text-slate-300", "truncate"}, [])]),
       Node(None, {"flex", "items-center", "gap-1"},
         [Node(None, {"folder-delete-btn", "flex", "h-8", "w-8", "items-center", "justify-center", "rounded-md"},
            [Node(None, {"material-symbols-outlined", "text-[18px]"}, [])])])])
  }

  /** The "Move to folder" submenu of row `s`. */
  function SubmenuNode(s: string): Node {
    Node(Some("folderMoveSubmenu-" + s), {},
      [Node(None, {},
         [Node(Some("availableFolders-" + s), {}, []),
          Node(None, {}, []),
          Node(Some("createNewFolderInMenu-" + s), {}, [])])])
  }

  /** The actions menu of row `s`. */
  function MenuNode(s: string): Node {
    Node(Some("itemActionsMenu-" + s), {},
      [Node(None, {},
         [Node(None, {}, [Node(Some("moveToFolderOption-" + s), {}, []), SubmenuNode(s)]),
          Node(Some("deleteItemButton-" + s), {}, [])])])
  }

  /**
    A history row. Inside it only the elements that carry an `id` are kept
    (the actions button, the menu and its controls) with the elements that
    nest them; their class lists are left empty.
   */
  function RowNode(row: SidebarRender.Row): Node {
    var s := IntToString(row.id);
    Node(None,
      {"group", "flex", "items-center", "justify-between", "rounded-lg", "pl-3", "pr-2", "transition-colors", "relative",
       if row.active then "bg-primary/20" else "hover:bg-slate-100"},
      [Node(None, {}, []),
       Node(None, {"relative"}, [Node(Some("itemActionsButton-" + s), {}, []), MenuNode(s)])])
  }

  const EmptyNote: Node := Node(None, {"folder-empty", "text-sm", "text-slate-400", "italic", "px-3", "py-2"}, [])

  function ContentNode(rows: seq<SidebarRender.Row>): Node {
    Node(None, {"flex", "flex-col", "gap-1", "ml-4"}, if rows == [] then [EmptyNote] else Map(rows, RowNode))
  }

  function WrapperNode(v: SidebarRender.FolderView): Node {
    Node(None, {"flex", "flex-col"}, [HeaderNode(v.folder), ContentNode(v.rows)])
  }

  /** The children of `#folderList` after a render. */
  function FolderListNodes(views: seq<SidebarRender.FolderView>): (r: seq<Node>)
    ensures |r| == |views|
  {
    Map(views, WrapperNode)
  }

  // ------------------------------------------------------------ lookups

  /** The first element (document order) with a given id, and its next sibling. */
  datatype Lookup = NotFound | Found(node: Node, next: Option<Node>)

  /** `$('#' + id)` restricted to a forest, keeping `.next()` of the hit. */
  function Locate(ns: seq<Node>, id: string): Lookup
    decreases ns
  {
    if ns == [] then NotFound
    else if ns[0].id == Some(id) then Found(ns[0], if |ns| > 1 then Some(ns[1]) else None)
    else match Locate(ns[0].children, id)
      case Found(n, nx) => Found(n, nx)
      case NotFound => Locate(ns[1..], id)
  }

  /** An element without an id is looked through: first its subtree, then its following siblings. */
  lemma LocateStep(ns: seq<Node>, id: string)
    requires ns != [] && ns[0].id.None?
    ensures Locate(ns, id) == if Locate(ns[0].children, id).Found? then Locate(ns[0].children, id) else Locate(ns[1..], id)
  {
  }

  /** Some element of the forest carries every class of `cs`: `.find(selector)` is non-empty. */
  predicate AnyMatches(ns: seq<Node>, cs: set<string>)
    decreases ns
  {
    ns != [] && (Matches(ns[0], cs) || AnyMatches(ns[0].children, cs) || AnyMatches(ns[1..], cs))
  }

  /**
    A forest none of whose elements is folder content and none of whose ids
    looks like a folder header id.
   */
  predicate Plain(ns: seq<Node>)
    decreases ns
  {
    ns == [] ||
    (!Matches(ns[0], ContentClasses)
     && (ns[0].id.Some? ==> !StartsWith(ns[0].id.value, "folder-"))
     && Plain(ns[0].children) && Plain(ns[1..]))
  }

  lemma {:induction false} PlainHasNoContent(ns: seq<Node>)
    requires Plain(ns)
    ensures !AnyMatches(ns, ContentClasses)
    decreases ns
  {
    if ns != [] {
      PlainHasNoContent(ns[0].children);
      PlainHasNoContent(ns[1..]);
    }
  }

  /** In a plain forest a lookup never yields content, below or beside the hit, nor a header id. */
  lemma {:induction false} LocatePlain(ns: seq<Node>, id: string)
    requires Plain(ns)
    ensures Locate(ns, id).Found? ==>
      !StartsWith(id, "folder-")
      && !AnyMatches(Locate(ns, id).node.children, ContentClasses)
      && (Locate(ns, id).next.None? || !Matches(Locate(ns, id).next.value, ContentClasses))
    decreases ns
  {
    if ns != [] {
      if ns[0].id == Some(id) {
        PlainHasNoContent(ns[0].children);
      } else {
        LocatePlain(ns[0].children, id);
        LocatePlain(ns[1..], id);
      }
    }
  }

  predicate Ok(n: Node) {
    !Matches(n, ContentClasses) && (n.id.Some? ==> !StartsWith(n.id.value, "folder-"))
  }

  lemma Plain1(a: Node)
    requires Ok(a) && Plain(a.children)
    ensures Plain([a])
  {
    assert [a][1..] == [];
  }

  lemma Plain2(a: Node, b: Node)
    requires Ok(a) && Plain(a.children) && Ok(b) && Plain(b.children)
    ensures Plain([a, b])
  {
    assert [a, b][1..] == [b];
    Plain1(b);
  }

  lemma Plain3(a: Node, b: Node, c: Node)
    requires Ok(a) && Plain(a.children) && Ok(b) && Plain(b.children) && Ok(c) && Plain(c.children)
    ensures Plain([a, b, c])
  {
    assert [a, b, c][1..] == [b, c];
    Plain2(b, c);
  }

  /** An id made of a prefix that differs from `folder-` at position `i`. */
  lemma NoFolderPrefix(prefix: string, rest: string, i: nat)
    requires i < 7 <= |prefix| && prefix[i] != "folder-"[i]
    ensures !StartsWith(prefix + rest, "folder-")
  {
    assert (prefix + rest)[i] == prefix[i];
  }

  lemma SubmenuPlain(s: string)
    ensures Ok(SubmenuNode(s)) && Plain(SubmenuNode(s).children)
  {
    NoFolderPrefix("folderMoveSubmenu-", s, 6);
    NoFolderPrefix("availableFolders-", s, 0);
    NoFolderPrefix("createNewFolderInMenu-", s, 0);
    var sub := SubmenuNode(s);
    Plain3(sub.children[0].children[0], sub.children[0].children[1], sub.children[0].children[2]);
    Plain1(sub.children[0]);
  }

  lemma MenuPlain(s: string)
    ensures Ok(MenuNode(s)) && Plain(MenuNode(s).children)
  {
    NoFolderPrefix("itemActionsMenu-", s, 0);
    NoFolderPrefix("moveToFolderOption-", s, 0);
    NoFolderPrefix("deleteItemButton-", s, 0);
    SubmenuPlain(s);
    var menu := MenuNode(s);
    var group := menu.children[0];
    Plain2(group.children[0].children[0], SubmenuNode(s));
    Plain2(group.children[0], group.children[1]);
    Plain1(group);
  }

  lemma RowPlain(row: SidebarRender.Row)
    ensures Plain([RowNode(row)])
  {
    var s := IntToString(row.id);
    NoFolderPrefix("itemActionsButton-", s, 0);
    MenuPlain(s);
    var r := RowNode(row);
    Plain2(r.children[1].children[0], MenuNode(s));
    Plain2(r.children[0], r.children[1]);
    assert "flex-col" !in r.classes;
    Plain1(r);
  }

  lemma {:induction false} RowsPlain(rows: seq<SidebarRender.Row>)
    ensures Plain(Map(rows, RowNode))
    decreases |rows|
  {
    if rows != [] {
      RowPlain(rows[0]);
      RowsPlain(rows[1..]);
      assert Map(rows, RowNode)[1..] == Map(rows[1..], RowNode);
    }
  }

  lemma HeaderChildrenPlain(f: SidebarRender.Folder)
    ensures Plain(HeaderNode(f).children)
  {
    var cs := HeaderNode(f).children;
    Plain3(cs[0].children[0], cs[0].children[1], cs[0].children[2]);
    Plain1(cs[1].children[0].children[0]);
    Plain1(cs[1].children[0]);
    Plain2(cs[0], cs[1]);
  }

  lemma ContentChildrenPlain(rows: seq<SidebarRender.Row>)
    ensures Plain(ContentNode(rows).children)
  {
    if rows == [] {
      Plain1(EmptyNote);
    } else {
      RowsPlain(rows);
    }
  }

  predicate IsHeaderIdOf(views: seq<SidebarRender.FolderView>, id: string) {
    exists k :: 0 <= k < |views| && HeaderId(views[k].folder.id) == id
  }

  /** The hit holds no folder content beneath it. */
  predicate NothingBelow(l: Lookup) {
    l.Found? ==> !AnyMatches(l.node.children, ContentClasses)
  }

  /** The hit is followed by a folder's content. */
  predicate ContentNext(l: Lookup) {
    l.Found? && l.next.Some? && Matches(l.next.value, ContentClasses)
  }

  /** Looking an id up among the header and content of one folder. */
  lemma LocateWrapper(v: SidebarRender.FolderView, id: string)
    ensures NothingBelow(Locate(WrapperNode(v).children, id))
    ensures ContentNext(Locate(WrapperNode(v).children, id)) <==> HeaderId(v.folder.id) == id
    ensures Locate(WrapperNode(v).children, id).Found? && HeaderId(v.folder.id) != id ==> !StartsWith(id, "folder-")
  {
    var h := HeaderNode(v.folder);
    var c := ContentNode(v.rows);
    assert WrapperNode(v).children == [h, c];
    assert [h, c][1..] == [c];
    assert [c][1..] == [];
    HeaderChildrenPlain(v.folder);
    PlainHasNoContent(h.children);
    if HeaderId(v.folder.id) != id {
      ContentChildrenPlain(v.rows);
      LocatePlain(h.children, id);
      LocatePlain(c.children, id);
    }
  }

  /**
    Looking an id up in the rendered folder list: whatever element is hit
    holds no folder content beneath it, and the hit's next sibling is a
    folder's content exactly when the id is one of the folder header ids.
   */
  lemma LocateRenderedStep(views: seq<SidebarRender.FolderView>, id: string)
    requires views != []
    ensures Locate(FolderListNodes(views), id) ==
      if Locate(WrapperNode(views[0]).children, id).Found? then Locate(WrapperNode(views[0]).children, id)
      else Locate(FolderListNodes(views[1..]), id)
  {
    var ns := FolderListNodes(views);
    assert ns[0] == WrapperNode(views[0]);
    assert ns[1..] == FolderListNodes(views[1..]);
    LocateStep(ns, id);
  }

  lemma IsHeaderIdOfCons(views: seq<SidebarRender.FolderView>, id: string)
    requires views != []
    ensures IsHeaderIdOf(views, id) <==> HeaderId(views[0].folder.id) == id || IsHeaderIdOf(views[1..], id)
    ensures IsHeaderIdOf(views, id) ==> StartsWith(id, "folder-")
  {
    if IsHeaderIdOf(views[1..], id) {
      var k :| 0 <= k < |views[1..]| && HeaderId(views[1..][k].folder.id) == id;
      assert HeaderId(views[k + 1].folder.id) == id;
    }
    if IsHeaderIdOf(views, id) && HeaderId(views[0].folder.id) != id {
      var k :| 0 <= k < |views| && HeaderId(views[k].folder.id) == id;
      assert HeaderId(views[1..][k - 1].folder.id) == id;
    }
  }

  /**
    Looking an id up in the rendered folder list: whatever element is hit
    holds no folder content beneath it, and the hit's next sibling is a
    folder's content exactly when the id is one of the folder header ids.
   */
  lemma {:induction false} LocateRendered(views: seq<SidebarRender.FolderView>, id: string)
    ensures NothingBelow(Locate(FolderListNodes(views), id))
    ensures ContentNext(Locate(FolderListNodes(views), id)) <==> IsHeaderIdOf(views, id)
    decreases |views|
  {
    if views != [] {
      LocateRendered(views[1..], id);
      LocateWrapper(views[0], id);
      LocateRenderedStep(views, id);
      IsHeaderIdOfCons(views, id);
    }
  }

  // ------------------------------------------------------------ restore

  /**
    `restoreFolderState` as written: for each stored entry, the element its
    selector names is searched for folder content among its own descendants.
    The result lists the ids whose content was expanded.
   */
  function RestoreAsWritten(stored: seq<Stored>, roots: seq<Node>): seq<string>
    decreases |stored|
  {
    if stored == [] then []
    else
      var rest := RestoreAsWritten(stored[1..], roots);
      match Selector(stored[0])
      case None => rest
      case Some(sel) =>
        match Locate(roots, sel[1..])
        case NotFound => rest
        case Found(n, _) => if AnyMatches(n.children, ContentClasses) then [sel[1..]] + rest else rest
  }

  /**
    `restoreFolderState` with the lookup the toggle handler uses
    (`header.next('.flex-col.gap-1.ml-4')`): the content is the header's
    next sibling.
   */
  function RestoreFolderState(stored: seq<Stored>, roots: seq<Node>): seq<string>
    decreases |stored|
  {
    if stored == [] then []
    else
      var rest := RestoreFolderState(stored[1..], roots);
      match Selector(stored[0])
      case None => rest
      case Some(sel) =>
        match Locate(roots, sel[1..])
        case NotFound => rest
        case Found(_, nx) => if nx.Some? && Matches(nx.value, ContentClasses) then [sel[1..]] + rest else rest
  }

  /**
    As written, a reload re-expands no folder: each stored entry is looked
    up among the folder list's children, where a header's content is its
    sibling and never beneath it.
   */
  lemma {:induction false} RestoreAsWrittenExpandsNothing(stored: seq<Stored>, views: seq<SidebarRender.FolderView>)
    ensures RestoreAsWritten(stored, FolderListNodes(views)) == []
    decreases |stored|
  {
    if stored != [] {
      RestoreAsWrittenExpandsNothing(stored[1..], views);
      match Selector(stored[0])
      case None =>
      case Some(sel) => LocateRendered(views, sel[1..]);
    }
  }

  predicate Selects(stored: seq<Stored>, id: string) {
    exists i :: 0 <= i < |stored| && Selector(stored[i]) == Some("#" + id)
  }

  lemma SelectsCons(stored: seq<Stored>, id: string)
    requires stored != []
    ensures Selects(stored, id) <==> Selector(stored[0]) == Some("#" + id) || Selects(stored[1..], id)
  {
    if Selects(stored[1..], id) {
      var i :| 0 <= i < |stored[1..]| && Selector(stored[1..][i]) == Some("#" + id);
      assert Selector(stored[i + 1]) == Some("#" + id);
    }
    if Selects(stored, id) {
      var i :| 0 <= i < |stored| && Selector(stored[i]) == Some("#" + id);
      if i > 0 {
        assert Selector(stored[1..][i - 1]) == Some("#" + id);
      }
    }
  }

  /**
    With the sibling lookup, a folder header id is re-expanded exactly when
    some stored entry selects it, and nothing else is expanded.
   */
  lemma {:induction false} RestoreExpandsStored(stored: seq<Stored>, views: seq<SidebarRender.FolderView>, id: string)
    ensures id in RestoreFolderState(stored, FolderListNodes(views)) <==> Selects(stored, id) && IsHeaderIdOf(views, id)
    decreases |stored|
  {
    if stored != [] {
      RestoreExpandsStored(stored[1..], views, id);
      SelectsCons(stored, id);
      match Selector(stored[0])
      case None =>
      case Some(sel) =>
        LocateRendered(views, sel[1..]);
        assert sel == "#" + sel[1..];
    }
  }

  /** The example of a stored `["folder-3", "folder-7"]` over folders 3, 5 and 7. */
  lemma RestoreExample(views: seq<SidebarRender.FolderView>)
    requires |views| == 3
    requires views[0].folder.id == 3 && views[1].folder.id == 5 && views[2].folder.id == 7
    ensures var expanded := RestoreFolderState([StoredStr("folder-3"), StoredStr("folder-7")], FolderListNodes(views));
      HeaderId(3) in expanded && HeaderId(7) in expanded && HeaderId(5) !in expanded
  {
    var stored := [StoredStr("folder-3"), StoredStr("folder-7")];
    ExampleIds();
    SelectorSpellings(3);
    SelectorSpellings(7);
    assert stored[0] == StoredStr(HeaderId(3)) && stored[1] == StoredStr(HeaderId(7));
    assert "#" + HeaderId(3) == "#folder-3" && "#" + HeaderId(7) == "#folder-7";
    assert Selector(stored[0]) == Some("#folder-3") && Selector(stored[1]) == Some("#folder-7");
    assert Selects(stored, "folder-3") && Selects(stored, "folder-7");
    assert "#folder-5" != "#folder-3" && "#folder-5" != "#folder-7";
    assert !Selects(stored, "folder-5");
    assert HeaderId(views[0].folder.id) == "folder-3" && HeaderId(views[2].folder.id) == "folder-7";
    RestoreExpandsStored(stored, views, "folder-3");
    RestoreExpandsStored(stored, views, "folder-7");
    RestoreExpandsStored(stored, views, "folder-5");
  }

  lemma ExampleIds()
    ensures HeaderId(3) == "folder-3" && HeaderId(5) == "folder-5" && HeaderId(7) == "folder-7"
  {
  }

  // ------------------------------------------------------------ folder toggle

  /**
    Clicking a folder's toggle icon or name (main.history.js): the content
    slides open or shut and the header id is added to or removed from the
    stored open list.
   */
  function ToggleFolder(expanded: bool, stored: seq<Stored>, f: SidebarRender.Folder): (r: (bool, seq<Stored>))
    ensures r.0 == !expanded
    ensures StoredStr(HeaderId(f.id)) in r.1 <==> r.0
  {
    if !expanded then (true, Add(stored, HeaderId(f.id))) else (false, Remove(stored, HeaderId(f.id)))
  }

  /**
    A folder opened by hand comes back expanded after the next render when
    the sibling lookup is used; as written it never does.
   */
  lemma ToggleSurvivesReload(stored: seq<Stored>, views: seq<SidebarRender.FolderView>, k: nat)
    requires k < |views| && views[k].folder.id >= 0
    ensures var stored' := ToggleFolder(false, stored, views[k].folder).1;
      HeaderId(views[k].folder.id) in RestoreFolderState(stored', FolderListNodes(views))
      && RestoreAsWritten(stored', FolderListNodes(views)) == []
  {
    var f := views[k].folder;
    var stored' := ToggleFolder(false, stored, f).1;
    SelectorSpellings(f.id);
    var i :| 0 <= i < |stored'| && stored'[i] == StoredStr(HeaderId(f.id));
    assert Selects(stored', HeaderId(f.id));
    assert IsHeaderIdOf(views, HeaderId(f.id));
    RestoreExpandsStored(stored', views, HeaderId(f.id));
    RestoreAsWrittenExpandsNothing(stored', views);
  }

  // ------------------------------------------------------------ drag source

  /**
    `closest('[id^="folder-"]')` as the top-level drop handler uses it: the
    element itself or an ancestor has an id starting with `folder-`.
    `chain` lists the element and then its ancestors, nearest first.
   */
  predicate InFolderAsWritten(chain: seq<Node>) {
    exists i :: 0 <= i < |chain| && chain[i].id.Some? && StartsWith(chain[i].id.value, "folder-")
  }

  /** The intended test: the element sits inside `#folderList`. */
  predicate InFolder(chain: seq<Node>) {
    exists i :: 0 <= i < |chain| && chain[i].id == Some("folderList")
  }

  /**
    The ancestry of a row shown in folder `k`: the row, the folder's content,
    the folder wrapper, `#folderList` (whose class list belongs to the page
    template), then the template's own ancestors `page`.
   */
  function FolderRowChain(views: seq<SidebarRender.FolderView>, k: nat, j: nat, listClasses: set<string>, page: seq<Node>): seq<Node>
    requires k < |views| && j < |views[k].rows|
  {
    [RowNode(views[k].rows[j]), ContentNode(views[k].rows), WrapperNode(views[k]),
     Node(Some("folderList"), listClasses, FolderListNodes(views))] + page
  }

  /** The ancestry of a top-level row: the row, `#userPromptHistory`, then the page. */
  function TopRowChain(row: SidebarRender.Row, listClasses: set<string>, siblings: seq<Node>, page: seq<Node>): seq<Node> {
    [RowNode(row), Node(Some("userPromptHistory"), listClasses, siblings)] + page
  }

  predicate NoFolderIds(page: seq<Node>) {
    forall i :: 0 <= i < |page| && page[i].id.Some? ==> !StartsWith(page[i].id.value, "folder-")
  }

  /**
    As written, a row inside a folder is never recognised as being in one:
    the header that carries the `folder-` id is the content's sibling, not
    an ancestor, and `folderList` lacks the hyphen.
   */
  lemma FolderRowNotRecognised(views: seq<SidebarRender.FolderView>, k: nat, j: nat, listClasses: set<string>, page: seq<Node>)
    requires k < |views| && j < |views[k].rows|
    requires NoFolderIds(page)
    ensures !InFolderAsWritten(FolderRowChain(views, k, j, listClasses, page))
  {
    var chain := FolderRowChain(views, k, j, listClasses, page);
    var head := [RowNode(views[k].rows[j]), ContentNode(views[k].rows), WrapperNode(views[k]),
                 Node(Some("folderList"), listClasses, FolderListNodes(views))];
    assert chain == head + page;
    assert !StartsWith("folderList", "folder-") by {
      assert "folderList"[6] != "folder-"[6];
    }
    assert forall i :: 0 <= i < 3 ==> head[i].id.None?;
    forall i | 0 <= i < |chain| && chain[i].id.Some?
      ensures !StartsWith(chain[i].id.value, "folder-")
    {
      if i >= 4 {
        assert chain[i] == page[i - 4];
      } else {
        assert chain[i] == head[i];
      }
    }
  }

  /** The intended test tells folder rows from top-level rows. */
  lemma InFolderDistinguishes(views: seq<SidebarRender.FolderView>, k: nat, j: nat, listClasses: set<string>,
                              row: SidebarRender.Row, siblings: seq<Node>, page: seq<Node>)
    requires k < |views| && j < |views[k].rows|
    requires forall i :: 0 <= i < |page| ==> page[i].id != Some("folderList")
    ensures InFolder(FolderRowChain(views, k, j, listClasses, page))
    ensures !InFolder(TopRowChain(row, listClasses, siblings, page))
  {
    var chain := FolderRowChain(views, k, j, listClasses, page);
    assert chain[3].id == Some("folderList");
    var top := TopRowChain(row, listClasses, siblings, page);
    forall i | 0 <= i < |top|
      ensures top[i].id != Some("folderList")
    {
      if i >= 2 {
        assert top[i] == page[i - 2];
      }
    }
  }
}

=== FILE: sidebar_render.dfy ===
/**
  `loadPromptHistory` in main.history.js: given the fetched folders and
  history items, which container each item is appended to, and which of
  the sidebar's placeholders, lists and buttons end up shown.
 */
module SidebarRender {
  import opened Base
  import opened JsValues
  import Titles

  datatype Folder = Folder(id: int, name: string, color: string)

  /** One entry of `/history/`: `folderId` is whatever JSON gave (`null`, a number, missing). */
  datatype HistoryItem = HistoryItem(id: int, title: string, timestamp: Option<string>, folderId: JsVal)

  /**
    `folderMap.set(folder.id, …)` keeps, for each id, the container built
    last: the index of the last folder carrying `fid`.
   */
  function LastFolderIndex(folders: seq<Folder>, fid: int): (r: Option<nat>)
    ensures r.Some? ==> r.value < |folders| && folders[r.value].id == fid
    ensures r.Some? ==> forall k :: r.value < k < |folders| ==> folders[k].id != fid
    ensures r.None? <==> forall k :: 0 <= k < |folders| ==> folders[k].id != fid
  {
    if folders == [] then None
    else if folders[|folders| - 1].id == fid then Some(|folders| - 1)
    else LastFolderIndex(folders[..|folders| - 1], fid)
  }

  /**
    The folder container an item goes to, or `None` for the top-level list:
    `value.folder_id && folderMap.has(value.folder_id)`. Map keys are the
    numeric folder ids, so only a non-zero number can match.
   */
  function Target(folders: seq<Folder>, item: HistoryItem): (r: Option<nat>)
    ensures r.Some? ==> r.value < |folders|
  {
    match item.folderId
    case Num(n) => if n != 0 then LastFolderIndex(folders, n) else None
    case _ => None
  }

  function EmptyContainers(n: nat): (r: seq<seq<HistoryItem>>)
    ensures |r| == n && forall k :: 0 <= k < n ==> r[k] == []
  {
    seq(n, _ => [])
  }

  datatype Layout = Layout(folderContents: seq<seq<HistoryItem>>, topLevel: seq<HistoryItem>)

  /** The `historyItems.forEach` loop: each item appended to its container in turn. */
  function Place(folders: seq<Folder>, items: seq<HistoryItem>): (r: Layout)
    ensures |r.folderContents| == |folders|
    decreases |items|
  {
    if items == [] then Layout(EmptyContainers(|folders|), [])
    else
      var acc := Place(folders, items[..|items| - 1]);
      var it := items[|items| - 1];
      match Target(folders, it)
      case Some(k) => acc.(folderContents := acc.folderContents[k := acc.folderContents[k] + [it]])
      case None => acc.(topLevel := acc.topLevel + [it])
  }

  predicate InFolder(folders: seq<Folder>, k: nat, item: HistoryItem) {
    Target(folders, item) == Some(k)
  }

  predicate Unfiled(folders: seq<Folder>, item: HistoryItem) {
    Target(folders, item).None?
  }

  /**
    The loop's outcome, independently stated: folder `k` holds exactly the
    items targeting it and the top-level list exactly the rest, each in
    fetch order.
   */
  lemma {:induction false} PlaceCharacterized(folders: seq<Folder>, items: seq<HistoryItem>)
    ensures Place(folders, items).topLevel == Filter(items, (it: HistoryItem) => Unfiled(folders, it))
    ensures forall k :: 0 <= k < |folders| ==>
      Place(folders, items).folderContents[k] == Filter(items, (it: HistoryItem) => InFolder(folders, k, it))
    decreases |items|
  {
    if items != [] {
      PlaceCharacterized(folders, items[..|items| - 1]);
    }
  }

  function TotalLength(xss: seq<seq<HistoryItem>>): nat {
    if xss == [] then 0 else TotalLength(xss[..|xss| - 1]) + |xss[|xss| - 1]|
  }

  lemma {:induction false} TotalLengthUpdate(xss: seq<seq<HistoryItem>>, k: nat, extra: HistoryItem)
    requires k < |xss|
    ensures TotalLength(xss[k := xss[k] + [extra]]) == TotalLength(xss) + 1
    decreases |xss|
  {
    var yss := xss[k := xss[k] + [extra]];
    assert yss[..|yss| - 1] == if k == |xss| - 1 then xss[..|xss| - 1] else xss[..|xss| - 1][k := xss[k] + [extra]];
    if k < |xss| - 1 {
      TotalLengthUpdate(xss[..|xss| - 1], k, extra);
    }
  }

  lemma {:induction false} TotalLengthEmpty(n: nat)
    ensures TotalLength(EmptyContainers(n)) == 0
  {
    if n > 0 {
      assert EmptyContainers(n)[..n - 1] == EmptyContainers(n - 1);
      TotalLengthEmpty(n - 1);
    }
  }

  /** No item is lost or duplicated: the containers together hold every fetched item once. */
  lemma {:induction false} PlaceConservesCount(folders: seq<Folder>, items: seq<HistoryItem>)
    ensures TotalLength(Place(folders, items).folderContents) + |Place(folders, items).topLevel| == |items|
    decreases |items|
  {
    if items == [] {
      TotalLengthEmpty(|folders|);
    } else {
      PlaceConservesCount(folders, items[..|items| - 1]);
      var acc := Place(folders, items[..|items| - 1]);
      match Target(folders, items[|items| - 1])
      case Some(k) => TotalLengthUpdate(acc.folderContents, k, items[|items| - 1]);
      case None =>
    }
  }

  predicate DistinctFolderIds(folders: seq<Folder>) {
    forall i, j :: 0 <= i < j < |folders| ==> folders[i].id != folders[j].id
  }

  /**
    With distinct folder ids (primary keys), an item lands in folder `k`
    exactly when its `folder_id` is that folder's non-zero id, and at top
    level exactly when its `folder_id` is falsy or names no fetched folder.
   */
  lemma TargetByFolderId(folders: seq<Folder>, item: HistoryItem, k: nat)
    requires DistinctFolderIds(folders) && k < |folders|
    ensures InFolder(folders, k, item) <==> item.folderId == Num(folders[k].id) && folders[k].id != 0
    ensures Unfiled(folders, item) <==>
      !Truthy(item.folderId) || forall j :: 0 <= j < |folders| ==> item.folderId != Num(folders[j].id)
  {
  }

  /** Items projected without a folder (as the `/history/` view sends them) all stay at top level. */
  lemma UnfiledWhenNoFolderId(folders: seq<Folder>, items: seq<HistoryItem>)
    requires forall i :: 0 <= i < |items| ==> !items[i].folderId.Num?
    ensures Place(folders, items).topLevel == items
    ensures forall k :: 0 <= k < |folders| ==> Place(folders, items).folderContents[k] == []
  {
    PlaceCharacterized(folders, items);
    FilterKeepsAll(items, (it: HistoryItem) => Unfiled(folders, it));
  }

  /** A rendered history row: caption, and whether it carries the active highlight. */
  datatype Row = Row(id: int, caption: string, timestamp: Option<string>, active: bool)

  /** `value.id === activeHistoryId`, where the active id came from `parseInt`. */
  function RenderRow(item: HistoryItem, activeId: JsVal): Row {
    Row(item.id, Titles.FormatTitle(item.title), item.timestamp, StrictEquals(Num(item.id), activeId))
  }

  function RenderRows(items: seq<HistoryItem>, activeId: JsVal): (r: seq<Row>)
    ensures |r| == |items|
    ensures forall i :: 0 <= i < |items| ==> r[i] == RenderRow(items[i], activeId)
  {
    Map(items, (it: HistoryItem) => RenderRow(it, activeId))
  }

  predicate HasActive(rows: seq<Row>) {
    exists i :: 0 <= i < |rows| && rows[i].active
  }

  datatype FolderView = FolderView(folder: Folder, rows: seq<Row>, showsEmptyNote: bool, expanded: bool)

  datatype Sidebar = Sidebar(
    folders: seq<FolderView>,
    topLevel: seq<Row>,
    folderListShown: bool,
    emptyFoldersShown: bool,
    historyListShown: bool,
    emptyHistoryShown: bool,
    clearShown: bool)

  function RenderFolder(f: Folder, items: seq<HistoryItem>, activeId: JsVal): FolderView {
    var rows := RenderRows(items, activeId);
    FolderView(f, rows, rows == [], HasActive(rows))
  }

  /**
    The whole sidebar after one `loadPromptHistory` round. `activeId` is
    `parseInt` of the page's `data-history-id`.
   */
  function Render(folders: seq<Folder>, items: seq<HistoryItem>, activeId: JsVal): (r: Sidebar)
    ensures |r.folders| == |folders|
    ensures r.folderListShown <==> |folders| > 0
    ensures r.emptyFoldersShown <==> |folders| == 0
    ensures r.historyListShown <==> !r.emptyHistoryShown
    ensures r.historyListShown <==> r.topLevel != []
    ensures r.clearShown <==> items != []
    ensures r.topLevel == RenderRows(Place(folders, items).topLevel, activeId)
    ensures forall k :: 0 <= k < |folders| ==>
      r.folders[k].folder == folders[k] && |r.folders[k].rows| == |Place(folders, items).folderContents[k]|
      && r.folders[k].rows == RenderRows(Place(folders, items).folderContents[k], activeId)
      && (r.folders[k].showsEmptyNote <==> Place(folders, items).folderContents[k] == [])
      && (r.folders[k].expanded <==> HasActive(r.folders[k].rows))
  {
    var layout := Place(folders, items);
    var views := seq(|folders|, k requires 0 <= k < |folders| => RenderFolder(folders[k], layout.folderContents[k], activeId));
    var top := if items == [] then [] else RenderRows(layout.topLevel, activeId);
    Sidebar(views, top, |folders| > 0, |folders| == 0, top != [], top == [], items != [])
  }

  /**
    Folder `k` keeps its "No items" placeholder exactly when no fetched
    item was placed in it.
   */
  lemma EmptyNoteIffNothingPlaced(folders: seq<Folder>, items: seq<HistoryItem>, activeId: JsVal, k: nat)
    requires k < |folders|
    ensures Render(folders, items, activeId).folders[k].showsEmptyNote <==>
      forall i :: 0 <= i < |items| ==> !InFolder(folders, k, items[i])
  {
    PlaceCharacterized(folders, items);
    var content := Place(folders, items).folderContents[k];
    assert content == Filter(items, (it: HistoryItem) => InFolder(folders, k, it));
    if content != [] {
      assert content[0] in items && InFolder(folders, k, content[0]);
    }
    if exists i :: 0 <= i < |items| && InFolder(folders, k, items[i]) {
      var i :| 0 <= i < |items| && InFolder(folders, k, items[i]);
      assert items[i] in content;
    }
  }

  /**
    Folder `k` is shown expanded after a render exactly when it holds the
    active item.
   */
  lemma ExpandedIffHoldsActive(folders: seq<Folder>, items: seq<HistoryItem>, active: int, k: nat)
    requires k < |folders|
    ensures Render(folders, items, Num(active)).folders[k].expanded <==>
      exists i :: 0 <= i < |items| && items[i].id == active && InFolder(folders, k, items[i])
  {
    PlaceCharacterized(folders, items);
    var content := Place(folders, items).folderContents[k];
    var rows := RenderRows(content, Num(active));
    if HasActive(rows) {
      var i :| 0 <= i < |rows| && rows[i].active;
      assert content[i] in items;
      var j :| 0 <= j < |items| && items[j] == content[i];
      assert items[j].id == active && InFolder(folders, k, items[j]);
    }
    if exists i :: 0 <= i < |items| && items[i].id == active && InFolder(folders, k, items[i]) {
      var i :| 0 <= i < |items| && items[i].id == active && InFolder(folders, k, items[i]);
      assert HasActive(rows) by {
        assert items[i] in content;
        var j :| 0 <= j < |content| && content[j] == items[i];
        assert rows[j].active;
      }
    }
  }

  /** A page without a parsable `data-history-id` (`NaN`) expands nothing and highlights nothing. */
  lemma NothingActiveWithoutId(folders: seq<Folder>, items: seq<HistoryItem>)
    ensures forall k :: 0 <= k < |folders| ==> !Render(folders, items, NaN).folders[k].expanded
    ensures forall i :: 0 <= i < |Render(folders, items, NaN).topLevel| ==> !Render(folders, items, NaN).topLevel[i].active
  {
  }
}

=== FILE: spotlight.dfy ===
/**
  The spotlight search box (main.ui.js): which history entries the result
  list shows for the chosen category and the typed query, the keyboard
  index, and what activating an entry does.
 */
module Spotlight {
  import opened Base
  import opened Strings
  import opened JsValues
  import OpenFolders

  /** One entry of `/history/`: `title` is `None` when it is `null` or missing. */
  datatype SpotItem = SpotItem(id: int, title: Option<string>, folderId: JsVal)

  /** What the result area holds: the filtered list, the loading note, or the failure note. */
  datatype Panel = Listing(newChat: bool, results: seq<SpotItem>) | Loading | LoadFailed

  datatype Spot = Spot(open: bool, items: seq<SpotItem>, filter: string, input: string, index: int, panel: Panel)

  /** The result area's buttons, in order: the New chat button first when it is shown. */
  datatype Button = NewChatButton | ResultButton(item: SpotItem)

  function Buttons(p: Panel): (r: seq<Button>)
    ensures p.Listing? ==> |r| == (if p.newChat then 1 else 0) + |p.results|
  {
    match p
    case Listing(newChat, results) =>
      (if newChat then [NewChatButton] else []) + Map(results, (it: SpotItem) => ResultButton(it))
    case Loading => [NewChatButton]
    case LoadFailed => []
  }

  /** "No matches found." is shown under a listing with no results. */
  predicate NoMatches(p: Panel) {
    p.Listing? && p.results == []
  }

  // ------------------------------------------------------------ filtering

  /** The query: the input trimmed and lower-cased. */
  function Query(input: string): string {
    Lower(Strip(JavaScript, input))
  }

  /** Surrounding white space and letter case do not change the query. */
  lemma QueryNormalises(input: string)
    ensures Query(Lower(input)) == Query(input)
    ensures Query(Strip(JavaScript, input)) == Query(input)
  {
    LowerStripCommute(JavaScript, input);
    LowerIdempotent(Strip(JavaScript, input));
    StripIdempotent(JavaScript, input);
  }

  /** The category filter: `folders` keeps filed entries, `unfiled` the others, anything else all. */
  predicate KeepsCategory(filter: string, it: SpotItem) {
    if filter == "folders" then Truthy(it.folderId)
    else if filter == "unfiled" then !Truthy(it.folderId)
    else true
  }

  predicate MatchesQuery(q: string, it: SpotItem) {
    Contains(Lower(it.title.GetOr("")), q)
  }

  /** An entry the spotlight selects, stated in one predicate. */
  predicate Selected(filter: string, q: string, it: SpotItem) {
    KeepsCategory(filter, it) && (q == "" || MatchesQuery(q, it))
  }

  function Limit(q: string): nat {
    if q != "" then 20 else 10
  }

  /** `filterSpotlight`: the two filter passes, the index reset and the truncated render. */
  function Refilter(s: Spot): (r: Spot)
    ensures r.open == s.open && r.items == s.items && r.filter == s.filter && r.input == s.input
    ensures r.panel.Listing? && (r.panel.newChat <==> Query(s.input) == "")
    ensures |r.panel.results| <= Limit(Query(s.input))
    ensures r.index == 0 || r.index == -1
  {
    var q := Query(s.input);
    var byCategory := Filter(s.items, (it: SpotItem) => KeepsCategory(s.filter, it));
    var filtered := if q != "" then Filter(byCategory, (it: SpotItem) => MatchesQuery(q, it)) else byCategory;
    s.(index := if |filtered| > 0 then 0 else -1, panel := Listing(q == "", Take(filtered, Limit(q))))
  }

  /** The selected entries, by the single predicate. */
  function Selection(s: Spot): seq<SpotItem> {
    Filter(s.items, (it: SpotItem) => Selected(s.filter, Query(s.input), it))
  }

  /**
    The list shown is the first `Limit` selected entries in fetch order,
    the index is 0 exactly when something is selected, and every entry
    shown belongs to the category and contains the query.
   */
  lemma RefilterShowsSelection(s: Spot)
    ensures Refilter(s).panel.results == Take(Selection(s), Limit(Query(s.input)))
    ensures Refilter(s).index == 0 <==> Selection(s) != []
    ensures Refilter(s).index == -1 <==> Selection(s) == []
    ensures forall i :: 0 <= i < |Refilter(s).panel.results| ==>
      Refilter(s).panel.results[i] in s.items && Selected(s.filter, Query(s.input), Refilter(s).panel.results[i])
  {
    var q := Query(s.input);
    if q != "" {
      FilterFilter(s.items, (it: SpotItem) => KeepsCategory(s.filter, it), (it: SpotItem) => MatchesQuery(q, it),
        (it: SpotItem) => Selected(s.filter, Query(s.input), it));
    } else {
      FilterSameOn(s.items, (it: SpotItem) => KeepsCategory(s.filter, it), (it: SpotItem) => Selected(s.filter, Query(s.input), it));
    }
    var shown := Refilter(s).panel.results;
    forall i | 0 <= i < |shown|
      ensures shown[i] in s.items && Selected(s.filter, q, shown[i])
    {
      assert shown[i] == Selection(s)[i];
    }
  }

  /** With no query, the `folders` and `unfiled` categories split the history between them. */
  lemma CategoriesPartition(items: seq<SpotItem>)
    ensures |Filter(items, (it: SpotItem) => KeepsCategory("folders", it))|
          + |Filter(items, (it: SpotItem) => KeepsCategory("unfiled", it))| == |items|
    ensures Filter(items, (it: SpotItem) => KeepsCategory("all", it)) == items
  {
    FilterPartitionCount(items, (it: SpotItem) => KeepsCategory("folders", it), (it: SpotItem) => KeepsCategory("unfiled", it));
    FilterKeepsAll(items, (it: SpotItem) => KeepsCategory("all", it));
  }

  // ------------------------------------------------------------ opening and closing

  /**
    `openSpotlight`: show the overlay, reset the category to `all` when the
    category buttons exist, then either refilter the cached entries or,
    with nothing cached, show the loading note until the fetch settles.
   */
  function Open(s: Spot, hasCategoryButtons: bool): (r: Spot)
    ensures r.open && r.items == s.items
    ensures hasCategoryButtons ==> r.filter == "all"
    ensures s.items == [] <==> r.panel == Loading
  {
    var s1 := s.(open := true);
    var s2 := if hasCategoryButtons then Refilter(s1.(filter := "all")) else s1;
    if s.items == [] then s2.(panel := Loading) else Refilter(s2)
  }

  /** The fetch of `/history/` settled: `data` is `None` when the reply was not an array. */
  function Loaded(s: Spot, data: Option<seq<SpotItem>>): (r: Spot)
    ensures r.items == data.GetOr([])
    ensures r.panel.Listing?
  {
    Refilter(s.(items := data.GetOr([])))
  }

  function LoadFailedNote(s: Spot): (r: Spot)
    ensures r.panel == LoadFailed && r.items == s.items
  {
    s.(panel := LoadFailed)
  }

  /** `closeSpotlight`: hide, clear the input and the index. */
  function Close(s: Spot): (r: Spot)
    ensures !r.open && r.input == "" && r.index == -1
    ensures r.items == s.items && r.filter == s.filter
  {
    s.(open := false, input := "", index := -1)
  }

  /** Reopening after a close starts from the unfiltered first page. */
  lemma ReopenShowsFirstPage(s: Spot)
    requires s.items != []
    ensures var r := Open(Close(s), true);
      r.panel == Listing(true, Take(s.items, 10)) && r.index == 0
  {
    var c := Close(s).(open := true);
    RefilterShowsSelection(c.(filter := "all"));
    FilterSameOn(s.items, (it: SpotItem) => Selected("all", Query(""), it), (it: SpotItem) => true);
    FilterKeepsAll(s.items, (it: SpotItem) => true);
    var r2 := Refilter(c.(filter := "all"));
    RefilterShowsSelection(r2);
    FilterSameOn(s.items, (it: SpotItem) => Selected(r2.filter, Query(r2.input), it), (it: SpotItem) => true);
  }

  function SetFilter(s: Spot, filter: string): (r: Spot)
    ensures r.filter == filter && r.panel.Listing?
  {
    Refilter(s.(filter := filter))
  }

  function TypeInput(s: Spot, input: string): (r: Spot)
    ensures r.input == input && r.panel.Listing?
  {
    Refilter(s.(input := input))
  }

  // ------------------------------------------------------------ activation

  /** Where activating a button leads, and the open-folder list it leaves stored. */
  datatype Outcome = Outcome(spot: Spot, navigate: Option<string>, stored: seq<OpenFolders.Stored>)

  /**
    Clicking a result: an entry filed in a folder puts `folder-<id>` on the
    open list (once), then the page goes to the entry. The New chat button
    closes the spotlight and goes to `/index`.
   */
  function Activate(s: Spot, b: Button, stored: seq<OpenFolders.Stored>): (r: Outcome)
    ensures b.NewChatButton? ==> r == Outcome(Close(s), Some("/index"), stored)
    ensures b.ResultButton? ==> r.navigate == Some("/history-item/" + IntToString(b.item.id))
    ensures b.ResultButton? && Truthy(b.item.folderId) ==>
      r.stored == OpenFolders.Add(stored, "folder-" + JsString(b.item.folderId))
    ensures b.ResultButton? && !Truthy(b.item.folderId) ==> r.stored == stored
  {
    match b
    case NewChatButton => Outcome(Close(s), Some("/index"), stored)
    case ResultButton(it) =>
      var stored' := if Truthy(it.folderId) then OpenFolders.Add(stored, "folder-" + JsString(it.folderId)) else stored;
      Outcome(s, Some("/history-item/" + IntToString(it.id)), stored')
  }

  /**
    Opening an entry of folder `n` from the spotlight stores exactly the
    header id the sidebar gives that folder, so the folder is found open
    on the entry's page.
   */
  lemma ActivateOpensItsFolder(s: Spot, it: SpotItem, n: int, stored: seq<OpenFolders.Stored>)
    requires it.folderId == Num(n) && n != 0
    ensures OpenFolders.StoredStr(OpenFolders.HeaderId(n)) in Activate(s, ResultButton(it), stored).stored
    ensures Activate(s, ResultButton(it), Activate(s, ResultButton(it), stored).stored).stored
         == Activate(s, ResultButton(it), stored).stored
  {
    OpenFolders.AddIdempotent(stored, OpenFolders.HeaderId(n));
  }

  /** jQuery `.eq(i)`: a negative index counts from the end. */
  function Eq(bs: seq<Button>, i: int): (r: Option<Button>)
    ensures r.Some? ==> r.value in bs
    ensures 0 <= i < |bs| ==> r == Some(bs[i])
    ensures i >= |bs| || i < -|bs| ==> r.None?
  {
    if 0 <= i < |bs| then Some(bs[i])
    else if i < 0 && |bs| + i >= 0 then Some(bs[|bs| + i])
    else None
  }

  // ------------------------------------------------------------ keyboard

  datatype KeyEvent = KeyEvent(key: string, ctrlOrMeta: bool, shift: bool)

  function Min(a: int, b: int): int { if a < b then a else b }
  function Max(a: int, b: int): int { if a < b then b else a }

  /** Enter on the open spotlight: the button at the index is clicked, when there is one. */
  function Enter(s: Spot, stored: seq<OpenFolders.Stored>): (r: Outcome)
    ensures Eq(Buttons(s.panel), s.index).None? ==> r == Outcome(s, None, stored)
  {
    match Eq(Buttons(s.panel), s.index)
    case None => Outcome(s, None, stored)
    case Some(b) => Activate(s, b, stored)
  }

  /**
    The document key handler as written: Ctrl/Cmd+K opens, Shift+Ctrl/Cmd+O
    goes to `/index`, Escape closes an open spotlight; then, while open,
    the arrow keys move the index and call `filterSpotlight`, and Enter
    clicks the button at the index.
   */
  function KeyDownAsWritten(s: Spot, e: KeyEvent, hasCategoryButtons: bool, stored: seq<OpenFolders.Stored>): (r: Outcome)
    ensures !s.open && !(e.ctrlOrMeta && Lower(e.key) == "k") ==> r.spot == s
  {
    var s1 := if e.ctrlOrMeta && Lower(e.key) == "k" then Open(s, hasCategoryButtons) else s;
    var nav := if e.shift && e.ctrlOrMeta && Lower(e.key) == "o" then Some("/index") else None;
    var s2 := if e.key == "Escape" && s1.open then Close(s1) else s1;
    if !s2.open then Outcome(s2, nav, stored)
    else if e.key == "ArrowDown" then
      Outcome(Refilter(s2.(index := Min(s2.index + 1, |Buttons(s2.panel)| - 1))), nav, stored)
    else if e.key == "ArrowUp" then
      Outcome(Refilter(s2.(index := Max(s2.index - 1, 0))), nav, stored)
    else if e.key == "Enter" then
      var o := Enter(s2, stored);
      if o.navigate.Some? then o else o.(navigate := nav)
    else Outcome(s2, nav, stored)
  }

  /** The spotlight right after a filter pass, as every handler leaves it once the list is shown. */
  predicate Settled(s: Spot) {
    s == Refilter(s)
  }

  /**
    As written, the arrow keys change nothing on a settled spotlight: the
    index they compute is overwritten by `filterSpotlight`.
   */
  lemma ArrowKeysAsWrittenDoNothing(s: Spot, stored: seq<OpenFolders.Stored>, b: bool)
    requires s.open && Settled(s)
    ensures KeyDownAsWritten(s, KeyEvent("ArrowDown", false, false), b, stored) == Outcome(s, None, stored)
    ensures KeyDownAsWritten(s, KeyEvent("ArrowUp", false, false), b, stored) == Outcome(s, None, stored)
  {
    RefilterIgnoresIndex(s, Min(s.index + 1, |Buttons(s.panel)| - 1));
    RefilterIgnoresIndex(s, Max(s.index - 1, 0));
  }

  /** `filterSpotlight` recomputes the index from scratch. */
  lemma RefilterIgnoresIndex(s: Spot, i: int)
    ensures Refilter(s.(index := i)) == Refilter(s)
  {
    var t := s.(index := i);
    assert t.items == s.items && t.filter == s.filter && t.input == s.input;
  }

  /** The arrow keys with the index kept: the list is re-rendered around the new index. */
  function ArrowDown(s: Spot): (r: Spot)
    ensures r == s.(index := r.index)
    ensures |Buttons(s.panel)| > 0 && -1 <= s.index < |Buttons(s.panel)| ==> 0 <= r.index < |Buttons(s.panel)|
    ensures 0 <= s.index < |Buttons(s.panel)| - 1 ==> r.index == s.index + 1
  {
    s.(index := Min(s.index + 1, |Buttons(s.panel)| - 1))
  }

  function ArrowUp(s: Spot): (r: Spot)
    ensures r == s.(index := r.index)
    ensures 0 <= r.index
    ensures 0 < s.index ==> r.index == s.index - 1
  {
    s.(index := Max(s.index - 1, 0))
  }

  /** The key handler with the arrow keys moving the index instead of refiltering. */
  function KeyDown(s: Spot, e: KeyEvent, hasCategoryButtons: bool, stored: seq<OpenFolders.Stored>): (r: Outcome)
    ensures !s.open && !(e.ctrlOrMeta && Lower(e.key) == "k") ==> r.spot == s
  {
    var s1 := if e.ctrlOrMeta && Lower(e.key) == "k" then Open(s, hasCategoryButtons) else s;
    var nav := if e.shift && e.ctrlOrMeta && Lower(e.key) == "o" then Some("/index") else None;
    var s2 := if e.key == "Escape" && s1.open then Close(s1) else s1;
    if !s2.open then Outcome(s2, nav, stored)
    else if e.key == "ArrowDown" then Outcome(ArrowDown(s2), nav, stored)
    else if e.key == "ArrowUp" then Outcome(ArrowUp(s2), nav, stored)
    else if e.key == "Enter" then
      var o := Enter(s2, stored);
      if o.navigate.Some? then o else o.(navigate := nav)
    else Outcome(s2, nav, stored)
  }

  /** Down then up returns to the same entry when there was one below it. */
  lemma DownThenUp(s: Spot)
    requires 0 <= s.index < |Buttons(s.panel)| - 1
    ensures ArrowUp(ArrowDown(s)) == s
  {
  }

  /**
    With a query and at least two results, ArrowDown then Enter opens the
    second result; as written, the same keys open the first.
   */
  lemma DownEnterOpensSecond(s: Spot, stored: seq<OpenFolders.Stored>)
    requires s.open && Settled(s)
    requires Query(s.input) != "" && |s.panel.results| >= 2
    ensures KeyDown(s, KeyEvent("ArrowDown", false, false), false, stored).spot.index == 1
    ensures Enter(ArrowDown(s), stored).navigate == Some("/history-item/" + IntToString(s.panel.results[1].id))
    ensures Enter(KeyDownAsWritten(s, KeyEvent("ArrowDown", false, false), false, stored).spot, stored).navigate
         == Some("/history-item/" + IntToString(s.panel.results[0].id))
  {
    ArrowDownKey(s, stored);
    ArrowKeysAsWrittenDoNothing(s, stored, false);
    EnterOnResult(s, stored, 0);
    EnterOnResult(ArrowDown(s), stored, 1);
  }

  /** The ArrowDown key on an open spotlight is the `ArrowDown` step. */
  lemma ArrowDownKey(s: Spot, stored: seq<OpenFolders.Stored>)
    requires s.open
    ensures KeyDown(s, KeyEvent("ArrowDown", false, false), false, stored) == Outcome(ArrowDown(s), None, stored)
  {
    assert Lower("ArrowDown") != "k" by {
      assert |Lower("ArrowDown")| == 9;
    }
  }

  /** Enter on the `k`-th result of a listing without the New chat button opens that result. */
  lemma EnterOnResult(s: Spot, stored: seq<OpenFolders.Stored>, k: nat)
    requires s.panel.Listing? && !s.panel.newChat && s.index == k < |s.panel.results|
    ensures Enter(s, stored).navigate == Some("/history-item/" + IntToString(s.panel.results[k].id))
  {
    assert Buttons(s.panel)[k] == ResultButton(s.panel.results[k]);
  }

  /**
    Enter on a settled spotlight with an empty query starts a new chat,
    whichever entry is highlighted: the New chat button is first, and with
    no results the index -1 picks the last button, which is New chat too.
   */
  lemma EnterWithoutQueryStartsNewChat(s: Spot, stored: seq<OpenFolders.Stored>)
    requires s.open && Settled(s) && Query(s.input) == ""
    ensures Enter(s, stored) == Outcome(Close(s), Some("/index"), stored)
  {
    assert Buttons(s.panel)[0] == NewChatButton;
    if s.index == -1 {
      RefilterShowsSelection(s);
      assert s.panel.results == [];
      assert Buttons(s.panel) == [NewChatButton];
    }
  }
}

=== FILE: strings.dfy ===
/**
  String primitives shared by the JavaScript and Python parts of the model:
  whitespace stripping (`str.strip()` and `String.prototype.trim()` differ in
  which characters count as white space), ASCII lower-casing, substring search,
  single-character split/join, decimal digits and slicing.
 */
module Strings {

  /** Which language's notion of white space a strip uses. */
  datatype Flavor = Python | JavaScript

  /** Python `str.isspace()` for one character, or JavaScript's WhiteSpace and LineTerminator. */
  predicate IsSpace(f: Flavor, c: char) {
    var n := c as int;
    match f
    case Python =>
      || 0x09 <= n <= 0x0D || 0x1C <= n <= 0x20 || n == 0x85 || n == 0xA0 || n == 0x1680
      || 0x2000 <= n <= 0x200A || n == 0x2028 || n == 0x2029 || n == 0x202F || n == 0x205F || n == 0x3000
    case JavaScript =>
      || 0x09 <= n <= 0x0D || n == 0x20 || n == 0xA0 || n == 0x1680
      || 0x2000 <= n <= 0x200A || n == 0x2028 || n == 0x2029 || n == 0x202F || n == 0x205F || n == 0x3000
      || n == 0xFEFF
  }

  /** Neither end of `s` is white space. */
  predicate Trimmed(f: Flavor, s: string) {
    s == [] || (!IsSpace(f, s[0]) && !IsSpace(f, s[|s| - 1]))
  }

  /** `s` with its leading white space removed. */
  function StripStart(f: Flavor, s: string): (r: string)
    ensures |r| <= |s| && r == s[|s| - |r|..]
    ensures r != [] ==> !IsSpace(f, r[0])
    ensures forall k :: 0 <= k < |s| - |r| ==> IsSpace(f, s[k])
  {
    if s != [] && IsSpace(f, s[0]) then StripStart(f, s[1..]) else s
  }

  /** `s` with its trailing white space removed. */
  function StripEnd(f: Flavor, s: string): (r: string)
    ensures |r| <= |s| && r == s[..|r|]
    ensures r != [] ==> !IsSpace(f, r[|r| - 1])
    ensures forall k :: |r| <= k < |s| ==> IsSpace(f, s[k])
  {
    if s != [] && IsSpace(f, s[|s| - 1]) then StripEnd(f, s[..|s| - 1]) else s
  }

  /** Python `s.strip()` / JavaScript `s.trim()`. */
  function Strip(f: Flavor, s: string): (r: string)
    ensures Trimmed(f, r)
    ensures |r| <= |s|
  {
    StripEnd(f, StripStart(f, s))
  }

  lemma StripKeepsTrimmed(f: Flavor, s: string)
    requires Trimmed(f, s)
    ensures Strip(f, s) == s
  {
  }

  lemma StripIdempotent(f: Flavor, s: string)
    ensures Strip(f, Strip(f, s)) == Strip(f, s)
  {
    StripKeepsTrimmed(f, Strip(f, s));
  }

  lemma {:induction false} StripStartAllSpace(f: Flavor, s: string)
    requires forall k :: 0 <= k < |s| ==> IsSpace(f, s[k])
    ensures StripStart(f, s) == ""
    decreases |s|
  {
    if s != [] {
      StripStartAllSpace(f, s[1..]);
    }
  }

  /** A string made only of white space strips to the empty string. */
  lemma StripAllSpace(f: Flavor, s: string)
    requires forall k :: 0 <= k < |s| ==> IsSpace(f, s[k])
    ensures Strip(f, s) == ""
  {
    StripStartAllSpace(f, s);
  }

  // ---------------------------------------------------------------- case

  /** ASCII `A`-`Z` to lower case; every other character is kept. */
  function LowerChar(c: char): char {
    if 'A' <= c <= 'Z' then (c as int + 32) as char else c
  }

  /** `s.lower()` / `s.toLowerCase()`, restricted to ASCII letters. */
  function Lower(s: string): (r: string)
    ensures |r| == |s|
    ensures forall i :: 0 <= i < |s| ==> r[i] == LowerChar(s[i])
  {
    seq(|s|, i requires 0 <= i < |s| => LowerChar(s[i]))
  }

  lemma LowerIdempotent(s: string)
    ensures Lower(Lower(s)) == Lower(s)
  {
  }

  lemma LowerCharKeepsSpace(f: Flavor, c: char)
    ensures IsSpace(f, LowerChar(c)) <==> IsSpace(f, c)
  {
  }

  lemma StripStartNoLead(f: Flavor, s: string)
    requires s != [] && !IsSpace(f, s[0])
    ensures StripStart(f, s) == s
  {
  }

  lemma {:induction false} LowerStripStart(f: Flavor, s: string)
    ensures StripStart(f, Lower(s)) == Lower(StripStart(f, s))
    decreases |s|
  {
    if s != [] {
      LowerCharKeepsSpace(f, s[0]);
      assert Lower(s)[0] == LowerChar(s[0]);
      if IsSpace(f, s[0]) {
        assert Lower(s)[1..] == Lower(s[1..]);
        LowerStripStart(f, s[1..]);
      } else {
        StripStartNoLead(f, s);
        StripStartNoLead(f, Lower(s));
      }
    }
  }

  lemma {:induction false} LowerStripEnd(f: Flavor, s: string)
    ensures StripEnd(f, Lower(s)) == Lower(StripEnd(f, s))
    decreases |s|
  {
    if s != [] {
      LowerCharKeepsSpace(f, s[|s| - 1]);
      if IsSpace(f, s[|s| - 1]) {
        assert Lower(s)[..|s| - 1] == Lower(s[..|s| - 1]);
        LowerStripEnd(f, s[..|s| - 1]);
      }
    }
  }

  /** Lower-casing and stripping commute. */
  lemma LowerStripCommute(f: Flavor, s: string)
    ensures Strip(f, Lower(s)) == Lower(Strip(f, s))
  {
    LowerStripStart(f, s);
    LowerStripEnd(f, StripStart(f, s));
  }

  // ---------------------------------------------------------------- search

  predicate StartsWith(s: string, prefix: string) {
    |prefix| <= |s| && s[..|prefix|] == prefix
  }

  /** `t` occurs in `s` starting at position `i`. */
  predicate OccursAt(s: string, t: string, i: int) {
    0 <= i && i + |t| <= |s| && s[i..i + |t|] == t
  }

  /** Python `t in s` for strings, JavaScript `s.includes(t)`. */
  predicate Contains(s: string, t: string)
    decreases |s|
  {
    StartsWith(s, t) || (s != [] && Contains(s[1..], t))
  }

  lemma {:induction false} ContainsIff(s: string, t: string)
    ensures Contains(s, t) <==> exists i :: OccursAt(s, t, i)
    decreases |s|
  {
    if StartsWith(s, t) {
      assert OccursAt(s, t, 0);
    } else if s == [] {
      assert forall i :: OccursAt(s, t, i) ==> i == 0 && |t| == 0;
    } else {
      ContainsIff(s[1..], t);
      if exists i :: OccursAt(s[1..], t, i) {
        var i :| OccursAt(s[1..], t, i);
        assert s[1..][i..i + |t|] == s[i + 1..i + 1 + |t|];
        assert OccursAt(s, t, i + 1);
      }
      if exists i :: OccursAt(s, t, i) {
        var i :| OccursAt(s, t, i);
        if i == 0 {
          assert false;
        } else {
          assert s[1..][i - 1..i - 1 + |t|] == s[i..i + |t|];
          assert OccursAt(s[1..], t, i - 1);
        }
      }
    }
  }

  lemma ContainsEmpty(s: string)
    ensures Contains(s, "")
  {
  }

  // ---------------------------------------------------------------- split and join

  /** Python `sep.join(parts)` / JavaScript `parts.join(sep)`. */
  function Join(parts: seq<string>, sep: string): string
  {
    if |parts| == 0 then ""
    else if |parts| == 1 then parts[0]
    else parts[0] + sep + Join(parts[1..], sep)
  }

  /**
    Python `s.split(c)` / JavaScript `s.split(c)` for a one-character
    separator: always at least one part, and no part holds the separator.
   */
  function Split(s: string, c: char): (r: seq<string>)
    ensures |r| >= 1
    ensures forall i :: 0 <= i < |r| ==> c !in r[i]
  {
    if s == [] then [""]
    else
      var rest := Split(s[1..], c);
      if s[0] == c then [""] + rest
      else [[s[0]] + rest[0]] + rest[1..]
  }

  lemma {:induction false} SplitJoin(s: string, c: char)
    ensures Join(Split(s, c), [c]) == s
    decreases |s|
  {
    if s != [] {
      var rest := Split(s[1..], c);
      SplitJoin(s[1..], c);
      if s[0] == c {
        assert Split(s, c) == [""] + rest;
        assert s == [c] + s[1..];
      } else {
        var r := Split(s, c);
        assert r == [[s[0]] + rest[0]] + rest[1..];
        if |rest| == 1 {
          assert Join(r, [c]) == [s[0]] + rest[0];
        } else {
          assert r[1..] == rest[1..];
          assert Join(rest, [c]) == rest[0] + [c] + Join(rest[1..], [c]);
          assert Join(r, [c]) == [s[0]] + rest[0] + [c] + Join(rest[1..], [c]);
        }
        assert s == [s[0]] + s[1..];
      }
    }
  }

  lemma {:induction false} SplitPrefix(p: string, t: string, c: char)
    requires c !in p
    ensures Split(p + t, c) == [p + Split(t, c)[0]] + Split(t, c)[1..]
    decreases |p|
  {
    if p != [] {
      assert (p + t)[1..] == p[1..] + t;
      assert (p + t)[0] == p[0];
      SplitPrefix(p[1..], t, c);
      assert [p[0]] + (p[1..] + Split(t, c)[0]) == p + Split(t, c)[0];
    } else {
      assert p + t == t;
      var r := Split(t, c);
      assert p + r[0] == r[0];
      assert [r[0]] + r[1..] == r;
    }
  }

  lemma {:induction false} JoinSplit(parts: seq<string>, c: char)
    requires |parts| >= 1
    requires forall i :: 0 <= i < |parts| ==> c !in parts[i]
    ensures Split(Join(parts, [c]), c) == parts
    decreases |parts|
  {
    if |parts| == 1 {
      SplitPrefix(parts[0], "", c);
      assert parts[0] + "" == parts[0];
    } else {
      var tail := Join(parts[1..], [c]);
      JoinSplit(parts[1..], c);
      assert Join(parts, [c]) == parts[0] + ([c] + tail);
      SplitPrefix(parts[0], [c] + tail, c);
      assert ([c] + tail)[1..] == tail;
      assert Split([c] + tail, c) == [""] + parts[1..];
      assert parts[0] + "" == parts[0];
      assert [parts[0]] + parts[1..] == parts;
    }
  }

  // ---------------------------------------------------------------- digits

  predicate IsDigit(c: char) {
    '0' <= c <= '9'
  }

  /** JavaScript `/^\d+$/` (and Python `isdigit()` restricted to ASCII). */
  predicate AllDigits(s: string) {
    |s| > 0 && forall i :: 0 <= i < |s| ==> IsDigit(s[i])
  }

  /** Python `int(s)` for a string of ASCII digits. */
  function DigitsValue(s: string): nat
    requires forall i :: 0 <= i < |s| ==> IsDigit(s[i])
  {
    if s == [] then 0
    else
      assert IsDigit(s[|s| - 1]);
      10 * DigitsValue(s[..|s| - 1]) + (s[|s| - 1] as int - '0' as int)
  }

  function DigitChar(d: nat): char
    requires d < 10
  {
    ('0' as int + d) as char
  }

  /** Decimal rendering of a natural number, no leading zeros. */
  function NatToString(n: nat): string
  {
    if n < 10 then [DigitChar(n)] else NatToString(n / 10) + [DigitChar(n % 10)]
  }

  /** Decimal rendering of an integer: `String(i)` in JavaScript, `str(i)` in Python. */
  function IntToString(i: int): string
  {
    if i < 0 then "-" + NatToString(-i) else NatToString(i)
  }

  /** Decimal rendering is read back by `DigitsValue`. */
  lemma {:induction false} NatToStringRoundTrip(n: nat)
    ensures AllDigits(NatToString(n))
    ensures DigitsValue(NatToString(n)) == n
    decreases n
  {
    if n >= 10 {
      NatToStringRoundTrip(n / 10);
      var s := NatToString(n);
      assert s[..|s| - 1] == NatToString(n / 10);
    }
  }

  /** Different numbers render differently. */
  lemma NatToStringInjective(m: nat, n: nat)
    requires NatToString(m) == NatToString(n)
    ensures m == n
  {
    NatToStringRoundTrip(m);
    NatToStringRoundTrip(n);
  }

  // ---------------------------------------------------------------- slicing

  /** Python `s[:n]`: a negative `n` counts from the end. */
  function PySliceTo(s: string, n: int): (r: string)
    ensures |r| <= |s| && r == s[..|r|]
    ensures n >= 0 ==> |r| == if n < |s| then n else |s|
    ensures n < 0 ==> |r| == if |s| + n > 0 then |s| + n else 0
  {
    if n >= 0 then (if n < |s| then s[..n] else s)
    else (if |s| + n > 0 then s[..|s| + n] else "")
  }

  /** JavaScript `s.substr(0, n)` / `s.substring(0, n)` for `n >= 0`. */
  function Prefix(s: string, n: nat): (r: string)
    ensures |r| <= |s| && r == s[..|r|]
    ensures |r| == if n < |s| then n else |s|
  {
    if n < |s| then s[..n] else s
  }

  /** Every occurrence of character `a` replaced by `b` (Python `str.replace`). */
  function ReplaceChar(s: string, a: char, b: char): (r: string)
    ensures |r| == |s|
    ensures a != b ==> a !in r
    ensures forall i :: 0 <= i < |s| ==> r[i] == (if s[i] == a then b else s[i])
  {
    seq(|s|, i requires 0 <= i < |s| => if s[i] == a then b else s[i])
  }
}

=== FILE: tei_header.dfy ===
/**
  The post-processing `parse_tei_header` (PB_Assistant/apps/textprocessing/
  grobid/parser.py) applies to a GROBID TEI header once lxml has parsed it
  and its XPath queries have picked out the nodes. The tree is abstract:
  an element carries its attributes (keyed as lxml keys them), its leading
  text, its children and its tail; each query's answer is an input.
 */
module TeiHeader {
  import opened Base
  import opened Strings
  import opened PaperData

  datatype Element = Element(attrs: map<string, string>, text: Option<string>, children: seq<Element>, tail: Option<string>)

  /** `node.itertext()`: the element's text, then each child's text and tail, in document order. */
  function IterText(e: Element): seq<string>
    decreases e, 1
  {
    (if e.text.Some? then [e.text.value] else []) + ChildrenText(e.children)
  }

  function ChildrenText(cs: seq<Element>): seq<string>
    decreases cs, 0
  {
    if cs == [] then []
    else IterText(cs[0]) + (if cs[0].tail.Some? then [cs[0].tail.value] else []) + ChildrenText(cs[1..])
  }

  /** `_text`: the element's texts joined by spaces and stripped; `None` for no element or no text. */
  function Text(node: Option<Element>): (r: Option<string>)
    ensures node.None? ==> r.None?
    ensures r.Some? ==> r.value != "" && Trimmed(Python, r.value)
  {
    match node
    case None => None
    case Some(e) =>
      var txt := Strip(Python, Join(IterText(e), " "));
      if txt == "" then None else Some(txt)
  }

  /** A leaf with trimmed, non-empty text reads back as that text; white space alone reads as nothing. */
  lemma TextOfLeaf(attrs: map<string, string>, t: string, tail: Option<string>)
    ensures Trimmed(Python, t) && t != "" ==> Text(Some(Element(attrs, Some(t), [], tail))) == Some(t)
    ensures (forall i :: 0 <= i < |t| ==> IsSpace(Python, t[i])) ==> Text(Some(Element(attrs, Some(t), [], tail))) == None
  {
    var e := Element(attrs, Some(t), [], tail);
    assert IterText(e) == [t];
    if Trimmed(Python, t) && t != "" {
      StripKeepsTrimmed(Python, t);
    }
    if forall i :: 0 <= i < |t| ==> IsSpace(Python, t[i]) {
      StripAllSpace(Python, t);
    }
  }

  /** `(node.get(name) or default)`: a missing or empty attribute gives the default. */
  function AttrOr(e: Element, name: string, default: string): string {
    if name in e.attrs && e.attrs[name] != "" then e.attrs[name] else default
  }

  /** `(node.text or "").strip()`. */
  function OwnText(e: Element): (r: string)
    ensures Trimmed(Python, r)
  {
    Strip(Python, e.text.GetOr(""))
  }

  // ---------------------------------------------------------------- identifiers

  /** An `idno`'s key: its lower-cased `type`, "other" when it has none. */
  function IdType(e: Element): (r: string)
    ensures Lower(r) == r
  {
    LowerIdempotent(AttrOr(e, "type", "other"));
    Lower(AttrOr(e, "type", "other"))
  }

  /** The `idno` has a value once stripped. */
  function HasOwnText(e: Element): bool {
    OwnText(e) != ""
  }

  /**
    The identifiers map, built by walking the `idno`s in document order:
    an empty value is skipped, and a later value of the same type replaces
    an earlier one.
   */
  function Identifiers(idnos: seq<Element>): map<string, string> {
    LastWins(idnos, HasOwnText, IdType, OwnText)
  }

  /** Keys are lower case; values are stripped and never empty. */
  lemma IdentifierValues(idnos: seq<Element>)
    ensures forall k :: k in Identifiers(idnos) ==> Identifiers(idnos)[k] != "" && Trimmed(Python, Identifiers(idnos)[k]) && Lower(k) == k
  {
    forall k | k in Identifiers(idnos)
      ensures Identifiers(idnos)[k] != "" && Trimmed(Python, Identifiers(idnos)[k]) && Lower(k) == k
    {
      var i := LastWinsFrom(idnos, HasOwnText, IdType, OwnText, k);
    }
  }

  /** The `idno` carries a value and has type `k`. */
  predicate Valued(e: Element, k: string) {
    HasOwnText(e) && IdType(e) == k
  }

  /** A type is a key exactly when some `idno` of that type has a value. */
  lemma IdentifierKeys(idnos: seq<Element>, k: string)
    ensures k in Identifiers(idnos) <==> exists i :: 0 <= i < |idnos| && Valued(idnos[i], k)
  {
    LastWinsKeys(idnos, HasOwnText, IdType, OwnText, k);
  }

  /** The value kept for a type is that of the last `idno` of the type that has one. */
  lemma IdentifierLastWins(idnos: seq<Element>, i: nat)
    requires i < |idnos| && OwnText(idnos[i]) != ""
    requires forall j :: i < j < |idnos| ==> IdType(idnos[j]) != IdType(idnos[i]) || OwnText(idnos[j]) == ""
    ensures IdType(idnos[i]) in Identifiers(idnos)
    ensures Identifiers(idnos)[IdType(idnos[i])] == OwnText(idnos[i])
  {
    LastWinsValue(idnos, HasOwnText, IdType, OwnText, i);
  }

  // ---------------------------------------------------------------- keywords and year

  function NonEmpty(s: string): bool {
    s != ""
  }

  /** The keyword terms: each term's own text stripped, empty ones dropped, in document order. */
  function Keywords(terms: seq<Element>): (r: seq<string>)
    ensures |r| <= |terms|
    ensures forall k :: 0 <= k < |r| ==> r[k] != "" && Trimmed(Python, r[k])
  {
    Filter(Map(terms, OwnText), NonEmpty)
  }

  /** Keywords of consecutive term lists are the keywords of each, one after the other. */
  lemma KeywordsAppend(a: seq<Element>, b: seq<Element>)
    ensures Keywords(a + b) == Keywords(a) + Keywords(b)
  {
    MapAppend(a, b, OwnText);
    FilterAppend(Map(a, OwnText), Map(b, OwnText), NonEmpty);
  }

  /** The date string read for the year: the `when` attribute, else the element's stripped text. */
  function DateString(d: Element): string {
    AttrOr(d, "when", OwnText(d))
  }

  /**
    The publication year: the integer of the date string's first four
    characters when they are all digits.
   */
  function PublicationYear(date: Option<Element>): (r: Option<int>)
    ensures date.None? ==> r.None?
    ensures date.Some? && DateString(date.value) == "" ==> r.None?
    ensures r.Some? ==> 0 <= r.value <= 9999
  {
    match date
    case None => None
    case Some(d) =>
      var when := DateString(d);
      var head := PySliceTo(when, 4);
      if when != "" && AllDigits(head) then
        DigitsBound(head);
        Some(DigitsValue(head))
      else None
  }

  lemma {:induction false} DigitsBound(s: string)
    requires forall i :: 0 <= i < |s| ==> IsDigit(s[i])
    requires |s| <= 4
    ensures DigitsValue(s) < 10000
    ensures |s| <= 3 ==> DigitsValue(s) < 1000
    ensures |s| <= 2 ==> DigitsValue(s) < 100
    ensures |s| <= 1 ==> DigitsValue(s) < 10
    decreases |s|
  {
    if s != [] {
      DigitsBound(s[..|s| - 1]);
    }
  }

  lemma FourDigits(y: nat)
    requires 1000 <= y <= 9999
    ensures |NatToString(y)| == 4
  {
    assert NatToString(y) == NatToString(y / 10) + [DigitChar(y % 10)];
    assert NatToString(y / 10) == NatToString(y / 100) + [DigitChar((y / 10) % 10)];
    assert NatToString(y / 100) == NatToString(y / 1000) + [DigitChar((y / 100) % 10)];
  }

  /** A date written `YYYY...` with a four-digit year gives that year back. */
  lemma YearOfIsoDate(y: nat, rest: string, attrs: map<string, string>, d: Element)
    requires 1000 <= y <= 9999
    requires d.attrs == attrs && "when" in attrs && attrs["when"] == NatToString(y) + rest
    ensures PublicationYear(Some(d)) == Some(y)
  {
    FourDigits(y);
    NatToStringRoundTrip(y);
    var when := NatToString(y) + rest;
    assert when[..4] == NatToString(y);
    assert PySliceTo(when, 4) == NatToString(y);
  }

  /** With no `when`, or an empty one, the year is read from the element's stripped text. */
  lemma YearOfDateText(y: nat, rest: string, d: Element)
    requires 1000 <= y <= 9999
    requires "when" !in d.attrs || d.attrs["when"] == ""
    requires OwnText(d) == NatToString(y) + rest
    ensures PublicationYear(Some(d)) == Some(y)
  {
    FourDigits(y);
    NatToStringRoundTrip(y);
    var when := NatToString(y) + rest;
    assert DateString(d) == when;
    assert when[..4] == NatToString(y);
    assert PySliceTo(when, 4) == NatToString(y);
  }

  /** A character that is not a digit among the first four of the date string means no year. */
  lemma NoYearWithoutDigits(d: Element, i: nat)
    requires i < 4 && i < |DateString(d)| && !IsDigit(DateString(d)[i])
    ensures PublicationYear(Some(d)) == None
  {
    assert PySliceTo(DateString(d), 4)[i] == DateString(d)[i];
  }

  // ---------------------------------------------------------------- organisations and authors

  /** The affiliation dictionary `{name, country}`. */
  datatype Aff = Aff(name: Option<string>, country: Option<string>)

  /** An `org` element: its attributes and the `orgName` and `country` found under it. */
  datatype OrgNode = OrgNode(element: Element, orgName: Option<Element>, country: Option<Element>)

  /** The key lxml gives the `xml:id` attribute: the XML namespace's URI in braces, then `id`. */
  const XmlIdKey := "{http://www.w3.org/XML/1998/namespace}id"

  /**
    Attribute keys as lxml reports them: a plain name, or `{uri}name` for a
    name in a namespace, so never a prefixed `p:name`.
   */
  predicate LxmlKeys(e: Element) {
    forall k :: k in e.attrs ==> (|k| > 0 && k[0] == '{') || ':' !in k
  }

  /** The org's id as written: `org.get("xml:id") or org.get("id")`. */
  function OrgIdAsWritten(o: OrgNode): string {
    AttrOr(o.element, "xml:id", AttrOr(o.element, "id", ""))
  }

  /** The org's id read the way the lookup evidently means: its `xml:id`, else its `id`. */
  function OrgId(o: OrgNode): string {
    AttrOr(o.element, XmlIdKey, AttrOr(o.element, "id", ""))
  }

  /** `f"#{org_id}"`: the form an affiliation's `ref` takes. */
  function OrgKey(id: string): string {
    "#" + id
  }

  lemma OrgKeyInjective(a: string, b: string)
    ensures OrgKey(a) == OrgKey(b) ==> a == b
  {
    if OrgKey(a) == OrgKey(b) {
      assert a == OrgKey(a)[1..];
      assert b == OrgKey(b)[1..];
    }
  }

  function OrgAff(o: OrgNode): Aff {
    Aff(Text(o.orgName), Text(o.country))
  }

  function HasOrgIdAsWritten(o: OrgNode): bool {
    OrgIdAsWritten(o) != ""
  }

  function OrgRefAsWritten(o: OrgNode): string {
    OrgKey(OrgIdAsWritten(o))
  }

  /** The org map as written: keyed "#" + id, orgs without an id skipped, a later org replacing an earlier one. */
  function OrgMapAsWritten(orgs: seq<OrgNode>): map<string, Aff> {
    LastWins(orgs, HasOrgIdAsWritten, OrgRefAsWritten, OrgAff)
  }

  function HasOrgId(o: OrgNode): bool {
    OrgId(o) != ""
  }

  /** The `ref` an affiliation uses to name the org. */
  function OrgRef(o: OrgNode): string {
    OrgKey(OrgId(o))
  }

  /** The org map, with the `xml:id` looked up under the key lxml uses. */
  function OrgMap(orgs: seq<OrgNode>): map<string, Aff> {
    LastWins(orgs, HasOrgId, OrgRef, OrgAff)
  }

  /**
    As written, an org identified only by `xml:id` never enters the map:
    lxml never reports an attribute under the prefixed name.
   */
  lemma XmlIdOrgsNotMapped(orgs: seq<OrgNode>)
    requires forall i :: 0 <= i < |orgs| ==> LxmlKeys(orgs[i].element) && "id" !in orgs[i].element.attrs
    ensures OrgMapAsWritten(orgs) == map[]
  {
    forall k | k in OrgMapAsWritten(orgs)
      ensures false
    {
      var i := LastWinsFrom(orgs, HasOrgIdAsWritten, OrgRefAsWritten, OrgAff, k);
    }
  }

  /** Every key of either map is a `ref`: "#" followed by a non-empty id. */
  lemma OrgMapKeys(orgs: seq<OrgNode>)
    ensures forall k :: k in OrgMapAsWritten(orgs) ==> |k| > 1 && k[0] == '#'
    ensures forall k :: k in OrgMap(orgs) ==> |k| > 1 && k[0] == '#'
  {
    forall k | k in OrgMapAsWritten(orgs)
      ensures |k| > 1 && k[0] == '#'
    {
      var i := LastWinsFrom(orgs, HasOrgIdAsWritten, OrgRefAsWritten, OrgAff, k);
    }
    forall k | k in OrgMap(orgs)
      ensures |k| > 1 && k[0] == '#'
    {
      var i := LastWinsFrom(orgs, HasOrgId, OrgRef, OrgAff, k);
    }
  }

  /** Every org with an id is in the map under "#" + id, with the details of the last org of that id. */
  lemma OrgMapResolves(orgs: seq<OrgNode>, i: nat)
    requires i < |orgs| && OrgId(orgs[i]) != ""
    requires forall j :: i < j < |orgs| ==> OrgId(orgs[j]) != OrgId(orgs[i])
    ensures OrgKey(OrgId(orgs[i])) in OrgMap(orgs)
    ensures OrgMap(orgs)[OrgKey(OrgId(orgs[i]))] == OrgAff(orgs[i])
  {
    forall j | i < j < |orgs| && HasOrgId(orgs[j])
      ensures OrgRef(orgs[j]) != OrgRef(orgs[i])
    {
      OrgKeyInjective(OrgId(orgs[j]), OrgId(orgs[i]));
    }
    LastWinsValue(orgs, HasOrgId, OrgRef, OrgAff, i);
  }

  /** An `affiliation` under an author: its `ref` and the `orgName` and `country` found under it. */
  datatype AffNode = AffNode(ref: Option<string>, orgName: Option<Element>, country: Option<Element>)

  /** A `ref` naming a known org takes that org's details; otherwise the inline ones are used. */
  function ResolveAffiliation(a: AffNode, orgs: map<string, Aff>): (r: Aff)
    ensures Present(a.ref) && a.ref.value in orgs ==> r == orgs[a.ref.value]
    ensures !(Present(a.ref) && a.ref.value in orgs) ==> r == Aff(Text(a.orgName), Text(a.country))
  {
    if Present(a.ref) && a.ref.value in orgs then orgs[a.ref.value] else Aff(Text(a.orgName), Text(a.country))
  }

  /** A `persName`: the element itself and its `forename` and `surname` children. */
  datatype PersNode = PersNode(element: Element, forename: Option<Element>, surname: Option<Element>)

  /** An `author`: its `persName` (if any), `email`, `idno`s and `affiliation`s. */
  datatype AuthorNode = AuthorNode(pers: Option<PersNode>, email: Option<Element>, idnos: seq<Element>, affiliations: seq<AffNode>)

  /** `ParsedAuthor`. */
  datatype ParsedAuthor = ParsedAuthor(
    name: string,
    surnameInitials: Option<string>,
    email: Option<string>,
    orcid: Option<string>,
    affiliations: Option<seq<Aff>>)

  /**
    The display name: `" ".join` of the forename and surname that have
    text (`_text` never gives an empty string, so the comprehension keeps
    exactly the present ones); failing both, the whole `persName` text;
    failing that, "Unknown".
   */
  function AuthorName(p: PersNode): (r: string)
    ensures r != ""
  {
    var f, s := Text(p.forename), Text(p.surname);
    var joined :=
      if f.Some? && s.Some? then f.value + " " + s.value
      else if f.Some? then f.value
      else if s.Some? then s.value
      else "";
    var full := if joined != "" then Some(joined) else Text(Some(p.element));
    if full.Some? && full.value != "" then full.value else "Unknown"
  }

  /** A leaf element holding just `t`. */
  function Leaf(t: string): Element {
    Element(map[], Some(t), [], None)
  }

  /** A `persName` with forename and surname leaves reads "forename surname". */
  lemma AuthorNameOfBoth(whole: Element, first: string, last: string)
    requires first != "" && Trimmed(Python, first) && last != "" && Trimmed(Python, last)
    ensures AuthorName(PersNode(whole, Some(Leaf(first)), Some(Leaf(last)))) == first + " " + last
  {
    TextOfLeaf(map[], first, None);
    TextOfLeaf(map[], last, None);
    assert Text(Some(Leaf(first))) == Some(first);
    assert Text(Some(Leaf(last))) == Some(last);
    assert first + " " + last != "";
  }

  /** With only a forename leaf, the forename alone. */
  lemma AuthorNameOfForename(whole: Element, first: string)
    requires first != "" && Trimmed(Python, first)
    ensures AuthorName(PersNode(whole, Some(Leaf(first)), None)) == first
  {
    TextOfLeaf(map[], first, None);
    var f := Text(Some(Leaf(first)));
    assert f == Some(first);
    assert Text(None) == None;
  }

  /** With neither, the whole `persName` text, or "Unknown" when it has none. */
  lemma AuthorNameOfWhole(whole: Element)
    ensures AuthorName(PersNode(whole, None, None)) == Text(Some(whole)).GetOr("Unknown")
  {
    assert Text(None) == None;
  }

  /** Whether an `idno` is an ORCID: its `type`, lower-cased, is "orcid". */
  predicate IsOrcid(e: Element) {
    Lower(AttrOr(e, "type", "")) == "orcid"
  }

  /** The first ORCID `idno`'s own text, stripped (possibly empty); `None` when there is none. */
  function Orcid(idnos: seq<Element>): (r: Option<string>)
    ensures r.None? <==> forall i :: 0 <= i < |idnos| ==> !IsOrcid(idnos[i])
  {
    if idnos == [] then None
    else if IsOrcid(idnos[0]) then Some(OwnText(idnos[0]))
    else Orcid(idnos[1..])
  }

  /** The ORCID is the one of the first `idno` that is one; later ones are ignored. */
  lemma {:induction false} OrcidIsFirst(idnos: seq<Element>, i: nat)
    requires i < |idnos| && IsOrcid(idnos[i])
    requires forall j :: 0 <= j < i ==> !IsOrcid(idnos[j])
    ensures Orcid(idnos) == Some(OwnText(idnos[i]))
    decreases i
  {
    if i > 0 {
      OrcidIsFirst(idnos[1..], i - 1);
    }
  }

  /** An author with no `persName` is dropped; any other becomes a `ParsedAuthor`. */
  function ParseAuthor(a: AuthorNode, orgs: map<string, Aff>): (r: Option<ParsedAuthor>)
    ensures r.Some? <==> a.pers.Some?
    ensures r.Some? ==> r.value.name == AuthorName(a.pers.value) && r.value.orcid == Orcid(a.idnos)
    ensures r.Some? ==> r.value.affiliations.Some? && |r.value.affiliations.value| == |a.affiliations|
  {
    match a.pers
    case None => None
    case Some(p) =>
      var affs := seq(|a.affiliations|, i requires 0 <= i < |a.affiliations| => ResolveAffiliation(a.affiliations[i], orgs));
      Some(ParsedAuthor(AuthorName(p), None, Text(a.email), Orcid(a.idnos), Some(affs)))
  }

  predicate HasPers(a: AuthorNode) {
    a.pers.Some?
  }

  /**
    The authors with a `persName`, each parsed, in document order; the
    others are dropped.
   */
  function ParseAuthors(authors: seq<AuthorNode>, orgs: map<string, Aff>): (r: seq<ParsedAuthor>)
    ensures |r| <= |authors|
    ensures (forall i :: 0 <= i < |authors| ==> authors[i].pers.Some?) ==> |r| == |authors|
    ensures |r| == |Filter(authors, HasPers)|
  {
    if authors == [] then []
    else
      var rest := ParseAuthors(authors[1..], orgs);
      var head := ParseAuthor(authors[0], orgs);
      assert [authors[0]] + authors[1..] == authors;
      FilterCons(authors[0], authors[1..], HasPers);
      assert head.Some? <==> HasPers(authors[0]);
      if head.Some? then [head.value] + rest else rest
  }

  /** Parsing a list built at its front. */
  lemma ParseAuthorsCons(a: AuthorNode, rest: seq<AuthorNode>, orgs: map<string, Aff>)
    ensures ParseAuthors([a] + rest, orgs) ==
      (if HasPers(a) then [ParseAuthor(a, orgs).value] else []) + ParseAuthors(rest, orgs)
  {
    assert ([a] + rest)[1..] == rest;
  }

  /**
    The parsed authors are exactly the authors with a `persName`, each
    parsed, in document order.
   */
  lemma {:induction false} ParseAuthorsKeepsPersons(authors: seq<AuthorNode>, orgs: map<string, Aff>)
    ensures var r := ParseAuthors(authors, orgs);
      |r| == |Filter(authors, HasPers)| &&
      forall i :: 0 <= i < |r| ==> ParseAuthor(Filter(authors, HasPers)[i], orgs) == Some(r[i])
    decreases |authors|
  {
    if authors != [] {
      var a, tail := authors[0], authors[1..];
      assert authors == [a] + tail;
      ParseAuthorsKeepsPersons(tail, orgs);
      ParseAuthorsCons(a, tail, orgs);
      FilterCons(a, tail, HasPers);
      var rest := ParseAuthors(tail, orgs);
      var kept := Filter(tail, HasPers);
      var r := ParseAuthors(authors, orgs);
      var fs := Filter(authors, HasPers);
      if HasPers(a) {
        assert r == [ParseAuthor(a, orgs).value] + rest;
        assert fs == [a] + kept;
        forall i | 0 <= i < |r|
          ensures ParseAuthor(fs[i], orgs) == Some(r[i])
        {
          if i > 0 {
            assert fs[i] == kept[i - 1];
            assert r[i] == rest[i - 1];
          }
        }
      } else {
        assert r == rest;
        assert fs == kept;
      }
    }
  }

  // ---------------------------------------------------------------- the header

  /** The answers of the XPath queries `parse_tei_header` runs. */
  datatype HeaderNodes = HeaderNodes(
    title: Option<Element>,
    idnos: seq<Element>,
    summary: Option<Element>,
    terms: seq<Element>,
    date: Option<Element>,
    journal: Option<Element>,
    publisher: Option<Element>,
    orgs: seq<OrgNode>,
    authors: seq<AuthorNode>)

  /** `ParsedHeader`. */
  datatype ParsedHeader = ParsedHeader(
    title: Option<string>,
    doi: Option<string>,
    summary: Option<string>,
    publicationYear: Option<int>,
    journal: Option<string>,
    publisher: Option<string>,
    keywords: seq<string>,
    identifiers: map<string, string>,
    authors: seq<ParsedAuthor>,
    rawMeta: RawMeta)

  /** The header's fields, with the affiliations resolved through `orgs`. */
  function HeaderWith(h: HeaderNodes, orgs: map<string, Aff>): (r: ParsedHeader)
    ensures r.doi.Some? <==> "doi" in r.identifiers
    ensures r.doi.Some? ==> r.doi.value == r.identifiers["doi"]
    ensures r.rawMeta == RawMeta(r.keywords, r.identifiers, r.journal, r.publisher, r.summary)
    ensures r.publicationYear.Some? ==> 0 <= r.publicationYear.value <= 9999
  {
    var identifiers := Identifiers(h.idnos);
    var summary := Text(h.summary);
    var keywords := Keywords(h.terms);
    var journal := Text(h.journal);
    var publisher := Text(h.publisher);
    ParsedHeader(
      Text(h.title),
      if "doi" in identifiers then Some(identifiers["doi"]) else None,
      summary,
      PublicationYear(h.date),
      journal,
      publisher,
      keywords,
      identifiers,
      ParseAuthors(h.authors, orgs),
      RawMeta(keywords, identifiers, journal, publisher, summary))
  }

  /**
    `parse_tei_header`, with the org map as written: the DOI is the
    identifiers' "doi" entry, the raw metadata repeats the fields, the year
    has at most four digits, and the authors are parsed against
    `OrgMapAsWritten`.
   */
  function ParseTeiHeader(h: HeaderNodes): (r: ParsedHeader)
    ensures r.doi.Some? <==> "doi" in r.identifiers
    ensures r.doi.Some? ==> r.doi.value == r.identifiers["doi"]
    ensures r.rawMeta == RawMeta(r.keywords, r.identifiers, r.journal, r.publisher, r.summary)
    ensures r.publicationYear.Some? ==> 0 <= r.publicationYear.value <= 9999
    ensures r.authors == ParseAuthors(h.authors, OrgMapAsWritten(h.orgs))
  {
    HeaderWith(h, OrgMapAsWritten(h.orgs))
  }

  /** The header with orgs keyed by their `xml:id`: it differs from the source's only in the authors. */
  function ParseTeiHeaderCorrected(h: HeaderNodes): (r: ParsedHeader)
    ensures r.(authors := []) == ParseTeiHeader(h).(authors := [])
    ensures r.authors == ParseAuthors(h.authors, OrgMap(h.orgs))
  {
    HeaderWith(h, OrgMap(h.orgs))
  }

  /**
    An affiliation whose `ref` names an org identified by `xml:id` falls
    back, as written, to its own inline name and country; with the
    corrected map it takes the org's.
   */
  lemma XmlIdAffiliationFallsBack(orgs: seq<OrgNode>, i: nat, a: AffNode)
    requires forall j :: 0 <= j < |orgs| ==> LxmlKeys(orgs[j].element) && "id" !in orgs[j].element.attrs
    requires i < |orgs| && OrgId(orgs[i]) != ""
    requires forall j :: i < j < |orgs| ==> OrgId(orgs[j]) != OrgId(orgs[i])
    requires a.ref == Some(OrgKey(OrgId(orgs[i])))
    ensures ResolveAffiliation(a, OrgMapAsWritten(orgs)) == Aff(Text(a.orgName), Text(a.country))
    ensures ResolveAffiliation(a, OrgMap(orgs)) == OrgAff(orgs[i])
  {
    XmlIdOrgsNotMapped(orgs);
    OrgMapResolves(orgs, i);
    assert OrgKey(OrgId(orgs[i])) != "";
  }

  /** The header's DOI is the last non-empty `idno` typed "doi" (in any case). */
  lemma HeaderDoiIsLastDoiIdno(h: HeaderNodes, i: nat)
    requires i < |h.idnos| && IdType(h.idnos[i]) == "doi" && OwnText(h.idnos[i]) != ""
    requires forall j :: i < j < |h.idnos| ==> IdType(h.idnos[j]) != "doi" || OwnText(h.idnos[j]) == ""
    ensures ParseTeiHeader(h).doi == Some(OwnText(h.idnos[i]))
  {
    IdentifierLastWins(h.idnos, i);
  }
}

=== FILE: time_ago.dfy ===
/**
  `timeAgo` (main.utils.js): the relative age of a timestamp, in the
  largest unit whose rounded count has not spilled into the next bucket.
 */
module TimeAgo {
  import opened Base
  import opened Strings

  /** `Math.round` for the values that occur here: the nearest integer, halves rounded up. */
  function Round(x: real): int {
    (x + 0.5).Floor
  }

  lemma RoundMonotone(x: real, y: real)
    requires x <= y
    ensures Round(x) <= Round(y)
  {
  }

  /** The seven counts, each rounded from the previous one. */
  datatype Counts = Counts(seconds: int, minutes: int, hours: int, days: int, weeks: int, months: int, years: int)

  function CountsOf(elapsedMs: int): Counts {
    var seconds := Round(elapsedMs as real / 1000.0);
    var minutes := Round(seconds as real / 60.0);
    var hours := Round(minutes as real / 60.0);
    var days := Round(hours as real / 24.0);
    Counts(seconds, minutes, hours, days, Round(days as real / 7.0), Round(days as real / 30.44), Round(days as real / 365.25))
  }

  datatype Bucket = JustNow | Minutes(n: int) | Hours(n: int) | Days(n: int) | Weeks(n: int) | Months(n: int) | Years(n: int)

  /** The tests in order; the first that holds picks the unit. */
  function BucketOf(c: Counts): (b: Bucket)
    ensures b.JustNow? <==> c.seconds < 60
    ensures b.Minutes? <==> c.seconds >= 60 && c.minutes < 60
    ensures b.Hours? <==> c.seconds >= 60 && c.minutes >= 60 && c.hours < 24
    ensures b.Days? <==> c.seconds >= 60 && c.minutes >= 60 && c.hours >= 24 && c.days < 7
    ensures b.Weeks? <==> c.seconds >= 60 && c.minutes >= 60 && c.hours >= 24 && c.days >= 7 && c.weeks < 5
    ensures b.Months? <==> c.seconds >= 60 && c.minutes >= 60 && c.hours >= 24 && c.days >= 7 && c.weeks >= 5 && c.months < 12
    ensures b.Years? <==> c.seconds >= 60 && c.minutes >= 60 && c.hours >= 24 && c.days >= 7 && c.weeks >= 5 && c.months >= 12
    ensures b.Minutes? ==> b.n == c.minutes
    ensures b.Hours? ==> b.n == c.hours
    ensures b.Days? ==> b.n == c.days
    ensures b.Weeks? ==> b.n == c.weeks
    ensures b.Months? ==> b.n == c.months
    ensures b.Years? ==> b.n == c.years
  {
    if c.seconds < 60 then JustNow
    else if c.minutes < 60 then Minutes(c.minutes)
    else if c.hours < 24 then Hours(c.hours)
    else if c.days < 7 then Days(c.days)
    else if c.weeks < 5 then Weeks(c.weeks)
    else if c.months < 12 then Months(c.months)
    else Years(c.years)
  }

  function Rank(b: Bucket): nat {
    match b
    case JustNow => 0
    case Minutes(_) => 1
    case Hours(_) => 2
    case Days(_) => 3
    case Weeks(_) => 4
    case Months(_) => 5
    case Years(_) => 6
  }

  function Label(b: Bucket): string {
    match b
    case JustNow => "Just now"
    case Minutes(n) => IntToString(n) + "m ago"
    case Hours(n) => IntToString(n) + "h ago"
    case Days(n) => IntToString(n) + "d ago"
    case Weeks(n) => IntToString(n) + "w ago"
    case Months(n) => IntToString(n) + "mo ago"
    case Years(n) => IntToString(n) + "y ago"
  }

  /**
    The label for a timestamp `elapsedMs` milliseconds old; `None` is a
    timestamp `Date` cannot read, for which every count is `NaN`, every
    test fails and the text is `NaNy ago`.
   */
  function TimeAgo(elapsedMs: Option<int>): (r: string)
    ensures elapsedMs.None? ==> r == "NaNy ago"
    ensures elapsedMs.Some? ==> (r == "Just now" <==> CountsOf(elapsedMs.value).seconds < 60)
  {
    match elapsedMs
    case None => "NaNy ago"
    case Some(ms) =>
      var b := BucketOf(CountsOf(ms));
      assert b.Minutes? ==> Label(b)[|Label(b)| - 5..] == "m ago";
      assert b.Hours? ==> Label(b)[|Label(b)| - 5..] == "h ago";
      assert b.Days? ==> Label(b)[|Label(b)| - 5..] == "d ago";
      assert b.Weeks? ==> Label(b)[|Label(b)| - 5..] == "w ago";
      assert b.Months? ==> Label(b)[|Label(b)| - 5..] == "o ago";
      assert b.Years? ==> Label(b)[|Label(b)| - 5..] == "y ago";
      Label(b)
  }

  /** A timestamp in the future, or less than a minute old, is `Just now`. */
  lemma RecentIsJustNow(ms: int)
    requires ms < 59500
    ensures TimeAgo(Some(ms)) == "Just now"
  {
  }

  lemma CountsMonotone(a: int, b: int)
    requires a <= b
    ensures var x, y := CountsOf(a), CountsOf(b);
      x.seconds <= y.seconds && x.minutes <= y.minutes && x.hours <= y.hours && x.days <= y.days
      && x.weeks <= y.weeks && x.months <= y.months
  {
    var x, y := CountsOf(a), CountsOf(b);
    RoundMonotone(a as real / 1000.0, b as real / 1000.0);
    RoundMonotone(x.seconds as real / 60.0, y.seconds as real / 60.0);
    RoundMonotone(x.minutes as real / 60.0, y.minutes as real / 60.0);
    RoundMonotone(x.hours as real / 24.0, y.hours as real / 24.0);
    RoundMonotone(x.days as real / 7.0, y.days as real / 7.0);
    RoundMonotone(x.days as real / 30.44, y.days as real / 30.44);
  }

  /** An older timestamp never gets a smaller unit. */
  lemma BucketMonotone(a: int, b: int)
    requires a <= b
    ensures Rank(BucketOf(CountsOf(a))) <= Rank(BucketOf(CountsOf(b)))
  {
    CountsMonotone(a, b);
  }

  /** The count a label shows is at least 1 and stays below its unit's bound. */
  lemma CountInRange(ms: int)
    ensures var b := BucketOf(CountsOf(ms));
      !b.JustNow? ==> 1 <= b.n
    ensures var b := BucketOf(CountsOf(ms));
      (b.Minutes? ==> b.n < 60) && (b.Hours? ==> b.n < 24) && (b.Days? ==> b.n < 7)
      && (b.Weeks? ==> b.n < 5) && (b.Months? ==> b.n < 12)
  {
    var c := CountsOf(ms);
    if c.seconds >= 60 && c.minutes >= 60 && c.hours >= 24 && c.days >= 7 && c.weeks >= 5 && c.months >= 12 {
      assert c.days as real / 30.44 + 0.5 >= 12.0;
      assert c.days as real >= 350.0;
      assert c.days as real / 365.25 + 0.5 >= 1.0;
    } else if c.seconds >= 60 && c.minutes >= 60 && c.hours >= 24 && c.days >= 7 && c.weeks >= 5 {
      assert c.days as real / 7.0 + 0.5 >= 5.0;
      assert c.days as real / 30.44 + 0.5 >= 1.0;
    }
  }
}

=== FILE: titles.dfy ===
/**
  Title shortening used by the sidebar (`formatTitle` in main.history.js and
  its older twin in main.js) and by the document panel (`display_contents`).
  All three cut a long title to a prefix followed by "...".
 */
module Titles {
  import opened Strings

  /** Titles longer than `limit` become their first `keep` characters plus "...". */
  function Ellipsize(title: string, limit: nat, keep: nat): string
    requires keep <= limit
  {
    if |title| > limit then title[..keep] + "..." else title
  }

  /** What every shortening with `keep + 3 == limit` guarantees. */
  lemma EllipsizeMeaning(title: string, limit: nat, keep: nat)
    requires keep + 3 == limit
    ensures |Ellipsize(title, limit, keep)| <= limit
    ensures Ellipsize(title, limit, keep) == title <==> |title| <= limit
    ensures |title| > limit ==>
      StartsWith(title, Ellipsize(title, limit, keep)[..keep]) && Ellipsize(title, limit, keep)[keep..] == "..."
    ensures Ellipsize(Ellipsize(title, limit, keep), limit, keep) == Ellipsize(title, limit, keep)
  {
  }

  /** Sidebar row label, main.history.js. */
  function FormatTitle(title: string): (r: string)
    ensures |r| <= 25
    ensures r == title <==> |title| <= 25
    ensures |title| > 25 ==> |r| == 25 && StartsWith(title, r[..22]) && r[22..] == "..."
  {
    EllipsizeMeaning(title, 25, 22);
    Ellipsize(title, 25, 22)
  }

  /** Sidebar row label of the older flat list, main.js. */
  function LegacyFormatTitle(title: string): (r: string)
    ensures |r| <= 18
    ensures r == title <==> |title| <= 18
    ensures |title| > 18 ==> |r| == 18 && StartsWith(title, r[..15]) && r[15..] == "..."
  {
    EllipsizeMeaning(title, 18, 15);
    Ellipsize(title, 18, 15)
  }

  /** Heading of the document-contents panel, main.utils.js and main.js. */
  function PanelTitle(title: string): (r: string)
    ensures |r| <= 80
    ensures r == title <==> |title| <= 80
    ensures |title| > 80 ==> |r| == 80 && StartsWith(title, r[..77]) && r[77..] == "..."
  {
    EllipsizeMeaning(title, 80, 77);
    Ellipsize(title, 80, 77)
  }

  /** Shortening a label twice changes nothing. */
  lemma FormatTitleIdempotent(title: string)
    ensures FormatTitle(FormatTitle(title)) == FormatTitle(title)
  {
  }

  /**
    The two sidebar variants agree exactly on titles of at most 18
    characters and disagree on every title of 19 to 25 characters.
   */
  lemma FormatTitleVariants(title: string)
    ensures |title| <= 18 ==> FormatTitle(title) == LegacyFormatTitle(title)
    ensures 18 < |title| <= 25 ==> FormatTitle(title) == title && LegacyFormatTitle(title) != title
  {
  }
}

=== FILE: views.dfy ===
/**
  The request handlers of the website (PB_Assistant/website/views.py) that
  carry logic of their own: the model list fetched from Ollama, the
  validation in front of a search, the sidebar's history feed and the
  user id an anonymous request falls back to. The HTTP client, the search
  service and the database are inputs.
 */
module Views {
  import opened Base
  import opened Strings
  import opened PyValues

  // ---------------------------------------------------------------- ordering

  /** Python's `<=` on strings: lexicographic by code point. */
  predicate LexLe(a: string, b: string)
    decreases |a|
  {
    a == [] || (b != [] && (a[0] < b[0] || (a[0] == b[0] && LexLe(a[1..], b[1..]))))
  }

  lemma {:induction false} LexTotal(a: string, b: string)
    ensures LexLe(a, b) || LexLe(b, a)
    decreases |a|
  {
    if a != [] && b != [] && a[0] == b[0] {
      LexTotal(a[1..], b[1..]);
    }
  }

  lemma {:induction false} LexTrans(a: string, b: string, c: string)
    requires LexLe(a, b) && LexLe(b, c)
    ensures LexLe(a, c)
    decreases |a|
  {
    if a != [] && a[0] == b[0] && b[0] == c[0] {
      LexTrans(a[1..], b[1..], c[1..]);
    }
  }

  /** The order `sorted(..., key=str.lower)` puts names in. */
  predicate KeyLe(a: string, b: string) {
    LexLe(Lower(a), Lower(b))
  }

  predicate SortedByKey(s: seq<string>) {
    forall i, j :: 0 <= i < j < |s| ==> KeyLe(s[i], s[j])
  }

  /** `x` placed in front of the first element it does not follow. */
  function Insert(x: string, s: seq<string>): (r: seq<string>)
    ensures multiset(r) == multiset(s) + multiset{x}
    ensures SortedByKey(s) ==> SortedByKey(r)
  {
    if s == [] then [x]
    else if KeyLe(x, s[0]) then
      assert SortedByKey(s) ==> forall j :: 0 <= j < |s| ==> KeyLe(x, s[j]) by {
        if SortedByKey(s) {
          forall j | 0 <= j < |s| ensures KeyLe(x, s[j]) {
            if j > 0 { LexTrans(Lower(x), Lower(s[0]), Lower(s[j])); }
          }
        }
      }
      assert [x] + s == [x] + s[..];
      [x] + s
    else
      var rest := Insert(x, s[1..]);
      assert s == [s[0]] + s[1..];
      InsertAfterHead(x, s, rest);
      [s[0]] + rest
  }

  /** The induction step of `Insert` when `x` goes after the head. */
  lemma InsertAfterHead(x: string, s: seq<string>, rest: seq<string>)
    requires s != [] && !KeyLe(x, s[0])
    requires multiset(rest) == multiset(s[1..]) + multiset{x}
    requires SortedByKey(s[1..]) ==> SortedByKey(rest)
    ensures SortedByKey(s) ==> SortedByKey([s[0]] + rest)
  {
    if SortedByKey(s) {
      assert SortedByKey(s[1..]) by {
        forall i, j | 0 <= i < j < |s[1..]| ensures KeyLe(s[1..][i], s[1..][j]) {
          assert s[1..][i] == s[i + 1] && s[1..][j] == s[j + 1];
        }
      }
      LexTotal(Lower(x), Lower(s[0]));
      forall j | 0 <= j < |rest| ensures KeyLe(s[0], rest[j]) {
        assert rest[j] in multiset(rest);
        if rest[j] != x {
          assert rest[j] in multiset(s[1..]);
          var k :| 0 <= k < |s[1..]| && s[1..][k] == rest[j];
          assert s[k + 1] == rest[j];
        }
      }
      var r := [s[0]] + rest;
      forall i, j | 0 <= i < j < |r| ensures KeyLe(r[i], r[j]) {
        if i == 0 {
          assert r[j] == rest[j - 1];
        } else {
          assert r[i] == rest[i - 1] && r[j] == rest[j - 1];
        }
      }
    }
  }

  /** Insertion sort by `KeyLe`. */
  function SortByKey(s: seq<string>): (r: seq<string>)
    ensures multiset(r) == multiset(s)
    ensures SortedByKey(r)
  {
    if s == [] then []
    else
      assert s == [s[0]] + s[1..];
      Insert(s[0], SortByKey(s[1..]))
  }

  /** The distinct elements of `s`, each once, in order of first appearance. */
  function Dedup(s: seq<string>): (r: seq<string>)
    ensures forall x :: multiset(r)[x] == (if x in s then 1 else 0)
  {
    if s == [] then []
    else
      var init := s[..|s| - 1];
      var last := s[|s| - 1];
      assert s == init + [last];
      var rest := Dedup(init);
      if last in rest then
        assert forall x :: x in s <==> x in init || x == last;
        rest
      else rest + [last]
  }

  // ---------------------------------------------------------------- ollama_models

  /**
    What the call to Ollama's `/api/tags` gives: a connection-level
    failure (`httpx.RequestError`), a failure the view does not catch (an
    error status from `raise_for_status` or a body that is not JSON), or
    the decoded JSON body.
   */
  datatype Fetch = RequestError | StatusError | Fetched(json: PyVal)

  /** A JSON response, or an exception that escapes the view. */
  datatype Reply = Reply(status: int, body: PyVal) | Raised

  const UnreachableBody: PyVal := PDict(map["models" := PList([]), "error" := PStr("Ollama unreachable")])

  /** `m.get("name")`, or `None` when `m` is not a dictionary (where `.get` would raise). */
  function NameOf(m: PyVal): PyVal {
    if m.PDict? then Get(m.entries, "name", PNone) else PNone
  }

  /** Some entry carries `x` as a truthy name. */
  predicate Named(items: seq<PyVal>, x: string) {
    exists i :: 0 <= i < |items| && NameOf(items[i]) == PStr(x) && x != ""
  }

  /** An entry the view can read: a dictionary whose name, if truthy, is a string. */
  predicate ReadableEntry(m: PyVal) {
    m.PDict? && (Truthy(NameOf(m)) ==> NameOf(m).PStr?)
  }

  /**
    The truthy names of the entries, in order, or `None` when the view
    raises on them: `.get` on an entry that is not a dictionary, or a
    truthy name that is not a string (unhashable in the set, or refused by
    `str.lower`).
   */
  function EntryNames(items: seq<PyVal>): (r: Option<seq<string>>)
    ensures r.Some? <==> forall i :: 0 <= i < |items| ==> ReadableEntry(items[i])
    ensures r.Some? ==> forall x :: x in r.value <==> Named(items, x)
  {
    if items == [] then Some([])
    else
      var name := NameOf(items[0]);
      match EntryNames(items[1..])
      case None => None
      case Some(rest) =>
        if !items[0].PDict? then None
        else if !Truthy(name) then Some(rest)
        else if name.PStr? then Some([name.s] + rest)
        else None
  }

  /** A dictionary entry with a non-empty string name adds that name in front. */
  lemma EntryNamesNamed(m: PyVal, rest: seq<PyVal>, names: seq<string>)
    requires m.PDict? && NameOf(m).PStr? && NameOf(m).s != ""
    requires EntryNames(rest) == Some(names)
    ensures EntryNames([m] + rest) == Some([NameOf(m).s] + names)
  {
    assert ([m] + rest)[1..] == rest;
  }

  /** The entries `data.get("models", [])` iterates over, or `None` when that raises. */
  function ModelEntries(data: PyVal): (r: Option<seq<PyVal>>)
    ensures data.PDict? && "models" !in data.entries ==> r == Some([])
    ensures data.PDict? && "models" in data.entries && data.entries["models"].PList? ==> r == Some(data.entries["models"].items)
    ensures !data.PDict? ==> r.None?
  {
    if !data.PDict? then None
    else match Get(data.entries, "models", PList([]))
      case PList(items) => Some(items)
      // Iterating a string or a dictionary yields strings, whose `.get` raises; an empty one yields nothing.
      case PStr(s) => if s == "" then Some([]) else None
      case PDict(m) => if m == map[] then Some([]) else None
      case _ => None
  }

  /**
    The model names as the view lists them: the distinct truthy names,
    sorted by lower-case form. Python leaves the order of names that differ
    only in case to the set's iteration; here they keep their first
    appearance.
   */
  function ModelNames(items: seq<PyVal>): (r: Option<seq<string>>)
    ensures r.Some? <==> forall i :: 0 <= i < |items| ==> ReadableEntry(items[i])
    ensures r.Some? ==> SortedByKey(r.value)
    ensures r.Some? ==> forall x :: multiset(r.value)[x] == (if Named(items, x) then 1 else 0)
  {
    match EntryNames(items)
    case None => None
    case Some(names) => Some(SortByKey(Dedup(names)))
  }

  function ToPStr(s: string): PyVal {
    PStr(s)
  }

  /** `ollama_models`. */
  function OllamaModels(f: Fetch): (r: Reply)
    ensures f.RequestError? <==> r == Reply(503, UnreachableBody)
    ensures f.StatusError? ==> r.Raised?
    ensures r.Reply? && r.status == 200 <==>
      f.Fetched? && var data := if Truthy(f.json) then f.json else PDict(map[]);
      ModelEntries(data).Some? && ModelNames(ModelEntries(data).value).Some?
    ensures r.Reply? && r.status == 200 ==>
      var data := if Truthy(f.json) then f.json else PDict(map[]);
      r.body == PDict(map["models" := PList(Map(ModelNames(ModelEntries(data).value).value, ToPStr))])
  {
    match f
    case RequestError => Reply(503, UnreachableBody)
    case StatusError => Raised
    case Fetched(json) =>
      var data := if Truthy(json) then json else PDict(map[]);
      match ModelEntries(data)
      case None => Raised
      case Some(items) =>
        match ModelNames(items)
        case None => Raised
        case Some(names) => Reply(200, PDict(map["models" := PList(Map(names, ToPStr))]))
  }

  /** A body without a "models" key (or an empty one) lists no models. */
  lemma NoModelsListed(json: PyVal)
    requires !Truthy(json) || (json.PDict? && "models" !in json.entries)
    ensures OllamaModels(Fetched(json)) == Reply(200, PDict(map["models" := PList([])]))
  {
    var data := if Truthy(json) then json else PDict(map[]);
    assert ModelEntries(data) == Some([]);
    assert EntryNames([]) == Some([]);
    assert Dedup([]) == [] && SortByKey([]) == [];
  }

  /** A list of readable entries is answered with 200 and the model names. */
  lemma ReadableEntriesListed(items: seq<PyVal>)
    requires forall i :: 0 <= i < |items| ==> ReadableEntry(items[i])
    ensures OllamaModels(Fetched(PDict(map["models" := PList(items)])))
      == Reply(200, PDict(map["models" := PList(Map(ModelNames(items).value, ToPStr))]))
  {
    var json := PDict(map["models" := PList(items)]);
    assert Truthy(json) by { assert "models" in json.entries; }
    assert ModelEntries(json) == Some(items) by {
      assert Get(json.entries, "models", PList([])) == PList(items);
    }
    assert ModelNames(items).Some?;
  }

  /** Each truthy name of a readable entry is listed exactly once. */
  lemma EntryNameListedOnce(items: seq<PyVal>, i: nat)
    requires forall j :: 0 <= j < |items| ==> ReadableEntry(items[j])
    requires i < |items| && Truthy(NameOf(items[i]))
    ensures multiset(ModelNames(items).value)[NameOf(items[i]).s] == 1
  {
    assert ReadableEntry(items[i]);
    var x := NameOf(items[i]).s;
    assert NameOf(items[i]) == PStr(x) && x != "";
    assert Named(items, x);
  }

  /** Two entries named in order, differing beyond case, are listed in that order. */
  lemma TwoModelsListed(a: string, b: string)
    requires a != "" && b != "" && Lower(a) != Lower(b) && KeyLe(a, b)
    ensures var items := [PDict(map["name" := PStr(a)]), PDict(map["name" := PStr(b)])];
      ModelNames(items) == Some([a, b])
  {
    var items := [PDict(map["name" := PStr(a)]), PDict(map["name" := PStr(b)])];
    assert NameOf(items[0]) == PStr(a) && NameOf(items[1]) == PStr(b);
    EntryNamesNamed(items[1], [], []);
    assert [items[1]] + [] == items[1..];
    assert [NameOf(items[1]).s] + [] == [b];
    EntryNamesNamed(items[0], items[1..], [b]);
    assert [items[0]] + items[1..] == items;
    assert a != b;
    assert Dedup([a]) == [a];
    assert Dedup([a, b]) == [a, b] by {
      assert [a, b][..1] == [a];
    }
    assert SortByKey([b]) == [b];
    assert SortByKey([a, b]) == [a, b] by {
      assert [a, b][1..] == [b];
    }
  }

  /** The two models of the view's test come back as given. */
  lemma TestModelsListed()
    ensures ModelNames([PDict(map["name" := PStr("model1")]), PDict(map["name" := PStr("model2")])]) == Some(["model1", "model2"])
  {
    assert Lower("model1") == "model1" && Lower("model2") == "model2";
    assert KeyLe("model1", "model2");
    TwoModelsListed("model1", "model2");
  }

  // ---------------------------------------------------------------- search

  /** The two form fields `search` reads (`request.POST.get`). */
  datatype SearchForm = SearchForm(userPrompt: Option<string>, model: Option<string>)

  /**
    A search request's answer: 400 with a message, a redirect carrying a
    flash error, or the rendered result of `perform_search(query, model,
    request.user)` with no history id.
   */
  datatype SearchReply =
    | BadRequest(message: string)
    | Redirect(location: string, flash: string)
    | Searched(query: string, model: string)

  datatype SearchOutcome = SearchOutcome(reply: SearchReply, session: map<string, string>)

  const PromptRequired: string := "user_prompt is required"
  const SelectModel: string := "Please select a model before running a search."
  const SessionModelKey: string := "ollama_model"

  /** The target `redirect('website/index.html')` produces: not a route name, so the text itself. */
  const IndexTemplate: string := "website/index.html"

  /** `reverse('index')`: the index route is the empty path (PB_Assistant/website/urls.py). */
  const IndexUrl: string := "/"

  /** `(field or '').strip()`. */
  function FormField(v: Option<string>): (r: string)
    ensures Trimmed(Python, r)
    ensures v.None? ==> r == ""
  {
    Strip(Python, v.GetOr(""))
  }

  /** `search`, sending an unmodelled request back to `location`. */
  function SearchTo(location: string, form: SearchForm, session: map<string, string>): (r: SearchOutcome)
    ensures FormField(form.userPrompt) == "" ==> r == SearchOutcome(BadRequest(PromptRequired), session)
    ensures FormField(form.userPrompt) != "" && FormField(form.model) == "" ==>
      r == SearchOutcome(Redirect(location, SelectModel), session)
    ensures FormField(form.userPrompt) != "" && FormField(form.model) != "" ==>
      r.reply == Searched(FormField(form.userPrompt), FormField(form.model))
      && r.session == session[SessionModelKey := FormField(form.model)]
  {
    var query := FormField(form.userPrompt);
    var model := FormField(form.model);
    if query == "" then SearchOutcome(BadRequest(PromptRequired), session)
    else if model == "" then SearchOutcome(Redirect(location, SelectModel), session)
    else SearchOutcome(Searched(query, model), session[SessionModelKey := model])
  }

  /** `search` as written: the redirect target is the template's file name. */
  function SearchAsWritten(form: SearchForm, session: map<string, string>): SearchOutcome {
    SearchTo(IndexTemplate, form, session)
  }

  /** `search` redirecting to the index page, as its test expects. */
  function Search(form: SearchForm, session: map<string, string>): SearchOutcome {
    SearchTo(IndexUrl, form, session)
  }

  /**
    Only whitespace-stripped values matter: a form whose fields are
    already stripped is handled exactly like the original.
   */
  lemma SearchIgnoresSurroundingSpace(form: SearchForm, session: map<string, string>)
    ensures Search(SearchForm(Some(FormField(form.userPrompt)), Some(FormField(form.model))), session) == Search(form, session)
  {
    StripIdempotent(Python, form.userPrompt.GetOr(""));
    StripIdempotent(Python, form.model.GetOr(""));
  }

  /** A prompt of blanks is refused whatever model is chosen, and the session keeps its model. */
  lemma BlankPromptRefusedFirst(prompt: string, model: Option<string>, session: map<string, string>)
    requires forall k :: 0 <= k < |prompt| ==> IsSpace(Python, prompt[k])
    ensures Search(SearchForm(Some(prompt), model), session) == SearchOutcome(BadRequest(PromptRequired), session)
  {
    StripAllSpace(Python, prompt);
  }

  /**
    The browser resolves a relative `Location` against the directory of
    the request's path.
   */
  function ResolveLocation(requestPath: string, location: string): (r: string)
    ensures StartsWith(location, "/") ==> r == location
  {
    if StartsWith(location, "/") then location
    else
      var cut := LastSlash(requestPath);
      requestPath[..cut] + location
  }

  /** The length of the path up to and including its last '/', or 0. */
  function LastSlash(p: string): (r: nat)
    ensures r <= |p|
    ensures r > 0 ==> p[r - 1] == '/'
  {
    if p == [] then 0
    else if p[|p| - 1] == '/' then |p|
    else LastSlash(p[..|p| - 1])
  }

  const SearchPath: string := "/search/"

  /**
    As written, a search without a model sends the browser from
    "/search/" to "/search/website/index.html", which no route serves,
    rather than to the index page.
   */
  lemma SearchRedirectMissesIndex(prompt: string, session: map<string, string>)
    requires FormField(Some(prompt)) != ""
    ensures SearchAsWritten(SearchForm(Some(prompt), None), session).reply == Redirect(IndexTemplate, SelectModel)
    ensures ResolveLocation(SearchPath, IndexTemplate) == SearchPath + IndexTemplate != IndexUrl
  {
    assert FormField(None) == "";
    TemplateIsRelative();
  }

  lemma TemplateIsRelative()
    ensures ResolveLocation(SearchPath, IndexTemplate) == SearchPath + IndexTemplate
  {
    assert !StartsWith(IndexTemplate, "/") by {
      assert IndexTemplate[0] != '/';
    }
    assert LastSlash(SearchPath) == |SearchPath|;
    assert SearchPath[..|SearchPath|] == SearchPath;
  }

  /** The corrected view sends the same request to the index page. */
  lemma SearchRedirectsToIndex(prompt: string, session: map<string, string>)
    requires FormField(Some(prompt)) != ""
    ensures Search(SearchForm(Some(prompt), None), session) == SearchOutcome(Redirect(IndexUrl, SelectModel), session)
  {
    assert FormField(None) == "";
  }

  // ---------------------------------------------------------------- user and history

  /** `request.user`: anonymous, or a logged-in user with an id. */
  datatype User = Anonymous | Authenticated(id: int)

  const AnonymousUserId: int := 1

  /** `get_user_id_async`. */
  function UserId(u: User): (r: int)
    ensures u.Authenticated? ==> r == u.id
    ensures u.Anonymous? ==> r == AnonymousUserId
  {
    match u
    case Anonymous => AnonymousUserId
    case Authenticated(id) => id
  }

  /** Anonymous requests act on user 1's history: both get the same id. */
  lemma AnonymousActsAsUserOne()
    ensures UserId(Anonymous) == UserId(Authenticated(1))
    ensures forall u: User :: UserId(u) == 1 <==> u == Anonymous || u == Authenticated(1)
  {
  }

  /** A search-history record as `retrieve_search_history_by_user` returns it. */
  datatype HistoryRecord = HistoryRecord(id: int, query: string, timestamp: string, folderId: Option<int>)

  /** One `{"id", "title"}` entry of the history feed. */
  datatype HistoryEntry = HistoryEntry(id: int, title: string)

  function Entry(rec: HistoryRecord): HistoryEntry {
    HistoryEntry(rec.id, rec.query)
  }

  /**
    `history`: the records of the requesting user (anonymous meaning user
    1), each reduced to its id and its query as title, in order; a missing
    or empty result gives an empty list. `lookup` stands for the database
    query.
   */
  function History(u: User, lookup: int -> Option<seq<HistoryRecord>>): (r: seq<HistoryEntry>)
    ensures var recs := lookup(UserId(u)).GetOr([]);
      |r| == |recs| && forall i :: 0 <= i < |recs| ==> r[i].id == recs[i].id && r[i].title == recs[i].query
  {
    match lookup(UserId(u))
    case None => []
    case Some(recs) => Map(recs, Entry)
  }

  /**
    The feed depends on nothing but the ids and queries: two record lists
    that agree on those give the same feed, whatever their timestamps and
    folders.
   */
  lemma HistoryForgetsOtherFields(u: User, a: int -> Option<seq<HistoryRecord>>, b: int -> Option<seq<HistoryRecord>>)
    requires var ra := a(UserId(u)).GetOr([]); var rb := b(UserId(u)).GetOr([]);
      |ra| == |rb| && forall i :: 0 <= i < |ra| ==> ra[i].id == rb[i].id && ra[i].query == rb[i].query
    ensures History(u, a) == History(u, b)
  {
    var ha := History(u, a);
    var hb := History(u, b);
    assert |ha| == |hb|;
    forall i | 0 <= i < |ha| ensures ha[i] == hb[i] {
    }
  }
}
